=== FILE: README.md ===
# TattlerDB-MongoDB in Dafny

TattlerDB keeps restaurant data in MongoDB. It has three sources:

- Google place search results saved as JSON pages;
- Google reviews fetched per restaurant;
- the INEGI DENUE business register, read from a CSV file.

The repository holds three controllers:

- INEGI restaurants, hard-deleted, keyed by `id`;
- Google restaurants, soft-deleted, keyed by `data_id`;
- Google reviews, soft-deleted, keyed by the pair (`review_id`, `data_id`).

Only the INEGI controller is routed. The Express router (`api/routes/index.js`) mounts `/restaurants`, which is wired to `controllers/restaurant.controller.js`, and `/health`. No router mounts the Google restaurant controller or `api/routes/review.routes.js`. Those two controllers cannot be reached through the API; they are modelled as written.

The project models the record-shaping and control logic of those scripts and controllers. The store is modelled abstractly. The parts modelled are:

- **JavaScript values.** A `Json.Value` datatype with explicit truthiness, `||`, `&&`, property reads and strict equality.
- **A collection.** A sequence of documents in natural order, with the reads and writes the controllers use:
  - `findOne` (the first match);
  - `find`;
  - `countDocuments`;
  - `updateOne` with and without upsert;
  - `deleteOne`.

  A unique key is an invariant that the upserts are proved to keep.
- **The review normalisers.** `normalizeReview` / `extractImagesFromReview` in the download script and `normalizeFromRaw` / `extractImages` in the refactor script. Each one is related to a reference fallback-chain definition (`Json.FirstTruthy`) and to the other normaliser.
- **The restaurant normalisers.**
  - `parseRestaurant` and its import loop.
  - The INEGI CSV row transform. It is written once and applied to both scripts' column tables, which are proved to give the same documents.
  - The `data_id` backfill.
  - The backup migration.
- **The budgeted review download.**
  - The per-restaurant skip, the request counter and the first-page upsert.
  - The primary-plus-fallback batch selection.
  - The main loop that stamps `last_reviews_fetched_at`.
- **The paginated place download.** It is modelled as a function of an oracle from requests to replies. A loop method is proved equal to that function, with the file names and the global item cap.
- **The controllers.** Each endpoint is a function from the collection and the request to the new collection and the answer (`Requests.Outcome`).
- **`ApiError`.** Its factories, and the error middleware's status code.
- **The `$jsonSchema` validator** of the INEGI collection, as a predicate on the documents the Node driver stores. No script in the repository installs it as the collection's validator: the imports drop the collection and refill it with `insertMany`.

Everything outside the process is a parameter:

- `parseFloat` and `parseInt` are function-typed parameters that return `Option<real>` / `Option<int>`, with `None` for NaN.
- `new Date()` is an `int` instant.
- `new ObjectId()` is a parameter. An upsert that may insert carries the new `_id` (`Store.UpsertWith`). A script that inserts many documents takes an `IdSource`: `ids(n)` is the `_id` given to a document inserted while the collection holds `n` documents.
- `toISOString` and the ObjectId timestamp are the functions of `BackupMigration.Clock`.
- A SerpApi reply is a `Reply` (failed, or a body).

Where the code and its documentation disagree, the model follows the code:

- The fallback selection can pick a restaurant twice.
- A review without an id is stored with a null `review_id`.
- A Google re-import overwrites `created_at` and undoes a soft delete.
- Deleting an already soft-deleted Google restaurant succeeds again instead of answering 404.

## Model

| member | source | states |
|---|---|---|
| ApiErrors.MakeApiError | api/utils/apiError.js:5-8 | message and code are kept; `status` is `Fail` exactly when the code is positive and its leading decimal digit is 4 |
| ApiErrors.ClientErrorsFail | api/utils/apiError.js:8 | every code from 400 to 499 gives `'fail'` |
| ApiErrors.ServerErrorsError | api/utils/apiError.js:8 | every code from 500 to 599 gives `'error'` |
| ApiErrors.NotFound | api/utils/apiError.js:18-20 | the message with code 404 and status fail |
| ApiErrors.BadRequest | api/utils/apiError.js:27-29 | the message with code 400 and status fail |
| ApiErrors.Internal | api/utils/apiError.js:36-38 | the message with code 500 and status error |
| ApiErrors.Unauthorized | api/utils/apiError.js:45-47 | the message with code 401 and status fail |
| ApiErrors.Forbidden | api/utils/apiError.js:54-56 | the message with code 403 and status fail |
| ApiErrors.HttpStatus | server.js:70 | a thrown ApiError answers with its own code when that is non-zero and 500 when it is 0; any other exception answers 500 |
| JsString.Trim | scripts/import_inegi_local.js:56-57 | the result is a contiguous slice of the input with only whitespace removed before and after it, and no whitespace at either end |
| JsString.TrimEmptyIff | api/controllers/restaurant.controller.js:249 | a string trims to empty exactly when every character of it is whitespace |
| JsString.TrimIdempotent | scripts/import_inegi_local.js:57 | trimming a trimmed value changes nothing |
| JsString.ReplaceWhitespace | scripts/download_google_places.js:56 | same length; each whitespace character becomes the replacement and every other character is kept in place |
| JsString.DecimalString | api/utils/apiError.js:8 | non-empty; all digits for a non-negative number; starts with '-' exactly for a negative one |
| JsString.DecimalStartsWithLeadingDigit | api/utils/apiError.js:8 | the first character of a natural number's rendering is its most significant digit |
| Json.FirstTruthy | scripts/download_google_reviews.js:60-68 | the first truthy candidate of a JavaScript or-chain, or the fallback when none is truthy |
| Json.GuardedPath | scripts/download_google_reviews.js:56 | `v.a && v.a.b` is truthy exactly when the total nested read is, and then equals it |
| Store.FindFirst | api/controllers/restaurant.controller.js:67 | the least matching position, or none when no document matches |
| Store.FindOne | api/controllers/restaurant.controller.js:67 | the first matching stored document, no earlier document matching; none exactly when no document matches |
| Store.Select | api/controllers/restaurant.controller.js:28-31 | exactly the matching stored documents (both directions of membership) |
| Store.SelectAppend | api/controllers/restaurant.controller.js:28-31 | the matches of two collections read one after the other are their matches one after the other |
| Store.SelectOne | api/controllers/restaurant.controller.js:28-31 | a single document is selected exactly when it matches; with SelectAppend this fixes the order and multiplicity of every selection |
| Store.SelectEverything | controllers/restaurant.controller.js:22-30 | the empty filter returns the whole collection in order |
| Store.UpdateOne | api/controllers/restaurant.controller.js:111 | matched iff some document matches; then the first match, no earlier document matching, is merged with the update and nothing else changes; otherwise an upsert appends exactly `Inserted` of the filter, the update and the new `_id`, and a plain update changes nothing |
| Store.Inserted | api/controllers/restaurant.controller.js:111 | the document an upsert inserts: the filter's equalities overridden by the update's fields, plus `_id`, which is the new ObjectId when neither supplies one |
| Store.WithObjectId | controllers/restaurant.controller.js:114-118 | `insertOne` and `insertMany` give a document whose `_id` is null or missing the new ObjectId; every other field is unchanged |
| Store.DeleteOne | controllers/restaurant.controller.js:203 | removes exactly the first matching document, and nothing when no document matches |
| Store.RewriteEach | scripts/refactor_reviews_google.js:56-69 | the cursor sweep rewrites exactly the accepted documents in place and counts them |
| Store.UpsertKeepsKeyUnique | api/controllers/restaurant.controller.js:111 | an upsert by a natural key that its update carries keeps that key unique and leaves a document with it |
| Store.UpsertFindable | api/controllers/restaurant.controller.js:111-112 | after such an upsert, `findOne` by the key finds a document |
| Store.UpsertKeepsKeys | scripts/import_google_data.js:73-77 | such an upsert changes no stored document's key and never shrinks the collection |
| Store.UpsertIdempotent | scripts/download_google_reviews.js:108-112 | repeating the same upsert matches, modifies nothing and inserts nothing |
| Store.UpsertReadBack | api/controllers/restaurant.controller.js:111-112 | reading back by the key yields the merged first match or the appended document, which is the update given the new `_id` when it has none; no other document changed |
| Store.UpdateReadBack | api/controllers/restaurant.controller.js:151-152 | an update that still matches its filter is read back at the same position |
| Pagination.Pages | api/controllers/restaurant.controller.js:40 | the ceiling of total/limit, given by its defining bounds for both signs of the limit |
| Pagination.Window | api/controllers/restaurant.controller.js:28-31 | `skip(s).limit(n)` is the slice starting at the skip, of length the smaller of the limit's absolute value and what is left, the whole rest for limit 0, and empty past the end |
| Pagination.List | api/controllers/restaurant.controller.js:19-41 | page and limit default to 1 and 20; a negative skip fails; otherwise the total is the count of matches, page, limit and pages (the ceiling) are reported, and the page is the window of the matches at skip (page-1)·limit |
| Pagination.PageHolds | api/controllers/restaurant.controller.js:19-41 | with a positive limit, the j-th match is listed on page j div limit + 1 at position j mod limit, and every page before the last is full |
| Pagination.WindowHolds | api/controllers/restaurant.controller.js:28-31 | the j-th document sits at position j mod limit of the window starting at the multiple of the limit below j |
| Pagination.ListNotDeleted | api/controllers/review.controller.js:12-24 | the total counts exactly the stored documents whose `deleted` is not true, and the page is their window at the page's skip |
| Requests.FormatLocation | api/controllers/restaurant.controller.js:136-142 | none exactly when the coordinates are null or undefined; otherwise a Point with two coordinates, each parsed from the input's coordinate at the same index |
| Requests.FormatBody | api/controllers/restaurant.controller.js:135-143 | fails exactly on a truthy `ubicacion` without coordinates; keeps the key set and every other field; replaces a truthy `ubicacion` by its point |
| Requests.SoftDeleteApplied | api/controllers/restaurant.controller.js:178-181 | stamping the first match keeps it in place with `deleted` true, both stamps now, every other field and every other document unchanged |
| Requests.LocationQuery | api/controllers/restaurant.controller.js:195-210 | succeeds iff both coordinates are truthy and parse; the missing and the unparsable case each give their own 400; the point is [lng, lat]; the distance defaults to 1000 |
| Requests.TextQuery | api/controllers/restaurant.controller.js:245-251 | succeeds iff `q` is a string with a non-whitespace character, and searches for it untrimmed; falsy or blank gives 400; a truthy non-string throws |
| GoogleRestaurantApi.GetRestaurant | api/controllers/restaurant.controller.js:60-78 | the first stored document, in natural order, with the `data_id` that is not soft-deleted; 404 exactly when none exists |
| GoogleRestaurantApi.Prepared | api/controllers/restaurant.controller.js:86-107 | the deletion is cleared and `modified_at` set; the body's truthy `data_id` is kept, else the fresh id; `ubicacion` is reformatted only when it has coordinates; other fields come from the body |
| GoogleRestaurantApi.CreateRestaurant | api/controllers/restaurant.controller.js:84-120 | for a body whose `_id` is absent or equals the matched document's, succeeds (a differing `_id` is not rejected here, see Left out); the answer is the stored document at the upsert's position, with every prepared field and either the matched document's other fields or, when inserted, exactly the prepared keys plus `_id` (the new ObjectId unless the body has one); other documents are unchanged; `data_id` stays unique |
| GoogleRestaurantApi.CreateThenGet | api/controllers/restaurant.controller.js:111-112 | after a create naming a `data_id`, get by it succeeds, even if a soft-deleted document had it |
| GoogleRestaurantApi.UpdateSet | api/controllers/restaurant.controller.js:129-150 | fails exactly on a truthy `ubicacion` without coordinates; drops `_id`, sets `modified_at`, keeps every other body field |
| GoogleRestaurantApi.UpdateRestaurant | api/controllers/restaurant.controller.js:126-163 | throws on a bad `ubicacion` before reading the store; 404 iff no live document has the `data_id`; otherwise the first document with it is merged with the update, keeps its `_id`, and is read back when the update keeps its `data_id` |
| GoogleRestaurantApi.DeleteRestaurant | api/controllers/restaurant.controller.js:169-190 | 404 iff no document at all has the `data_id`; otherwise the first one is soft-deleted at now and kept |
| GoogleRestaurantApi.DeleteThenGet | api/controllers/restaurant.controller.js:175-181 | with unique `data_id`s, get after delete answers 404 |
| GoogleRestaurantApi.DeleteTwice | api/controllers/restaurant.controller.js:175-176 | a second delete of the same restaurant succeeds again |
| ReviewApi.GetById | api/controllers/review.controller.js:35-51 | the first stored review, in natural order, with the `review_id` that is not soft-deleted; 404 exactly when none exists |
| ReviewApi.GetByDataId | api/controllers/review.controller.js:77-90 | exactly the stored reviews of the restaurant that are not soft-deleted, each once and in store order (the selection of the filter) |
| ReviewApi.Payload | api/controllers/review.controller.js:99-101 | deletion cleared and `modified_at` set; the key set is the body's plus the three; every other field is kept |
| ReviewApi.CreateReview | api/controllers/review.controller.js:92-117 | 400 iff the body or either id is missing; otherwise (for a payload whose `_id` is absent or equals the matched review's; see Left out) the upsert by the pair writes every payload field at its position and changes no other review; a matched review is answered with the payload; an inserted one is stored with the new ObjectId unless the payload has an `_id`, and the answer is that stored review; the pair stays unique |
| ReviewApi.CreateThenListed | api/controllers/review.controller.js:104-110 | a created review is afterwards among its restaurant's live reviews |
| ReviewApi.UpdateReview | api/controllers/review.controller.js:54-72 | 404 iff no live review has the `review_id`; otherwise (for a body whose `_id` is absent or equals the matched review's; see Left out) the first review with it is merged with the body and `modified_at`, other fields kept, and read back when its `review_id` is unchanged |
| ReviewApi.DeleteReview | api/controllers/review.controller.js:120-141 | 404 iff no live review has the `review_id`; otherwise the first review with it is soft-deleted at now and kept |
| ReviewApi.DeleteThenGet | api/controllers/review.controller.js:126-131 | with unique `review_id`s, get after delete answers 404 |
| ReviewApi.DeleteTwice | api/controllers/review.controller.js:126-127 | with unique `review_id`s, a second delete answers 404 and changes nothing |
| ReviewApi.SharedReviewIdAllowed | api/controllers/review.controller.js:104-107 | two reviews of different restaurants may share a `review_id` under the pair key |
| ReviewApi.SharedReviewIdSurvivesDelete | api/controllers/review.controller.js:126-131 | deleting one of them by `review_id` leaves the other readable by the same `review_id` |
| InegiRestaurantApi.ListRestaurants | controllers/restaurant.controller.js:16-53 | fails iff the skip is negative; otherwise the total is the collection's size, page, limit and pages are reported, and the page is the window of the whole collection at skip (page-1)·limit |
| InegiRestaurantApi.GetRestaurant | controllers/restaurant.controller.js:58-80 | the first stored document, in natural order, with the `id`; 404 exactly when none exists |
| InegiRestaurantApi.CreateRestaurant | controllers/restaurant.controller.js:85-130 | throws iff the body is absent or its `ubicacion` has no coordinates; 400 iff a stored document already has the id, with the store unchanged; otherwise exactly one document is appended, with the id, the `_id` rule, a truthy `ubicacion` replaced by its Point (a falsy one kept) and the body's other fields, and ids stay unique |
| InegiRestaurantApi.CreateThenGet | controllers/restaurant.controller.js:105-118 | a created restaurant is afterwards found by its `id` |
| InegiRestaurantApi.UpdateSet | controllers/restaurant.controller.js:135-153 | none iff the body is absent or its `ubicacion` has no coordinates; drops `_id`; a truthy `ubicacion` becomes its Point and a falsy one is kept; every other key and field is kept |
| InegiRestaurantApi.UpdateRestaurant | controllers/restaurant.controller.js:135-185 | 404 iff no document has the id; otherwise the first one is merged with the update; `'No changes made'` exactly when that left it as it was; the updated document is read back when the id is kept |
| InegiRestaurantApi.DeleteRestaurant | controllers/restaurant.controller.js:190-218 | 404 iff no document has the id; otherwise exactly the first such document is removed |
| InegiRestaurantApi.DeleteThenGet | controllers/restaurant.controller.js:198-203 | with unique ids, get after delete answers 404 and the collection shrank by one |
| ReviewDocs.ToDoc | scripts/download_google_reviews.js:59-71 | the written document has exactly the eleven normalised field names, with the review's key pair |
| ReviewDocs.FirstTruthyField | scripts/download_google_reviews.js:37-38 | a truthy value read from one of the keys; none exactly when every key reads falsy |
| ReviewDocs.CollectImages | scripts/download_google_reviews.js:34-39 | at most one image per item, all truthy |
| ReviewDocs.CollectImagesMembers | scripts/download_google_reviews.js:34-39 | the images are exactly the contributions of the items |
| ReviewDocs.CollectEmptyIff | scripts/download_google_reviews.js:42 | no image exactly when no item contributes one |
| ReviewDocs.CollectAppend | scripts/download_google_reviews.js:33-49 | two arrays read one after the other yield their images one after the other |
| GoogleReviewsDownload.ExtractImagesFromReview | scripts/download_google_reviews.js:30-51 | images come from `photos` when it yields any, else from `images`, never merged; none for a falsy review; all truthy |
| GoogleReviewsDownload.ReviewIdOf | scripts/download_google_reviews.js:60 | the first truthy of `review_id` and `id`, else null |
| GoogleReviewsDownload.AuthorOf | scripts/download_google_reviews.js:55-63 | `user.name`, else the flat author, else null |
| GoogleReviewsDownload.RatingOf | scripts/download_google_reviews.js:64 | any non-nullish rating is kept, zero included; null otherwise |
| GoogleReviewsDownload.TextOf | scripts/download_google_reviews.js:56-65 | the first truthy of text, snippet, `extracted_snippet.snippet`, else null |
| GoogleReviewsDownload.DateOf | scripts/download_google_reviews.js:58-66 | the first truthy of `iso_date`, `iso_date_of_last_edit`, `date`, else null |
| GoogleReviewsDownload.SourceOf | scripts/download_google_reviews.js:68 | the review's truthy source, else `'Google'` |
| GoogleReviewsDownload.NormalizeReview | scripts/download_google_reviews.js:54-72 | every field is the first truthy candidate of its chain (a review without an id keeps a null `review_id`); the raw review is kept verbatim |
| GoogleReviewsDownload.SliceLen | scripts/download_google_reviews.js:104 | `slice(0, end)` length for in-range, too large, negative and NaN ends |
| GoogleReviewsDownload.FirstPage | scripts/download_google_reviews.js:102-104 | at most the per-restaurant count of the reply's reviews, each the normalisation of the entry at its position; none for a NaN or zero count |
| GoogleReviewsDownload.UpsertReview | scripts/download_google_reviews.js:108-113 | one upsert adds at most one document, and an added one carries the ObjectId `ids(n)` for a collection of n documents |
| GoogleReviewsDownload.UpsertReviews | scripts/download_google_reviews.js:107-114 | the write count is at most the number of reviews, and the collection grows by at most that many |
| GoogleReviewsDownload.UpsertReviewsKeepUnique | scripts/download_google_reviews.js:107-114 | the (review_id, data_id) pair stays unique and the last review is findable by its pair |
| GoogleReviewsDownload.FetchAndInsertFirstPageReviews | scripts/download_google_reviews.js:75-125 | requests iff not enough stored reviews and the budget is not exhausted; a request counts one even when it fails; the counter stays within the limit; failures write nothing; upserts are at most the per-restaurant count; the pair stays unique |
| GoogleReviewsDownload.TakeIndices | scripts/download_google_reviews.js:160 | at most n accepted positions in increasing order, and every accepted position left out comes after all chosen ones |
| GoogleReviewsDownload.SelectBatch | scripts/download_google_reviews.js:143-162 | fails exactly when the batch size is NaN or not positive, which the `$limit` stage rejects; otherwise at most the batch size, all identified; the primary unreviewed selection first; then a top-up only for the shortfall, made of the first identified restaurants in natural order |
| GoogleReviewsDownload.FallbackRepeatsRestaurants | scripts/download_google_reviews.js:158-161 | a restaurant can be selected twice |
| GoogleReviewsDownload.StampRequested | scripts/download_google_reviews.js:176-180 | a restaurant is stamped exactly when a request was spent on it, otherwise unchanged |
| GoogleReviewsDownload.Visit | scripts/download_google_reviews.js:166-184 | skipped iff an id is missing, with nothing changed; the counter grows by one iff a request was spent, and then the restaurant is stamped |
| GoogleReviewsDownload.RunBatch | scripts/download_google_reviews.js:164-189 | exactly the unidentified restaurants are skipped; it stops early only at the limit; requests never exceed the limit; totals and stamps match the steps; the pair stays unique |
| GoogleReviewsDownload.DownloadReviews | scripts/download_google_reviews.js:127-192 | aborted, with nothing changed and no request, exactly when the batch size is NaN or not positive; otherwise the selection uses the cooldown instant, and the RunBatch guarantees hold over it |
| ReviewsRefactor.FirstNonEmpty | scripts/refactor_reviews_google.js:12-24 | the images of a candidate with no yielding candidate before it; none exactly when no candidate yields any |
| ReviewsRefactor.ExtractImages | scripts/refactor_reviews_google.js:8-29 | none for a falsy review; the first yielding candidate's images, else `[photo]` for a non-empty string photo; all truthy |
| ReviewsRefactor.AuthorOf | scripts/refactor_reviews_google.js:33 | `user.name`, else the flat author, else null, with no null default for a nameless author object |
| ReviewsRefactor.TextOf | scripts/refactor_reviews_google.js:34 | the first truthy of text, snippet, `extracted_snippet.snippet`, else null |
| ReviewsRefactor.DateOf | scripts/refactor_reviews_google.js:36-44 | the first truthy of the three iso dates and `date`, else null |
| ReviewsRefactor.ReviewIdOf | scripts/refactor_reviews_google.js:38 | the first truthy of `review_id` and `id`, else null |
| ReviewsRefactor.NormalizeFromRaw | scripts/refactor_reviews_google.js:31-50 | none exactly for a falsy raw review; otherwise it keeps the raw review and the instant |
| ReviewsRefactor.AuthorsAgree | scripts/refactor_reviews_google.js:33 | the download script's author is this one's with a falsy name replaced by null |
| ReviewsRefactor.DatesAgree | scripts/refactor_reviews_google.js:36-44 | without `iso_date_string` both scripts pick the same date |
| ReviewsRefactor.NormalizersAgree | scripts/refactor_reviews_google.js:31-50 | on a truthy review the two normalisers agree on every field but images, author and date, which agree as the two lemmas above say |
| ReviewsRefactor.Refactored | scripts/refactor_reviews_google.js:60-68 | a document without a raw review is left unchanged |
| ReviewsRefactor.RefactoredKeepsInputs | scripts/refactor_reviews_google.js:60-62 | after the `$set`, the raw review, data id and place id read as before |
| ReviewsRefactor.RefactoredIdempotent | scripts/refactor_reviews_google.js:60-68 | refactoring a refactored document at the same instant changes nothing |
| ReviewsRefactor.RefactorAll | scripts/refactor_reviews_google.js:52-74 | each document becomes its refactoring; `processed` counts exactly those with a raw review |
| ReviewsRefactor.RefactorAllIdempotent | scripts/refactor_reviews_google.js:56-69 | a second sweep at the same instant changes nothing |
| ReviewsRefactor.RawOf | scripts/refactor_reviews_google.js:60 | the first truthy of `raw_google_review` and `raw`, else null |
| ReviewsRefactor.DataIdOf | scripts/refactor_reviews_google.js:61 | the first truthy of `data_id`, `dataId` and `restaurant.data_id`, else null |
| ReviewsRefactor.PlaceIdOf | scripts/refactor_reviews_google.js:62 | the first truthy of `google_place_id` and `place_id`, else null |
| ReviewsRefactor.NormalizedOf | scripts/refactor_reviews_google.js:63-64 | none exactly when the document keeps no truthy raw review; otherwise the review built from that raw review, data id and place id |
| GoogleImport.Coordinates | scripts/import_google_data.js:23-25 | `{lat, lng}` from a truthy `gps_coordinates`, else null |
| GoogleImport.DataIdOf | scripts/import_google_data.js:39 | `data_id`, else the nested `raw_google_data.data_id`, else null |
| GoogleImport.ParseRestaurant | scripts/import_google_data.js:18-41 | `google_place_id` is the place's `place_id`; every other field is stated by the lemmas below |
| GoogleImport.ParseRestaurantIdentity | scripts/import_google_data.js:20-39 | place id, name, address, coordinates and data id come from the place, which is kept whole |
| GoogleImport.ParseRestaurantPhone | scripts/import_google_data.js:26 | a falsy phone becomes null |
| GoogleImport.ParseRestaurantRating | scripts/import_google_data.js:27 | a falsy rating becomes null, zero included |
| GoogleImport.ParseRestaurantOptionals | scripts/import_google_data.js:28-33 | the review count, type, categories, hours and thumbnail are copied when truthy and null otherwise |
| GoogleImport.ParseRestaurantImages | scripts/import_google_data.js:32 | missing photos become an empty list |
| GoogleImport.ParseRestaurantStamps | scripts/import_google_data.js:34-37 | not deleted, no deletion date, both timestamps now |
| GoogleImport.ParseRestaurantKeys | scripts/import_google_data.js:19-40 | exactly the eighteen documented fields |
| GoogleImport.ImportPlace | scripts/import_google_data.js:66-84 | a null entry crashes; a falsy place id is skipped with nothing written; otherwise it upserts by `google_place_id`, after which that id is present; keys and their uniqueness are kept |
| GoogleImport.PresentKept | scripts/import_google_data.js:73-77 | a present place id stays present across key-keeping upserts |
| GoogleImport.PlacesOf | scripts/import_google_data.js:64-66 | the first truthy of `local_results`, `results` and `[]`: an array's entries; a string's characters; nothing iterable otherwise |
| GoogleImport.ImportPlaces | scripts/import_google_data.js:66-85 | crashes iff an entry is null; otherwise every place is counted once as skipped or processed, and every place with an id is stored; upserted ≤ processed; keys stay unique |
| GoogleImport.ImportFiles | scripts/import_google_data.js:49-86 | completes iff no listed file crashes (unparseable files are passed over); then every place with an id in every walkable file is stored; keys stay unique |
| InegiCsv.AddColumnsKeys | scripts/import_inegi_local.js:55-59 | the result keeps every field and adds exactly the fields of filled columns |
| InegiCsv.AddColumnsOther | scripts/import_inegi_local.js:55-59 | a field no column targets is untouched |
| InegiCsv.AddColumnsValue | scripts/import_inegi_local.js:55-59 | with distinct fields, a column's field holds its trimmed cell when filled, else what it held before |
| InegiCsv.AddColumns | scripts/import_inegi_local.js:55-59 | the column loop never removes a field |
| InegiCsv.TransformRow | scripts/import_inegi_local.js:27-70 | every row gives a document, holding `id` and `ubicacion`; the four lemmas below state each field |
| InegiCsv.ColumnsDistinct | scripts/import_inegi_local.js:38-52 | the thirteen columns target thirteen different fields |
| InegiCsv.ColumnsWellFormed | scripts/import_inegi_local.js:38-52 | the column table is distinct and documented, and targets neither `id`, `ubicacion` nor a coordinate |
| InegiCsv.TransformRowBase | scripts/import_inegi_local.js:29-35 | `id` is the ID cell unchanged; `ubicacion` is always a Point [parsed longitude, parsed latitude] |
| InegiCsv.TransformRowColumns | scripts/import_inegi_local.js:55-59 | each column's field is present, trimmed, exactly when its cell is not blank |
| InegiCsv.TransformRowCoordinates | scripts/import_inegi_local.js:62-67 | `latitud` and `longitud` are present, as the parsed numbers, exactly when both parse |
| InegiCsv.TransformRowKeys | scripts/import_inegi_local.js:29-69 | no field outside `id`, `ubicacion`, the thirteen columns and the two coordinates |
| InegiCsv.TransformRows | scripts/import_inegi_local.js:27-70 | one document per row, in file order |
| InegiCsv.ImportRows | scripts/import_inegi_local.js:86-96 | an empty file leaves the collection as it was; otherwise the collection becomes the file's documents in order, the k-th given ObjectId `ids(k)` |
| InegiCsv.InsertRows | scripts/import_inegi_local.js:86-96 | the same for any well-formed column table, and no transformed row brings its own `_id` |
| InegiCsv.NoObjectId | scripts/import_inegi_local.js:29-69 | a transformed row has no `_id` field, so `insertMany` always gives it a new one |
| CsvImport.SameAsLocalImport | scripts/import.js:26-69 | the second script's column table gives the same documents as the first's, row for row, and is well formed |
| InegiSchema.ValidRequired | db/schema/restaurant.schema.js:6-64 | an accepted document has a string `id` and a Point `ubicacion` with two coordinates |
| InegiSchema.Valid | db/schema/restaurant.schema.js:1-94 | an accepted document has a string `id` and an object `ubicacion` whose coordinates are all doubles |
| InegiSchema.ValidNumber | db/schema/restaurant.schema.js:1-94 | the same with `double` widened to both numeric types |
| InegiSchema.ValidIsValidNumber | db/schema/restaurant.schema.js:57-64 | the validator as written accepts nothing the widened one rejects |
| InegiSchema.TransformedRowValid | db/schema/restaurant.schema.js:1-94 | the widened validator accepts a transformed CSV row exactly when the row has an ID cell |
| InegiSchema.TransformedValid | db/schema/restaurant.schema.js:6-90 | the same for any well-formed column table |
| InegiSchema.ObjectIdUnconstrained | db/schema/restaurant.schema.js:7-91 | the properties list no `_id` and extra fields are allowed, so the `_id` the driver adds does not change whether a document is accepted |
| InegiSchema.ImportedValid | scripts/import_inegi_local.js:86-96 | after an import, the k-th stored document passes the widened validator exactly when the k-th row has an ID cell |
| InegiSchema.FieldTyped | db/schema/restaurant.schema.js:7-90 | every field of a transformed row has a type its property allows |
| InegiSchema.StringAllowed | db/schema/restaurant.schema.js:12-82 | every constrained property other than the coordinates accepts a string |
| InegiSchema.ColumnValueIsString | scripts/import_inegi_local.js:55-59 | a transformed row's column fields are strings |
| InegiSchema.NullOnlyWhereNullable | db/schema/restaurant.schema.js:36-78 | an accepted document holds null only under the four nullable properties or an unlisted one |
| InegiSchema.NullableKeepsValid | db/schema/restaurant.schema.js:67-78 | clearing a nullable property keeps a document accepted |
| InegiSchema.WholeLatitudeRejected | db/schema/restaurant.schema.js:83-90 | the validator as written rejects every row whose latitude is a whole number of degrees |
| InegiSchema.WholeDegreesRejected | db/schema/restaurant.schema.js:57-64 | the row at latitude 16, longitude -93 is rejected |
| PlacesDownload.FileName | scripts/download_google_places.js:56 | a file name starts with `google_`, ends with `.json` and holds no whitespace |
| PlacesDownload.FetchFrom | scripts/download_google_places.js:39-74 | requests are made iff under budget; the count never decreases; one file per request except possibly the last |
| PlacesDownload.Fetch | scripts/download_google_places.js:34-76 | the count is the sum of the page sizes requested; a request is made iff the budget is positive; no more files than requests |
| PlacesDownload.FetchFilesNamed | scripts/download_google_places.js:53-61 | the files are named page 1, 2, … in order, each holding the reply to the request at its position |
| PlacesDownload.NoBudgetNoRequest | scripts/download_google_places.js:39 | with no budget the search makes no request and counts 0 |
| PlacesDownload.TokensChain | scripts/download_google_places.js:37-63 | requests are made iff under budget; the first carries the starting token and each later one the previous page's token |
| PlacesDownload.FilesNumbered | scripts/download_google_places.js:53-61 | one file per non-empty page, numbered from the start page, each holding its request's reply; at most the last request saves none |
| PlacesDownload.TotalCounted | scripts/download_google_places.js:39-73 | the total is the sum of the page sizes; it stops on an empty page, a missing token or the cap; the overshoot is less than the last page |
| PlacesDownload.FetchStep | scripts/download_google_places.js:39-74 | one turn of the loop: the request, then nothing after an empty page, else the page's file followed by the search from the next token or nothing |
| PlacesDownload.FetchPaginatedMunicipio | scripts/download_google_places.js:34-76 | the loop computes exactly the reference search |
| PlacesDownload.DownloadFrom | scripts/download_google_places.js:78-84 | visits at most the municipalities given |
| PlacesDownload.DownloadVisitsInOrder | scripts/download_google_places.js:80-81 | municipalities are visited in order, the first with the whole remaining budget, each with a positive budget |
| PlacesDownload.DownloadBudgetsChain | scripts/download_google_places.js:81-82 | each later municipality gets what the one before left of the budget |
| PlacesDownload.DownloadStopsAtCap | scripts/download_google_places.js:83 | the run leaves municipalities out only once the cap is reached |
| PlacesDownload.Download | scripts/download_google_places.js:78-86 | at least one and at most six searches, the municipalities in order from Monterrey, the first with the whole cap, each with a positive budget and its reply from the search of that municipality |
| DataIdBackfill.Backfill | scripts/update_data_id_restaurants.js:9-29 | each document that needs it gets the nested id; the others are unchanged; `updated` counts exactly the changed ones |
| DataIdBackfill.Selected | scripts/update_data_id_restaurants.js:13 | a selected document has an embedded `raw_google_data` object |
| DataIdBackfill.Changes | scripts/update_data_id_restaurants.js:17-18 | a changed document is selected, and the id it gets is its truthy nested `data_id` |
| DataIdBackfill.SetDataId | scripts/update_data_id_restaurants.js:19-22 | the `$set` adds or replaces `data_id` and changes no other field |
| DataIdBackfill.BackfillEffect | scripts/update_data_id_restaurants.js:17-22 | only `data_id` is touched, and afterwards a selected document with a truthy nested id carries it |
| DataIdBackfill.BackfillSettles | scripts/update_data_id_restaurants.js:17-18 | with a primitive nested id, a processed document needs no second change |
| DataIdBackfill.BackfillIdempotent | scripts/update_data_id_restaurants.js:13-22 | with primitive nested ids, a second run changes nothing and counts 0 |
| DataIdBackfill.ObjectIdsAreRewrittenEveryRun | scripts/update_data_id_restaurants.js:17-18 | an object-valued nested id is rewritten again on every run |
| BackupMigration.StampsOf | scripts/migrate_restaurants_backup.js:25-41 | a null or undefined element has no stamps |
| BackupMigration.MigrateDocFields | scripts/migrate_restaurants_backup.js:23-50 | `createdAt` from the existing value, else the `_id` time, else now; `updatedAt` defaults to `createdAt`; `deletedAt` null unless set; `deleted` is the boolean `doc.deleted === true`; other fields kept |
| BackupMigration.MigrateDocFails | scripts/migrate_restaurants_backup.js:25-41 | an element fails exactly when it is nullish or one of its dates does not convert |
| BackupMigration.MigrateDoc | scripts/migrate_restaurants_backup.js:23-50 | only a present element migrates; the result keeps its own fields and adds the four stamps, ISO strings for the two times and a boolean `deleted` |
| BackupMigration.MigrateAll | scripts/migrate_restaurants_backup.js:23-50 | a result has one document per element |
| BackupMigration.MigrateAllPointwise | scripts/migrate_restaurants_backup.js:23-50 | the result exists iff every element migrates, and is position by position their migrations |
| BackupMigration.MigrateAllDefined | scripts/migrate_restaurants_backup.js:23-50 | the migrated list exists exactly when every element migrates |
| BackupMigration.MigrateAllValues | scripts/migrate_restaurants_backup.js:23-50 | each migrated document is the migration of the element at its position |
| BackupMigration.NonArrayWrapped | scripts/migrate_restaurants_backup.js:19-21 | a non-array backup is migrated as a one-element list |
| BackupMigration.Migrate | scripts/migrate_restaurants_backup.js:16-50 | one document per element, a lone non-array document counting as one |

## Left out

- I/O and logging are not modelled: the filesystem, SerpApi over HTTP, the database connection, log output and `process.exit`. Their results are parameters (`Reply`, `File`, oracles), or they have no effect on the state.
- Store errors (`try`/`catch` around driver calls) are not modelled. Every store call succeeds. A controller exception is the `Uncaught` failure only where the controller's own code throws.
- Concurrency between overlapping requests or script runs is not modelled. Each operation is atomic.
- Floating point, `parseFloat`/`parseInt`, `toISOString`, ObjectId generation and timestamps are uninterpreted parameters. So is the clock, with one instant per run.
- `$near` and `$text` search semantics, and the search endpoints' queries, are left out. Only their parameter validation is modelled. Neither search adds the deleted filter, and the model says nothing about their results.
- MongoDB query semantics beyond equality, `$ne: true` and `$exists` are not modelled: no array-element matching and no dotted paths into arrays. Because of this, the backfill's selection is modelled on an embedded object only.
- Indexes, `drop`, `insertMany` batching and the backup file written by the INEGI import are plumbing. The unique index on (review_id, data_id) appears as the `Unique` invariant.
- The Express routes, express-validator rules and the request-body parser are not modelled. A body is an object or absent. Non-object JSON bodies are not modelled.
- The CSV parser and latin1 decoding are not modelled. A row is a map from header to cell text.
- The environment variables (batch size, reviews per restaurant, cooldown, request limit) are parameters of `DownloadReviews`, already parsed. A NaN batch size or reviews-per-restaurant is `None`.
- DownloadReviews: a NaN cooldown is not modelled, because `cooldownHours` is an integer. In the source it makes `cooldownDate` an invalid date, and what the driver then sends is not part of the repository.
- The health controller, the Mongoose-style model descriptions and the start-docs script have no behaviour the core depends on.
- BackupMigration.Spread: the spread of an array or string element into index-keyed fields is not modelled. Such an element contributes no fields.
- GoogleImport.PlacesOf: for a string result list, only the number of entries is stated, not that each entry is one character.
- GoogleImport.ImportPlaces: the totals are stated as "each place counted once, skipped or processed", not as a count of the places with an id.
- JsString.DecimalString: the contract states the character classes and the sign, not the number's value. `DecimalStartsWithLeadingDigit` relates the leading character to the value.
- Pagination.Window: a negative limit is read as the driver's single batch of at most |limit| documents.
- ReviewApi.DeleteThenGet and ReviewApi.DeleteTwice assume one review per `review_id`. The store's index is on the pair, and `SharedReviewIdSurvivesDelete` shows what happens without that assumption.
- GoogleRestaurantApi.DeleteThenGet and InegiRestaurantApi.DeleteThenGet assume unique keys. The create endpoints are proved to keep those keys unique.
- The download of the six fixed municipalities is stated for an arbitrary oracle, not for the concrete service.
- Store.UpdateOne: a field written as `undefined` is stored as undefined. The driver stores it as null. Filters compare through `Json.Norm`, so matching is the same; a read-back shows undefined where the server returns null.
- ReviewsRefactor.Refactored: an author object without a truthy name is written as undefined, where the server stores null.
- GoogleImport.ParseRestaurant: a place without `title` or `address` gets an undefined `nombre` or `direccion`, where the server stores null.
- InegiCsv.TransformRow: a row without an ID cell gets an undefined `id`, where the server stores null.
- Store.UpdateOne: a `$set` that would change a matched document's `_id` is merged. The server rejects it, because `_id` is immutable.
- GoogleRestaurantApi.CreateRestaurant: always succeeds, even when the body carries an `_id` different from the matched document's. The server would reject that `$set` and the controller would answer 500.
- ReviewApi.CreateReview: always writes the payload, even when it carries an `_id` different from the matched review's. The server would reject that `$set` and the controller would answer 500.
- ReviewApi.UpdateReview: the body's `_id` is not removed, and an `_id` different from the matched review's is merged. The server would reject that `$set` and the controller would answer 500.

## Findings

| source | as written | input that shows it | evidently intended | confidence | as-written member | corrected member |
|---|---|---|---|---|---|---|
| db/schema/restaurant.schema.js:57-64 | `coordinates` items (and `latitud`/`longitud`, lines 83-90) must have BSON type `double`, but the Node driver stores an integral JavaScript number in the 32-bit range as `int` | a CSV row with `Latitud` "16" and `Longitud` "-93": its document would be rejected wherever this schema is installed as the collection's validator; nothing in the repository installs it | any number accepted (`bsonType: "number"` or `["double", "int"]`), so that every transformed row with an ID is stored | not executed | InegiSchema.WholeLatitudeRejected | InegiSchema.TransformedRowValid |

=== FILE: api_error.dfy ===
/** The API's error values: the `ApiError` class with its status-code factories, and how the
    application's error middleware turns a failure into an HTTP status. */
module ApiErrors {
  import JsString

  datatype Status = Fail | Error

  datatype ApiError = ApiError(message: string, statusCode: int, status: Status)

  /** `new ApiError(message, statusCode)`: `status` is `'fail'` when the code's decimal
      rendering starts with '4', otherwise `'error'`. */
  function MakeApiError(message: string, statusCode: int): (e: ApiError)
    ensures e.message == message && e.statusCode == statusCode
    ensures e.status == Fail <==> statusCode > 0 && JsString.LeadingDigit(statusCode) == 4
  {
    var rendered := JsString.DecimalString(statusCode);
    var e := ApiError(message, statusCode, if JsString.StartsWith(rendered, "4") then Fail else Error);
    if statusCode >= 0 then
      JsString.DecimalStartsWithLeadingDigit(statusCode);
      e
    else
      e
  }

  /** Every 4xx code yields `'fail'`. */
  lemma ClientErrorsFail(message: string, statusCode: int)
    requires 400 <= statusCode < 500
    ensures MakeApiError(message, statusCode).status == Fail
  {
    assert JsString.Pow10(2) == 100;
    JsString.LeadingDigitOfRange(statusCode, 4, 2);
  }

  /** Every 5xx code yields `'error'`. */
  lemma ServerErrorsError(message: string, statusCode: int)
    requires 500 <= statusCode < 600
    ensures MakeApiError(message, statusCode).status == Error
  {
    assert JsString.Pow10(2) == 100;
    JsString.LeadingDigitOfRange(statusCode, 5, 2);
  }

  function NotFound(message: string): (e: ApiError)
    ensures e == ApiError(message, 404, Fail)
  {
    ClientErrorsFail(message, 404);
    MakeApiError(message, 404)
  }

  function BadRequest(message: string): (e: ApiError)
    ensures e == ApiError(message, 400, Fail)
  {
    ClientErrorsFail(message, 400);
    MakeApiError(message, 400)
  }

  function Internal(message: string): (e: ApiError)
    ensures e == ApiError(message, 500, Error)
  {
    ServerErrorsError(message, 500);
    MakeApiError(message, 500)
  }

  function Unauthorized(message: string): (e: ApiError)
    ensures e == ApiError(message, 401, Fail)
  {
    ClientErrorsFail(message, 401);
    MakeApiError(message, 401)
  }

  function Forbidden(message: string): (e: ApiError)
    ensures e == ApiError(message, 403, Fail)
  {
    ClientErrorsFail(message, 403);
    MakeApiError(message, 403)
  }

  /** Why a controller call ended without a response of its own: an `ApiError` it threw, or
      another exception (a TypeError from a property read on null or undefined, a store error). */
  datatype Failure = Raised(err: ApiError) | Uncaught(reason: string)

  /** The error middleware's status: `err.statusCode || 500`. */
  function HttpStatus(f: Failure): (code: int)
    ensures f.Raised? && f.err.statusCode != 0 ==> code == f.err.statusCode
    ensures f.Raised? && f.err.statusCode == 0 ==> code == 500
    ensures f.Uncaught? ==> code == 500
  {
    match f
    case Raised(e) => if e.statusCode != 0 then e.statusCode else 500
    case Uncaught(_) => 500
  }
}

=== FILE: backup_migration.dfy ===
/** The script that rewrites a restaurant backup so every document carries ISO `createdAt`,
    `updatedAt` and `deletedAt` strings and a boolean `deleted`. */
module BackupMigration {
  import opened Wrappers
  import opened Json

  /** The operations on dates the script relies on. `iso(v)` is `new Date(v).toISOString()`,
      `None` when that throws on an invalid date; `idTime(id)` is the creation time of
      `ObjectId(id)`, `None` when `id` is not an object id. */
  datatype Clock = Clock(now: int, iso: Value -> Option<string>, idTime: Value -> Option<int>)

  /** `Array.isArray(data) ? data : [data]`. */
  function Elements(data: Value): seq<Value> {
    if data.Arr? then data.items else [data]
  }

  /** The own fields `{...doc}` copies (array and string elements are given none). */
  function Spread(doc: Value): Doc {
    if doc.Obj? then doc.fields else map[]
  }

  /** `getDateFromObjectId(id)`: the id's timestamp, or now when it is not an object id. */
  function DateFromObjectId(id: Value, clock: Clock): Value {
    match clock.idTime(id)
    case Some(t) => Date(t)
    case None => Date(clock.now)
  }

  /** The value `createdAt` is converted from: the existing one, else the `_id` timestamp,
      else now. */
  function CreatedSource(doc: Value, clock: Clock): Value {
    if Truthy(Get(doc, "createdAt")) then Get(doc, "createdAt")
    else if Truthy(Get(doc, "_id")) then DateFromObjectId(Get(doc, "_id"), clock)
    else Date(clock.now)
  }

  /** The four rewritten fields, or `None` when `doc` is null or undefined (reading a property
      of it throws) or a date conversion throws. */
  datatype Stamps = Stamps(createdAt: string, updatedAt: string, deletedAt: Value, deleted: bool)

  function StampsOf(doc: Value, clock: Clock): (r: Option<Stamps>)
    ensures r.Some? ==> !Nullish(doc)
  {
    if Nullish(doc) then None
    else
      match clock.iso(CreatedSource(doc, clock))
      case None => None
      case Some(created) =>
        var updated := if Truthy(Get(doc, "updatedAt")) then clock.iso(Get(doc, "updatedAt")) else Some(created);
        var deletedAt := if Truthy(Get(doc, "deletedAt")) then (match clock.iso(Get(doc, "deletedAt")) case Some(s) => Some(Str(s)) case None => None) else Some(Null);
        if updated.None? || deletedAt.None? then None
        else Some(Stamps(created, updated.value, deletedAt.value, Get(doc, "deleted") == Bool(true)))
  }

  /** One element of the backup, migrated: only a present element can migrate, and the
      result keeps all its own fields and carries the four stamps, with ISO strings for the
      two times and a boolean `deleted`. */
  function MigrateDoc(doc: Value, clock: Clock): (r: Option<Doc>)
    ensures r.Some? ==> !Nullish(doc)
    ensures r.Some? ==> r.value.Keys == Spread(doc).Keys + {"createdAt", "updatedAt", "deletedAt", "deleted"}
    ensures r.Some? ==> r.value["createdAt"].Str? && r.value["updatedAt"].Str? && r.value["deleted"].Bool?
  {
    match StampsOf(doc, clock)
    case None => None
    case Some(st) =>
      Some(Spread(doc)["createdAt" := Str(st.createdAt)]["updatedAt" := Str(st.updatedAt)]
                      ["deletedAt" := st.deletedAt]["deleted" := Bool(st.deleted)])
  }

  /** What the migration of one element states: `createdAt` is the ISO form of the existing
      value, else of the `_id` timestamp, else of now; `updatedAt` is the ISO form of the
      existing one, else `createdAt`; `deletedAt` is null unless one was set; `deleted` is
      true exactly when it was the boolean `true`; every other field is kept. */
  lemma MigrateDocFields(doc: Value, clock: Clock)
    requires MigrateDoc(doc, clock).Some?
    ensures var d := MigrateDoc(doc, clock).value;
            && Some(d["createdAt"].s) == clock.iso(CreatedSource(doc, clock)) && d["createdAt"].Str?
            && (!Truthy(Get(doc, "updatedAt")) ==> d["updatedAt"] == d["createdAt"])
            && (Truthy(Get(doc, "updatedAt")) ==> d["updatedAt"].Str? && Some(d["updatedAt"].s) == clock.iso(Get(doc, "updatedAt")))
            && (!Truthy(Get(doc, "deletedAt")) ==> d["deletedAt"] == Null)
            && (Truthy(Get(doc, "deletedAt")) ==> d["deletedAt"].Str? && Some(d["deletedAt"].s) == clock.iso(Get(doc, "deletedAt")))
            && d["deleted"] == Bool(Get(doc, "deleted") == Bool(true))
            && (forall key :: key !in {"createdAt", "updatedAt", "deletedAt", "deleted"} ==> Field(d, key) == Field(Spread(doc), key))
  {
  }

  /** An element fails exactly when it is null or undefined, or one of its dates does not
      convert. */
  lemma MigrateDocFails(doc: Value, clock: Clock)
    ensures MigrateDoc(doc, clock).None? <==>
              || Nullish(doc)
              || clock.iso(CreatedSource(doc, clock)).None?
              || (Truthy(Get(doc, "updatedAt")) && clock.iso(Get(doc, "updatedAt")).None?)
              || (Truthy(Get(doc, "deletedAt")) && clock.iso(Get(doc, "deletedAt")).None?)
  {
  }

  /** `data.map(migrateOne)`: all elements migrated in order, or `None` when one of them
      throws (and nothing is written). */
  function MigrateAll(elems: seq<Value>, clock: Clock): (r: Option<seq<Doc>>)
    ensures r.Some? ==> |r.value| == |elems|
  {
    if elems == [] then Some([])
    else
      match MigrateDoc(elems[0], clock)
      case None => None
      case Some(d) =>
        match MigrateAll(elems[1..], clock)
        case None => None
        case Some(ds) => Some([d] + ds)
  }

  /** The output keeps length and order: each document is the migration of the element at the
      same position; and it exists exactly when every element migrates. */
  lemma MigrateAllPointwise(elems: seq<Value>, clock: Clock)
    ensures MigrateAll(elems, clock).Some? <==> forall i :: 0 <= i < |elems| ==> MigrateDoc(elems[i], clock).Some?
    ensures MigrateAll(elems, clock).Some? ==>
              forall i :: 0 <= i < |elems| ==> MigrateAll(elems, clock).value[i] == MigrateDoc(elems[i], clock).value
  {
    MigrateAllDefined(elems, clock);
    MigrateAllValues(elems, clock);
  }

  /** The migration of the whole list exists exactly when every element migrates. */
  lemma {:induction false} MigrateAllDefined(elems: seq<Value>, clock: Clock)
    ensures MigrateAll(elems, clock).Some? <==> forall i :: 0 <= i < |elems| ==> MigrateDoc(elems[i], clock).Some?
  {
    if elems != [] {
      MigrateAllDefined(elems[1..], clock);
      if forall i :: 0 <= i < |elems| ==> MigrateDoc(elems[i], clock).Some? {
        forall i | 0 <= i < |elems[1..]| ensures MigrateDoc(elems[1..][i], clock).Some? {
          assert elems[1..][i] == elems[i + 1];
        }
      } else {
        var i :| 0 <= i < |elems| && MigrateDoc(elems[i], clock).None?;
        if i > 0 {
          assert elems[1..][i - 1] == elems[i];
        }
      }
    }
  }

  /** Each migrated document is the migration of the element at the same position. */
  lemma {:induction false} MigrateAllValues(elems: seq<Value>, clock: Clock)
    ensures MigrateAll(elems, clock).Some? ==>
              forall i :: 0 <= i < |elems| ==>
                MigrateDoc(elems[i], clock).Some? && MigrateAll(elems, clock).value[i] == MigrateDoc(elems[i], clock).value
  {
    if elems != [] {
      var r := MigrateAll(elems, clock);
      if r.Some? {
        MigrateAllValues(elems[1..], clock);
        var rest := MigrateAll(elems[1..], clock);
        assert MigrateDoc(elems[0], clock).Some? && rest.Some?;
        assert r.value == [MigrateDoc(elems[0], clock).value] + rest.value;
        forall i | 0 <= i < |elems|
          ensures MigrateDoc(elems[i], clock).Some? && r.value[i] == MigrateDoc(elems[i], clock).value
        {
          if i > 0 {
            assert elems[i] == elems[1..][i - 1];
            assert r.value[i] == rest.value[i - 1];
          }
        }
      }
    }
  }

  /** `migrate()` on the parsed backup: one document per element, a lone document that is not
      an array counting as one element. */
  function Migrate(data: Value, clock: Clock): (r: Option<seq<Doc>>)
    ensures r.Some? ==> |r.value| == |Elements(data)|
    ensures r.Some? && !data.Arr? ==> |r.value| == 1
  {
    MigrateAll(Elements(data), clock)
  }

  /** A single document that is not an array is migrated as a one-element list. */
  lemma NonArrayWrapped(data: Value, clock: Clock)
    requires !data.Arr? && MigrateDoc(data, clock).Some?
    ensures Migrate(data, clock) == Some([MigrateDoc(data, clock).value])
  {
    assert Elements(data) == [data];
    assert Elements(data)[1..] == [];
    assert MigrateAll([], clock) == Some([]);
    assert [MigrateDoc(data, clock).value] + [] == [MigrateDoc(data, clock).value];
  }
}

=== FILE: csv_import.dfy ===
/** The older CSV import script, which carries its own copy of the column table and of the
    row transform. */
module CsvImport {
  import opened Json
  import InegiCsv

  /** The column table as this script writes it. */
  const Columns: InegiCsv.ColumnTable := [
    ("Nombre de la Unidad Económica", "nombre"),
    ("Razón social", "razon_social"),
    ("Nombre de clase de la actividad", "clase_actividad"),
    ("Tipo de vialidad", "tipo_vialidad"),
    ("Nombre de la vialidad", "calle"),
    ("Número exterior o kilómetro", "numero_exterior"),
    ("Número interior", "numero_interior"),
    ("Nombre de asentamiento humano", "colonia"),
    ("Código Postal", "codigo_postal"),
    ("Número de teléfono", "telefono"),
    ("Correo electrónico", "correo_electronico"),
    ("Sitio en Internet", "sitio_internet"),
    ("Tipo de establecimiento", "tipo")]

  /** This script turns every file into the same documents, row for row, as the local INEGI
      import, so the properties proved there hold here too. */
  lemma SameAsLocalImport(rows: seq<InegiCsv.Row>, parse: FloatParser)
    ensures InegiCsv.TransformRows(rows, Columns, parse) == InegiCsv.TransformRows(rows, InegiCsv.Columns, parse)
    ensures InegiCsv.WellFormed(Columns)
  {
    assert Columns == InegiCsv.Columns;
    InegiCsv.ColumnsWellFormed();
  }
}

=== FILE: data_id_backfill.dfy ===
/** The script that copies `raw_google_data.data_id` up to the top-level `data_id` of every
    Google restaurant where it is missing or different. */
module DataIdBackfill {
  import opened Json
  import opened Store

  /** `{ 'raw_google_data.data_id': { $exists: true, $ne: null } }` on an embedded object. */
  predicate Selected(d: Doc): (b: bool)
    ensures b ==> "raw_google_data" in d && d["raw_google_data"].Obj?
  {
    var raw := Field(d, "raw_google_data");
    raw.Obj? && "data_id" in raw.fields && Norm(raw.fields["data_id"]) != Null
  }

  /** `doc.raw_google_data && doc.raw_google_data.data_id`. */
  function NestedId(d: Doc): Value {
    var raw := Field(d, "raw_google_data");
    And(raw, Get(raw, "data_id"))
  }

  /** `dataId && doc.data_id !== dataId`, for a document the query returned: the id written
      is then the nested `data_id` itself, and it is truthy. */
  predicate Changes(d: Doc): (b: bool)
    ensures b ==> Selected(d) && NestedId(d) == d["raw_google_data"].fields["data_id"] && Truthy(NestedId(d))
  {
    Selected(d) && Truthy(NestedId(d)) && !StrictEquals(Field(d, "data_id"), NestedId(d))
  }

  /** The `$set: { data_id: dataId }` update. */
  function SetDataId(d: Doc): (r: Doc)
    ensures r.Keys == d.Keys + {"data_id"}
    ensures forall k :: k in d && k != "data_id" ==> r[k] == d[k]
  {
    d["data_id" := NestedId(d)]
  }

  /** One run: each document that needs it gets the nested id, and `updated` counts them. */
  method Backfill(c: Collection) returns (c': Collection, updated: nat)
    ensures |c'| == |c|
    ensures forall j :: 0 <= j < |c| ==> c'[j] == if Changes(c[j]) then SetDataId(c[j]) else c[j]
    ensures updated == CountWhere(c, Changes, |c|)
  {
    c', updated := RewriteEach(c, SetDataId, Changes);
  }

  /** A run touches nothing but `data_id`, and afterwards every selected document with a truthy
      nested id carries it at the top level. */
  lemma BackfillEffect(d: Doc)
    ensures var d' := if Changes(d) then SetDataId(d) else d;
            && (forall key :: key != "data_id" ==> Field(d', key) == Field(d, key))
            && (Selected(d) && Truthy(NestedId(d)) && IsPrimitive(NestedId(d)) ==> StrictEquals(Field(d', "data_id"), NestedId(d)))
  {
  }

  /** When the nested id is a string, number or boolean, a document the run has passed over
      needs nothing more: a second run changes nothing. */
  lemma BackfillSettles(d: Doc)
    requires IsPrimitive(NestedId(d))
    ensures !Changes(if Changes(d) then SetDataId(d) else d)
  {
    var d' := if Changes(d) then SetDataId(d) else d;
    assert Field(d', "raw_google_data") == Field(d, "raw_google_data");
    assert NestedId(d') == NestedId(d);
  }

  /** No document counted, none rewritten. */
  lemma {:induction false} CountWhereNone(c: Collection, keep: Doc -> bool, n: nat)
    requires n <= |c| && forall j :: 0 <= j < n ==> !keep(c[j])
    ensures CountWhere(c, keep, n) == 0
  {
    if n > 0 {
      CountWhereNone(c, keep, n - 1);
    }
  }

  /** Running the backfill twice changes nothing the second time, provided every nested id is a
      primitive value. */
  lemma BackfillIdempotent(c: Collection, c1: Collection, c2: Collection)
    requires forall j :: 0 <= j < |c| ==> IsPrimitive(NestedId(c[j]))
    requires |c1| == |c| && forall j :: 0 <= j < |c| ==> c1[j] == if Changes(c[j]) then SetDataId(c[j]) else c[j]
    requires |c2| == |c1| && forall j :: 0 <= j < |c1| ==> c2[j] == if Changes(c1[j]) then SetDataId(c1[j]) else c1[j]
    ensures c2 == c1 && CountWhere(c1, Changes, |c1|) == 0
  {
    forall j | 0 <= j < |c1| ensures !Changes(c1[j]) {
      BackfillSettles(c[j]);
    }
    CountWhereNone(c1, Changes, |c1|);
  }

  /** A document whose nested id is an object: `!==` compares objects by identity, so the
      second run updates it again. */
  const ObjectNested: Doc := map["raw_google_data" := Obj(map["data_id" := Obj(map[])])]

  lemma ObjectIdsAreRewrittenEveryRun()
    ensures Changes(ObjectNested) && Changes(SetDataId(ObjectNested))
  {
    assert Field(SetDataId(ObjectNested), "raw_google_data") == Obj(map["data_id" := Obj(map[])]);
  }
}

=== FILE: google_import.dfy ===
/** The script that imports saved place-search result files into the restaurant collection,
    one upsert by `google_place_id` per place. */
module GoogleImport {
  import opened Wrappers
  import opened Json
  import opened JsString
  import opened Store

  /** The fields `parseRestaurant` writes. */
  const RestaurantFields: set<string> :=
    {"google_place_id", "nombre", "direccion", "coordenadas", "telefono", "rating", "reviews_count",
     "tipo", "categorias", "horario", "imagenes", "thumbnail", "deleted", "created_at",
     "updated_at", "deleted_at", "raw_google_data", "data_id"}

  /** `gps_coordinates ? { lat: latitude, lng: longitude } : null`. */
  function Coordinates(place: Value): (v: Value)
    ensures !Truthy(Get(place, "gps_coordinates")) ==> v == Null
    ensures Truthy(Get(place, "gps_coordinates")) ==>
              v == Obj(map["lat" := Path(place, "gps_coordinates", "latitude"),
                           "lng" := Path(place, "gps_coordinates", "longitude")])
  {
    var gc := Get(place, "gps_coordinates");
    if Truthy(gc) then Obj(map["lat" := Get(gc, "latitude"), "lng" := Get(gc, "longitude")]) else Null
  }

  /** `place.data_id || (place.raw_google_data && place.raw_google_data.data_id) || null`. */
  function DataIdOf(place: Value): (v: Value)
    ensures v == FirstTruthy([Get(place, "data_id"), Path(place, "raw_google_data", "data_id")], Null)
  {
    var raw := Get(place, "raw_google_data");
    Or(Or(Get(place, "data_id"), And(raw, Get(raw, "data_id"))), Null)
  }

  /** `parseRestaurant(place)` at instant `now`: the identifying and descriptive fields copied,
      falsy optional fields replaced by null (and missing photos by an empty list), the
      soft-delete fields reset, both timestamps set to `now`, and the place itself kept. */
  function ParseRestaurant(place: Value, now: int): (d: Doc)
    ensures "google_place_id" in d && d["google_place_id"] == Get(place, "place_id")
  {
    map[
      "google_place_id" := Get(place, "place_id"),
      "nombre" := Get(place, "title"),
      "direccion" := Get(place, "address"),
      "coordenadas" := Coordinates(place),
      "telefono" := Or(Get(place, "phone"), Null),
      "rating" := Or(Get(place, "rating"), Null),
      "reviews_count" := Or(Get(place, "reviews"), Null),
      "tipo" := Or(Get(place, "type"), Null),
      "categorias" := Or(Get(place, "types"), Null),
      "horario" := Or(Get(place, "hours"), Null),
      "imagenes" := Or(Get(place, "photos"), Arr([])),
      "thumbnail" := Or(Get(place, "thumbnail"), Null),
      "deleted" := Bool(false),
      "created_at" := Date(now),
      "updated_at" := Date(now),
      "deleted_at" := Null,
      "raw_google_data" := place,
      "data_id" := DataIdOf(place)]
  }

  /** The place id, name, address, coordinates and `data_id` are taken from the place, which
      is itself kept whole. */
  lemma ParseRestaurantIdentity(place: Value, now: int)
    ensures var d := ParseRestaurant(place, now);
            && Field(d, "raw_google_data") == place
            && Field(d, "coordenadas") == Coordinates(place) && Field(d, "data_id") == DataIdOf(place)
            && Field(d, "nombre") == Get(place, "title") && Field(d, "direccion") == Get(place, "address")
  {
  }

  /** A falsy phone becomes null. */
  lemma ParseRestaurantPhone(place: Value, now: int)
    ensures Field(ParseRestaurant(place, now), "telefono") == FirstTruthy([Get(place, "phone")], Null)
  {
  }

  /** A falsy rating becomes null, a rating of 0 included. */
  lemma ParseRestaurantRating(place: Value, now: int)
    ensures Field(ParseRestaurant(place, now), "rating") == FirstTruthy([Get(place, "rating")], Null)
  {
  }

  /** The review count, type, categories, hours and thumbnail are copied when truthy and
      become null otherwise. */
  lemma ParseRestaurantOptionals(place: Value, now: int)
    ensures var d := ParseRestaurant(place, now);
            && Field(d, "reviews_count") == FirstTruthy([Get(place, "reviews")], Null)
            && Field(d, "tipo") == FirstTruthy([Get(place, "type")], Null)
            && Field(d, "categorias") == FirstTruthy([Get(place, "types")], Null)
            && Field(d, "horario") == FirstTruthy([Get(place, "hours")], Null)
            && Field(d, "thumbnail") == FirstTruthy([Get(place, "thumbnail")], Null)
  {
    ReviewsCountOrNull(place, now);
    TypeOrNull(place, now);
    TypesOrNull(place, now);
    HoursOrNull(place, now);
    ThumbnailOrNull(place, now);
  }

  lemma ReviewsCountOrNull(place: Value, now: int)
    ensures Field(ParseRestaurant(place, now), "reviews_count") == FirstTruthy([Get(place, "reviews")], Null)
  {
  }

  lemma TypeOrNull(place: Value, now: int)
    ensures Field(ParseRestaurant(place, now), "tipo") == FirstTruthy([Get(place, "type")], Null)
  {
  }

  lemma TypesOrNull(place: Value, now: int)
    ensures Field(ParseRestaurant(place, now), "categorias") == FirstTruthy([Get(place, "types")], Null)
  {
  }

  lemma HoursOrNull(place: Value, now: int)
    ensures Field(ParseRestaurant(place, now), "horario") == FirstTruthy([Get(place, "hours")], Null)
  {
  }

  lemma ThumbnailOrNull(place: Value, now: int)
    ensures Field(ParseRestaurant(place, now), "thumbnail") == FirstTruthy([Get(place, "thumbnail")], Null)
  {
  }

  /** Missing photos become an empty list. */
  lemma ParseRestaurantImages(place: Value, now: int)
    ensures Field(ParseRestaurant(place, now), "imagenes") == FirstTruthy([Get(place, "photos")], Arr([]))
  {
  }

  /** Every parsed document is not deleted and stamped `now` twice, so an upsert of it undoes a
      soft deletion and overwrites `created_at`. */
  lemma ParseRestaurantStamps(place: Value, now: int)
    ensures var d := ParseRestaurant(place, now);
            && Field(d, "deleted") == Bool(false) && Field(d, "deleted_at") == Null
            && Field(d, "created_at") == Date(now) && Field(d, "updated_at") == Date(now)
  {
  }

  /** The fields `parseRestaurant` writes are exactly these eighteen. */
  lemma ParseRestaurantKeys(place: Value, now: int)
    ensures forall key :: key in ParseRestaurant(place, now) <==> key in RestaurantFields
  {
  }

  /** Restaurants are keyed by `google_place_id`. */
  const PlaceKey: seq<string> := ["google_place_id"]

  /** Some stored restaurant carries place id `v`. */
  predicate Present(c: Collection, v: Value) {
    exists j :: 0 <= j < |c| && Matches(c[j], [Eq("google_place_id", v)])
  }

  /** What one entry of a results array led to. */
  datatype PlaceOutcome =
    | Crashed                // `place.place_id` on a null entry throws and ends the run
    | SkippedPlace           // no truthy place_id
    | Imported(wrote: bool)  // upserted; whether it inserted or modified

  /** One place: skipped without a place id, otherwise parsed and upserted by it. */
  method ImportPlace(c: Collection, place: Value, now: int, ids: IdSource) returns (c': Collection, outcome: PlaceOutcome)
    ensures Nullish(place) <==> outcome.Crashed?
    ensures !Nullish(place) && !Truthy(Get(place, "place_id")) <==> outcome.SkippedPlace?
    ensures !outcome.Imported? ==> c' == c
    ensures outcome.Imported? ==>
              var u := UpdateOne(c, KeyFilter(PlaceKey, [Get(place, "place_id")]), ParseRestaurant(place, now), UpsertWith(ids(|c|)));
              c' == u.0 && outcome.wrote == u.1.Wrote()
    ensures outcome.Imported? ==> Present(c', Get(place, "place_id"))
    ensures |c| <= |c'| && forall j :: 0 <= j < |c| ==> SameKey(c'[j], c[j], PlaceKey)
    ensures Unique(c, PlaceKey) ==> Unique(c', PlaceKey)
  {
    if Nullish(place) {
      return c, Crashed;
    }
    var pid := Get(place, "place_id");
    if !Truthy(pid) {
      return c, SkippedPlace;
    }
    var doc := ParseRestaurant(place, now);
    var flt := KeyFilter(PlaceKey, [pid]);
    assert flt == [Eq("google_place_id", pid)];
    assert KeyCarried(doc, PlaceKey, [pid]);
    var u := UpdateOne(c, flt, doc, UpsertWith(ids(|c|)));
    UpsertKeepsKeys(c, PlaceKey, [pid], doc, ids(|c|));
    UpsertFindable(c, PlaceKey, [pid], doc, ids(|c|));
    if Unique(c, PlaceKey) {
      UpsertKeepsKeyUnique(c, PlaceKey, [pid], doc, ids(|c|));
    }
    c' := u.0;
    var j := FindFirst(c', flt).value;
    assert Matches(c'[j], [Eq("google_place_id", pid)]);
    outcome := Imported(u.1.Wrote());
  }

  /** A place id that was present stays present after an upsert that keeps every key. */
  lemma PresentKept(c: Collection, c': Collection, v: Value)
    requires |c| <= |c'| && forall j :: 0 <= j < |c| ==> SameKey(c'[j], c[j], PlaceKey)
    requires Present(c, v)
    ensures Present(c', v)
  {
    var j :| 0 <= j < |c| && Matches(c[j], [Eq("google_place_id", v)]);
    assert SameKey(c'[j], c[j], PlaceKey);
    assert Holds(c[j], [Eq("google_place_id", v)][0]);
    assert KeyOf(c'[j], PlaceKey[0]) == KeyOf(c[j], PlaceKey[0]);
    assert Holds(c'[j], [Eq("google_place_id", v)][0]);
  }

  /** `raw.local_results || raw.results || []`, as `for ... of` walks it: an array yields its
      entries, a string its characters; any other value is not iterable and ends the run. */
  function PlacesOf(raw: Value): (r: Option<seq<Value>>)
    ensures var p := Or(Or(Get(raw, "local_results"), Get(raw, "results")), Arr([]));
            (p.Arr? ==> r == Some(p.items))
            && (p.Str? ==> r.Some? && |r.value| == |p.s|)
            && (!p.Arr? && !p.Str? ==> r.None?)
  {
    var p := Or(Or(Get(raw, "local_results"), Get(raw, "results")), Arr([]));
    match p
    case Arr(items) => Some(items)
    case Str(s) => Some(seq(|s|, i requires 0 <= i < |s| => Str([s[i]])))
    case _ => None
  }

  /** The running totals of the import. */
  datatype Totals = Totals(restaurantCount: nat, upsertedCount: nat, skippedCount: nat)

  /** The place ids the first `n` places would be stored under, counting only those imported. */
  predicate AllPresent(c: Collection, places: seq<Value>, n: nat)
    requires n <= |places|
  {
    forall k :: 0 <= k < n && !Nullish(places[k]) && Truthy(Get(places[k], "place_id")) ==>
      Present(c, Get(places[k], "place_id"))
  }

  /** The places of one parsed file, in order, until a null entry ends the run. */
  method ImportPlaces(c: Collection, places: seq<Value>, totals: Totals, now: int, ids: IdSource)
    returns (c': Collection, totals': Totals, crashed: bool)
    requires totals.upsertedCount <= totals.restaurantCount
    ensures totals'.upsertedCount <= totals'.restaurantCount
    ensures totals.restaurantCount <= totals'.restaurantCount && totals.skippedCount <= totals'.skippedCount
    ensures totals'.restaurantCount - totals.restaurantCount + totals'.skippedCount - totals.skippedCount <= |places|
    ensures !crashed ==> totals'.restaurantCount - totals.restaurantCount + totals'.skippedCount - totals.skippedCount == |places|
    ensures crashed <==> exists k :: 0 <= k < |places| && Nullish(places[k])
    ensures !crashed ==> AllPresent(c', places, |places|)
    ensures |c| <= |c'| && forall j :: 0 <= j < |c| ==> SameKey(c'[j], c[j], PlaceKey)
    ensures Unique(c, PlaceKey) ==> Unique(c', PlaceKey)
  {
    c' := c;
    totals' := totals;
    var i := 0;
    while i < |places|
      invariant 0 <= i <= |places|
      invariant totals'.upsertedCount <= totals'.restaurantCount
      invariant totals.restaurantCount <= totals'.restaurantCount && totals.skippedCount <= totals'.skippedCount
      invariant totals'.restaurantCount - totals.restaurantCount + totals'.skippedCount - totals.skippedCount == i
      invariant forall k :: 0 <= k < i ==> !Nullish(places[k])
      invariant AllPresent(c', places, i)
      invariant |c| <= |c'| && forall j :: 0 <= j < |c| ==> SameKey(c'[j], c[j], PlaceKey)
      invariant Unique(c, PlaceKey) ==> Unique(c', PlaceKey)
    {
      ghost var before := c';
      var outcome;
      c', outcome := ImportPlace(c', places[i], now, ids);
      match outcome {
        case Crashed =>
          return c', totals', true;
        case SkippedPlace =>
          totals' := totals'.(skippedCount := totals'.skippedCount + 1);
        case Imported(wrote) =>
          totals' := totals'.(restaurantCount := totals'.restaurantCount + 1,
                              upsertedCount := totals'.upsertedCount + if wrote then 1 else 0);
      }
      forall k | 0 <= k < i && !Nullish(places[k]) && Truthy(Get(places[k], "place_id"))
        ensures Present(c', Get(places[k], "place_id"))
      {
        PresentKept(before, c', Get(places[k], "place_id"));
      }
      assert forall j :: 0 <= j < |c| ==> SameKey(before[j], c[j], PlaceKey) && SameKey(c'[j], before[j], PlaceKey);
      i := i + 1;
    }
    crashed := false;
  }

  /** A saved result file: its name, and whether `JSON.parse` accepted its text. */
  datatype FileContent = Unparseable | Parsed(json: Value)
  datatype File = File(name: string, content: FileContent)

  /** The files `readdirSync(...).filter(f => f.endsWith('.json'))` keeps. */
  predicate Listed(f: File) {
    EndsWith(f.name, ".json")
  }

  /** The places of a listed, parsed file whose contents can be walked. */
  predicate Walkable(f: File) {
    Listed(f) && f.content.Parsed? && !Nullish(f.content.json) && PlacesOf(f.content.json).Some?
  }

  /** A listed file that ends the run: a parsed `null`, a result list that is not iterable, or
      a null entry in it. (An unparseable file is only logged and passed over.) */
  predicate Crashes(f: File) {
    Listed(f) && f.content.Parsed?
    && (Nullish(f.content.json) || PlacesOf(f.content.json).None?
        || exists k :: 0 <= k < |PlacesOf(f.content.json).value| && Nullish(PlacesOf(f.content.json).value[k]))
  }

  /** Every place with an id in a walkable file among the first `n` is stored. */
  predicate FilesPresent(c: Collection, files: seq<File>, n: nat)
    requires n <= |files|
  {
    forall i :: 0 <= i < n && Walkable(files[i]) ==> AllPresent(c, PlacesOf(files[i].content.json).value, |PlacesOf(files[i].content.json).value|)
  }

  /** Keys kept by later writes keep earlier places stored. */
  lemma FilesPresentKept(c: Collection, c': Collection, files: seq<File>, n: nat)
    requires n <= |files| && FilesPresent(c, files, n)
    requires |c| <= |c'| && forall j :: 0 <= j < |c| ==> SameKey(c'[j], c[j], PlaceKey)
    ensures FilesPresent(c', files, n)
  {
    forall i, k | 0 <= i < n && Walkable(files[i]) && 0 <= k < |PlacesOf(files[i].content.json).value|
      && !Nullish(PlacesOf(files[i].content.json).value[k])
      && Truthy(Get(PlacesOf(files[i].content.json).value[k], "place_id"))
      ensures Present(c', Get(PlacesOf(files[i].content.json).value[k], "place_id"))
    {
      PresentKept(c, c', Get(PlacesOf(files[i].content.json).value[k], "place_id"));
    }
  }

  /** `main()`: every listed file in order; unparseable ones are passed over, and the first
      file that crashes ends the run with what was written so far. */
  method ImportFiles(c: Collection, files: seq<File>, now: int, ids: IdSource)
    returns (c': Collection, totals: Totals, completed: bool)
    ensures totals.upsertedCount <= totals.restaurantCount
    ensures completed <==> forall i :: 0 <= i < |files| ==> !Crashes(files[i])
    ensures completed ==> FilesPresent(c', files, |files|)
    ensures |c| <= |c'| && forall j :: 0 <= j < |c| ==> SameKey(c'[j], c[j], PlaceKey)
    ensures Unique(c, PlaceKey) ==> Unique(c', PlaceKey)
  {
    c' := c;
    totals := Totals(0, 0, 0);
    var i := 0;
    while i < |files|
      invariant 0 <= i <= |files|
      invariant totals.upsertedCount <= totals.restaurantCount
      invariant forall j :: 0 <= j < i ==> !Crashes(files[j])
      invariant FilesPresent(c', files, i)
      invariant |c| <= |c'| && forall j :: 0 <= j < |c| ==> SameKey(c'[j], c[j], PlaceKey)
      invariant Unique(c, PlaceKey) ==> Unique(c', PlaceKey)
    {
      var f := files[i];
      if !Listed(f) || f.content.Unparseable? {
        i := i + 1;
        continue;
      }
      var raw := f.content.json;
      if Nullish(raw) {
        return c', totals, false;
      }
      var places := PlacesOf(raw);
      if places.None? {
        return c', totals, false;
      }
      ghost var before := c';
      var crashed;
      c', totals, crashed := ImportPlaces(c', places.value, totals, now, ids);
      if crashed {
        return c', totals, false;
      }
      FilesPresentKept(before, c', files, i);
      assert forall j :: 0 <= j < |c| ==> SameKey(before[j], c[j], PlaceKey) && SameKey(c'[j], before[j], PlaceKey);
      i := i + 1;
    }
    completed := true;
  }
}

=== FILE: google_reviews_download.dfy ===
/** The review download script: normalizing a provider review, fetching one first page per
    restaurant under a run-wide request budget, choosing the batch of restaurants, and the
    main loop that stamps each restaurant it requested reviews for. */
module GoogleReviewsDownload {
  import opened Wrappers
  import opened Json
  import opened Store
  import opened ReviewDocs

  /** The properties a photo object's link is read from, in order. */
  const PhotoKeys: seq<string> := ["url", "source"]

  /** `extractImagesFromReview(raw)`: the images of `raw.photos`; only when those yield nothing,
      the images of `raw.images`. */
  function ExtractImagesFromReview(raw: Value): (r: seq<Value>)
    ensures !Truthy(raw) ==> r == []
    ensures forall k :: 0 <= k < |r| ==> Truthy(r[k])
    ensures CollectImages(ArrayItems(Get(raw, "photos")), PhotoKeys) != [] ==>
              r == CollectImages(ArrayItems(Get(raw, "photos")), PhotoKeys)
    ensures CollectImages(ArrayItems(Get(raw, "photos")), PhotoKeys) == [] ==>
              r == CollectImages(ArrayItems(Get(raw, "images")), PhotoKeys)
  {
    if !Truthy(raw) then []
    else
      var photos := Get(raw, "photos");
      var fromPhotos := if photos.Arr? && |photos.items| > 0 then CollectImages(photos.items, PhotoKeys) else [];
      var images := Get(raw, "images");
      if images.Arr? && |images.items| > 0 && |fromPhotos| == 0
      then fromPhotos + CollectImages(images.items, PhotoKeys)
      else fromPhotos
  }

  /** `(review && (review.review_id || review.id)) || null`. */
  function ReviewIdOf(review: Value): (v: Value)
    ensures v == FirstTruthy([Get(review, "review_id"), Get(review, "id")], Null)
  {
    Or(And(review, Or(Get(review, "review_id"), Get(review, "id"))), Null)
  }

  /** `authorName || null`, where `authorName` prefers `review.user.name` to the flat author. */
  function AuthorOf(review: Value): (v: Value)
    ensures v == FirstTruthy([Path(review, "user", "name"), FlatAuthor(review)], Null)
  {
    var user := Get(review, "user");
    var authorName :=
      if Truthy(And(And(review, user), Get(user, "name"))) then Get(user, "name")
      else if Truthy(And(review, Get(review, "author"))) then FlatAuthor(review)
      else Null;
    Or(authorName, Null)
  }

  /** `review && review.rating != null ? review.rating : null`: any non-nullish rating is kept,
      zero included. */
  function RatingOf(review: Value): (v: Value)
    ensures Nullish(Get(review, "rating")) ==> v == Null
    ensures !Nullish(Get(review, "rating")) ==> v == Get(review, "rating")
  {
    if Truthy(review) && !Nullish(Get(review, "rating")) then Get(review, "rating") else Null
  }

  /** `text || null`, where `text` is the guarded chain text, snippet, extracted_snippet.snippet. */
  function TextOf(review: Value): (v: Value)
    ensures v == FirstTruthy([Get(review, "text"), Get(review, "snippet"), Path(review, "extracted_snippet", "snippet")], Null)
  {
    var es := Get(review, "extracted_snippet");
    var textChain := Or(Or(Get(review, "text"), Get(review, "snippet")), And(es, Get(es, "snippet")));
    var text :=
      if Truthy(And(review, textChain)) then Or(Or(Get(review, "text"), Get(review, "snippet")), Get(es, "snippet"))
      else Null;
    var chain := [Get(review, "text"), Get(review, "snippet"), Path(review, "extracted_snippet", "snippet")];
    assert chain[1..] == [chain[1], chain[2]] && chain[1..][1..] == [chain[2]];
    Or(text, Null)
  }

  /** `isoDate || (review && review.date) || null`. */
  function DateOf(review: Value): (v: Value)
    ensures v == FirstTruthy([Get(review, "iso_date"), Get(review, "iso_date_of_last_edit"), Get(review, "date")], Null)
  {
    var isoChain := Or(Get(review, "iso_date"), Get(review, "iso_date_of_last_edit"));
    var isoDate := if Truthy(And(review, isoChain)) then isoChain else Null;
    var chain := [Get(review, "iso_date"), Get(review, "iso_date_of_last_edit"), Get(review, "date")];
    assert chain[1..] == [chain[1], chain[2]] && chain[1..][1..] == [chain[2]];
    Or(Or(isoDate, And(review, Get(review, "date"))), Null)
  }

  /** `(review && review.source) || 'Google'`. */
  function SourceOf(review: Value): (v: Value)
    ensures v == FirstTruthy([Get(review, "source")], Str("Google"))
  {
    Or(And(review, Get(review, "source")), Str("Google"))
  }

  /** `normalizeReview(review, data_id, google_place_id)` at instant `now`. Each field is the
      first truthy candidate of its fallback chain; a review without an id keeps a null
      `review_id`. */
  function NormalizeReview(review: Value, dataId: Value, googlePlaceId: Value, now: int): (r: Review)
    ensures r.reviewId == FirstTruthy([Get(review, "review_id"), Get(review, "id")], Null)
    ensures r.dataId == FirstTruthy([dataId], Null)
    ensures r.googlePlaceId == FirstTruthy([googlePlaceId], Null)
    ensures r.author == FirstTruthy([Path(review, "user", "name"), FlatAuthor(review)], Null)
    ensures r.rating == if Nullish(Get(review, "rating")) then Null else Get(review, "rating")
    ensures r.text == FirstTruthy([Get(review, "text"), Get(review, "snippet"), Path(review, "extracted_snippet", "snippet")], Null)
    ensures r.date == FirstTruthy([Get(review, "iso_date"), Get(review, "iso_date_of_last_edit"), Get(review, "date")], Null)
    ensures r.images == ExtractImagesFromReview(review)
    ensures r.source == FirstTruthy([Get(review, "source")], Str("Google"))
    ensures r.raw == review && r.normalizedAt == now
  {
    Review(
      ReviewIdOf(review),
      Or(dataId, Null),
      Or(googlePlaceId, Null),
      AuthorOf(review),
      RatingOf(review),
      TextOf(review),
      DateOf(review),
      ExtractImagesFromReview(review),
      SourceOf(review),
      review,
      now)
  }

  /** The length of `a.slice(0, end)` for an array of length `len`; `end == None` is NaN,
      which slices to nothing, and a negative end counts back from the end. */
  function SliceLen(len: nat, end: Option<int>): (n: nat)
    ensures n <= len
    ensures end.Some? && 0 <= end.value <= len ==> n == end.value
    ensures end.Some? && end.value >= len ==> n == len
    ensures end.Some? && -(len as int) <= end.value < 0 ==> n == len + end.value
    ensures end.None? || end.value <= -(len as int) ==> n == 0
  {
    match end
    case None => 0
    case Some(e) =>
      if e >= 0 then (if e < len then e else len)
      else if len + e > 0 then len + e else 0
  }

  /** The normalized reviews a reply body offers: the first `per` entries of a non-empty
      `reviews` array. Any other body (no array, an empty one, a string, a nullish body whose
      read throws and is caught) offers none. */
  function FirstPage(data: Value, per: Option<int>, dataId: Value, googlePlaceId: Value, now: int): (r: seq<Review>)
    ensures |r| <= |ArrayItems(Get(data, "reviews"))|
    ensures per.Some? && per.value >= 0 ==> |r| <= per.value
    ensures per.None? || per.value == 0 ==> r == []
    ensures forall i :: 0 <= i < |r| ==>
              r[i] == NormalizeReview(ArrayItems(Get(data, "reviews"))[i], dataId, googlePlaceId, now)
  {
    var rs := Get(data, "reviews");
    if rs.Arr? && |rs.items| > 0 then
      var n := SliceLen(|rs.items|, per);
      seq(n, i requires 0 <= i < n => NormalizeReview(rs.items[i], dataId, googlePlaceId, now))
    else []
  }

  /** One `updateOne({ review_id, data_id }, { $set: review }, { upsert: true })`, and whether
      it inserted or modified a document. */
  function UpsertReview(c: Collection, r: Review, ids: IdSource): (w: (Collection, bool))
    ensures |c| <= |w.0| <= |c| + 1
    ensures |w.0| == |c| + 1 ==> "_id" in w.0[|c|] && w.0[|c|]["_id"] == ids(|c|)
  {
    var u := UpdateOne(c, ReviewFilter(r), ToDoc(r), UpsertWith(ids(|c|)));
    InsertedReviewId(r, ids(|c|));
    (u.0, u.1.Wrote())
  }

  /** A review the upsert inserts gets the server's `_id`: the review document has none. */
  lemma InsertedReviewId(r: Review, newId: Value)
    ensures "_id" in Inserted(ReviewFilter(r), ToDoc(r), newId)
    ensures Inserted(ReviewFilter(r), ToDoc(r), newId)["_id"] == newId
  {
    var flt, upd := ReviewFilter(r), ToDoc(r);
    assert "_id" !in upd;
    assert forall k :: 0 <= k < |flt| ==> flt[k] == Eq(ReviewKey[k], [r.reviewId, r.dataId][k]);
    EqFieldsWithin(flt, upd);
  }

  /** The reference fold for the upsert loop: the first `n` reviews upserted in order by their
      (review_id, data_id) key; the second component counts the writes that inserted or
      modified. */
  function UpsertReviews(c: Collection, rs: seq<Review>, n: nat, ids: IdSource): (r: (Collection, nat))
    requires n <= |rs|
    ensures r.1 <= n
    ensures |c| <= |r.0| <= |c| + n
  {
    if n == 0 then (c, 0)
    else
      var before := UpsertReviews(c, rs, n - 1, ids);
      var w := UpsertReview(before.0, rs[n - 1], ids);
      (w.0, before.1 + if w.1 then 1 else 0)
  }

  /** Upserting reviews one after the other keeps (review_id, data_id) unique and leaves the
      last one findable by its key. */
  lemma {:induction false} UpsertReviewsKeepUnique(c: Collection, rs: seq<Review>, n: nat, ids: IdSource)
    requires n <= |rs| && Unique(c, ReviewKey)
    ensures Unique(UpsertReviews(c, rs, n, ids).0, ReviewKey)
    ensures n > 0 ==> FindOne(UpsertReviews(c, rs, n, ids).0, ReviewFilter(rs[n - 1])).Some?
  {
    if n > 0 {
      var last := rs[n - 1];
      UpsertReviewsKeepUnique(c, rs, n - 1, ids);
      var before := UpsertReviews(c, rs, n - 1, ids).0;
      UpsertReviewKeepsUnique(before, last, ids);
      assert UpsertReviews(c, rs, n, ids).0 == UpsertReview(before, last, ids).0;
    }
  }

  /** One upsert keeps (review_id, data_id) unique and leaves its review findable by its key. */
  lemma UpsertReviewKeepsUnique(c: Collection, r: Review, ids: IdSource)
    requires Unique(c, ReviewKey)
    ensures Unique(UpsertReview(c, r, ids).0, ReviewKey)
    ensures FindOne(UpsertReview(c, r, ids).0, ReviewFilter(r)).Some?
  {
    UpsertKeepsKeyUnique(c, ReviewKey, [r.reviewId, r.dataId], ToDoc(r), ids(|c|));
  }

  /** The run's request counter against the request limit. `limit == None` is a limit that
      parsed to NaN, which no count ever reaches. */
  datatype Budget = Budget(count: nat, limit: Option<int>) {
    predicate Exhausted() {
      limit.Some? && count >= limit.value
    }

    /** The count has not passed the limit (or zero, for a non-positive limit). */
    predicate Within() {
      limit.None? || count <= (if limit.value > 0 then limit.value else 0)
    }
  }

  /** `{ upserts, requested }`. */
  datatype FetchResult = FetchResult(upserts: nat, requested: bool)

  /** The reviews already stored for a restaurant reach the per-restaurant target. */
  predicate HaveEnough(reviews: Collection, dataId: Value, per: Option<int>) {
    per.Some? && Count(reviews, [Eq("data_id", dataId)]) >= per.value
  }

  /** `fetchAndInsertFirstPageReviews`: skips without a request when enough reviews are stored
      or the budget is exhausted; otherwise spends one request (`reply` is what it yields) and
      upserts the first page. */
  method FetchAndInsertFirstPageReviews(
    reviews: Collection, budget: Budget, dataId: Value, googlePlaceId: Value,
    per: Option<int>, reply: Reply, now: int, ids: IdSource)
    returns (reviews': Collection, budget': Budget, res: FetchResult)
    ensures res.requested <==> !HaveEnough(reviews, dataId, per) && !budget.Exhausted()
    ensures !res.requested ==> reviews' == reviews && budget' == budget && res.upserts == 0
    ensures res.requested ==> budget' == Budget(budget.count + 1, budget.limit)
    ensures budget.Within() ==> budget'.Within()
    ensures res.requested && reply.Failed? ==> reviews' == reviews && res.upserts == 0
    ensures res.requested && reply.Replied? ==>
              var page := FirstPage(reply.data, per, dataId, googlePlaceId, now);
              (reviews', res.upserts) == UpsertReviews(reviews, page, |page|, ids)
    ensures per.Some? && per.value >= 0 ==> res.upserts <= per.value
    ensures Unique(reviews, ReviewKey) ==> Unique(reviews', ReviewKey)
  {
    if HaveEnough(reviews, dataId, per) {
      return reviews, budget, FetchResult(0, false);
    }
    if budget.Exhausted() {
      return reviews, budget, FetchResult(0, false);
    }
    budget' := Budget(budget.count + 1, budget.limit);
    match reply
    case Failed =>
      return reviews, budget', FetchResult(0, true);
    case Replied(data) =>
      var toInsert := FirstPage(data, per, dataId, googlePlaceId, now);
      var upserted := UpsertReviews(reviews, toInsert, |toInsert|, ids);
      if Unique(reviews, ReviewKey) {
        UpsertReviewsKeepUnique(reviews, toInsert, |toInsert|, ids);
      }
      return upserted.0, budget', FetchResult(upserted.1, true);
  }

  // ---------------------------------------------------------------------------------------
  // Choosing the batch

  /** The positions of the first `n` documents at or after `from` that `keep` accepts, in
      natural order (a `find(...).limit(n)` by position). */
  function TakeIndices(c: Collection, keep: Doc -> bool, n: nat, from: nat): (r: seq<nat>)
    requires from <= |c|
    ensures |r| <= n
    ensures forall k :: 0 <= k < |r| ==> from <= r[k] < |c| && keep(c[r[k]])
    ensures forall k, l :: 0 <= k < l < |r| ==> r[k] < r[l]
    ensures forall i :: from <= i < |c| && keep(c[i]) && i !in r ==>
              |r| == n && forall k :: 0 <= k < |r| ==> r[k] < i
    decreases |c| - from
  {
    if n == 0 || from == |c| then []
    else if keep(c[from]) then [from] + TakeIndices(c, keep, n - 1, from + 1)
    else TakeIndices(c, keep, n, from + 1)
  }

  /** `data_id` and `google_place_id` both exist and are not null. */
  predicate Identified(d: Doc) {
    Matches(d, [NotNull("data_id"), NotNull("google_place_id")])
  }

  /** Some stored review carries data_id `v` (the `$lookup` with `$limit: 1`). */
  predicate HasReview(reviews: Collection, v: Value) {
    exists j :: 0 <= j < |reviews| && KeyOf(reviews[j], "data_id") == v
  }

  /** The primary selection's test: identified, never fetched or fetched before the cooldown
      instant, and without any stored review. */
  predicate Unreviewed(d: Doc, reviews: Collection, cooldownAt: int) {
    Identified(d) && Holds(d, MissingOrAtMost("last_reviews_fetched_at", cooldownAt))
    && !HasReview(reviews, KeyOf(d, "data_id"))
  }

  /** The aggregation's result, by position: at most `batch` unreviewed restaurants. */
  function Primary(restaurants: Collection, reviews: Collection, batch: nat, cooldownAt: int): seq<nat> {
    TakeIndices(restaurants, d => Unreviewed(d, reviews, cooldownAt), batch, 0)
  }

  /** The batch the main loop walks: the primary selection, topped up, when it is short, with
      the first `batch - |primary|` identified restaurants in natural order. The top-up does
      not exclude restaurants already selected, so a restaurant can be visited twice. `batch`
      is the parsed batch size, `None` standing for NaN; the `$limit` stage is rejected by the
      server unless it is a positive integer, and the aggregation then fails (`None`). */
  function SelectBatch(restaurants: Collection, reviews: Collection, batch: Option<int>, cooldownAt: int): (r: Option<seq<nat>>)
    ensures r.Some? <==> batch.Some? && batch.value > 0
    ensures r.Some? ==> |r.value| <= batch.value
    ensures r.Some? ==> forall k :: 0 <= k < |r.value| ==> r.value[k] < |restaurants| && Identified(restaurants[r.value[k]])
    ensures r.Some? ==>
            var s, b := r.value, batch.value;
            var p := Primary(restaurants, reviews, b, cooldownAt);
            |p| <= |s| && s[..|p|] == p
            && (|p| == b ==> s == p)
            && (forall k :: 0 <= k < |p| ==> Unreviewed(restaurants[s[k]], reviews, cooldownAt))
            && (forall k, l :: |p| <= k < l < |s| ==> s[k] < s[l])
            && (|s| < b ==> forall i :: 0 <= i < |restaurants| && Identified(restaurants[i]) ==> i in s[|p|..])
            && (forall i :: 0 <= i < |restaurants| && Identified(restaurants[i]) && i !in s[|p|..] ==>
                  |s| == b && forall k :: |p| <= k < |s| ==> s[k] < i)
  {
    if batch.None? || batch.value <= 0 then None
    else
      var b := batch.value;
      var p := Primary(restaurants, reviews, b, cooldownAt);
      if |p| < b then
        var fallback := TakeIndices(restaurants, Identified, b - |p|, 0);
        assert (p + fallback)[|p|..] == fallback;
        Some(p + fallback)
      else Some(p)
  }

  /** A restaurant with one identified document and no reviews fills a batch of two twice. */
  lemma FallbackRepeatsRestaurants()
    ensures var d := map["data_id" := Str("d"), "google_place_id" := Str("g")];
            SelectBatch([d], [], Some(2), 0) == Some([0, 0])
  {
    var d := map["data_id" := Str("d"), "google_place_id" := Str("g")];
    assert Identified(d);
    assert Unreviewed(d, [], 0);
    var keep := (x: Doc) => Unreviewed(x, [], 0);
    assert [d][0] == d;
    assert TakeIndices([d], keep, 1, 1) == [];
    assert TakeIndices([d], keep, 2, 0) == [0];
    assert TakeIndices([d], Identified, 1, 1) == [];
    assert TakeIndices([d], Identified, 1, 0) == [0];
    assert Primary([d], [], 2, 0) == [0];
    assert [0] + [0] == [0, 0];
    assert SelectBatch([d], [], Some(2), 0) == Some([0] + TakeIndices([d], Identified, 1, 0));
  }

  // ---------------------------------------------------------------------------------------
  // The main loop

  /** What the loop did with one selected restaurant. */
  datatype Step = Skipped | Visited(result: FetchResult) {
    predicate Requested() {
      Visited? && result.requested
    }
  }

  /** `if (!rest.google_place_id || !rest.data_id) continue`. */
  predicate Fetchable(d: Doc) {
    Truthy(Field(d, "google_place_id")) && Truthy(Field(d, "data_id"))
  }

  /** `$set: { last_reviews_fetched_at: new Date() }`. */
  function Stamp(d: Doc, now: int): Doc {
    d["last_reviews_fetched_at" := Date(now)]
  }

  function UpsertsOf(step: Step): nat {
    match step
    case Skipped => 0
    case Visited(r) => r.upserts
  }

  function TotalUpserts(steps: seq<Step>): nat {
    if steps == [] then 0
    else TotalUpserts(steps[..|steps| - 1]) + UpsertsOf(steps[|steps| - 1])
  }

  /** The number of steps that spent a request. */
  function CountRequested(steps: seq<Step>): (n: nat)
    ensures n <= |steps|
  {
    if steps == [] then 0
    else CountRequested(steps[..|steps| - 1]) + if steps[|steps| - 1].Requested() then 1 else 0
  }

  /** Some step among the first `|steps|` requested reviews for position `i`. */
  predicate RequestedFor(sel: seq<nat>, steps: seq<Step>, i: nat)
    requires |steps| <= |sel|
  {
    exists k :: 0 <= k < |steps| && sel[k] == i && steps[k].Requested()
  }

  /** The restaurants after the stamps of the given steps, applied in order: a position is
      stamped exactly when some step requested reviews for it, and is otherwise unchanged. */
  function StampRequested(rs: Collection, sel: seq<nat>, steps: seq<Step>, now: int): (r: Collection)
    requires |steps| <= |sel| && forall k :: 0 <= k < |sel| ==> sel[k] < |rs|
    ensures |r| == |rs|
    ensures forall i :: 0 <= i < |rs| ==>
              r[i] == if RequestedFor(sel, steps, i) then Stamp(rs[i], now) else rs[i]
  {
    if steps == [] then rs
    else
      var n := |steps| - 1;
      var prev := StampRequested(rs, sel, steps[..n], now);
      assert forall i :: RequestedFor(sel, steps, i) <==>
        RequestedFor(sel, steps[..n], i) || (sel[n] == i && steps[n].Requested());
      if steps[n].Requested() then prev[sel[n] := Stamp(prev[sel[n]], now)] else prev
  }

  /** One iteration of the main loop for the restaurant at position `idx` (`rest` is its
      selected document): skipped when it lacks an id, otherwise its first page is fetched, and
      the restaurant is stamped when a request was spent on it. */
  method Visit(
    restaurants: Collection, reviews: Collection, budget: Budget, idx: nat, rest: Doc,
    per: Option<int>, reply: Reply, now: int, ids: IdSource)
    returns (restaurants': Collection, reviews': Collection, budget': Budget, step: Step)
    requires idx < |restaurants|
    ensures step.Skipped? <==> !Fetchable(rest)
    ensures step.Skipped? ==> restaurants' == restaurants && reviews' == reviews && budget' == budget
    ensures budget'.limit == budget.limit && (budget.Within() ==> budget'.Within())
    ensures budget'.count == budget.count + if step.Requested() then 1 else 0
    ensures restaurants' == if step.Requested() then restaurants[idx := Stamp(restaurants[idx], now)] else restaurants
    ensures Unique(reviews, ReviewKey) ==> Unique(reviews', ReviewKey)
  {
    if !Fetchable(rest) {
      return restaurants, reviews, budget, Skipped;
    }
    var res: FetchResult;
    reviews', budget', res := FetchAndInsertFirstPageReviews(
      reviews, budget, Field(rest, "data_id"), Field(rest, "google_place_id"), per, reply, now, ids);
    step := Visited(res);
    restaurants' := if res.requested then restaurants[idx := Stamp(restaurants[idx], now)] else restaurants;
  }

  /** The main loop's step rule: exactly the restaurants without an id are skipped. */
  predicate SkipsExactly(restaurants: Collection, sel: seq<nat>, steps: seq<Step>)
    requires |steps| <= |sel| && forall k :: 0 <= k < |sel| ==> sel[k] < |restaurants|
  {
    forall k :: 0 <= k < |steps| ==> (steps[k].Skipped? <==> !Fetchable(restaurants[sel[k]]))
  }

  /** The main loop over a chosen batch: visits it in order until the budget is exhausted and
      stamps every restaurant a request was spent on. `oracle(n)` is the reply to the run's n-th
      request. */
  method RunBatch(
    restaurants: Collection, reviews: Collection, selection: seq<nat>, oracle: nat -> Reply,
    limit: Option<int>, per: Option<int>, now: int, ids: IdSource)
    returns (restaurants': Collection, reviews': Collection, steps: seq<Step>,
             totalReviews: nat, totalRequestsMade: nat)
    requires forall k :: 0 <= k < |selection| ==> selection[k] < |restaurants|
    ensures |steps| <= |selection|
    ensures SkipsExactly(restaurants, selection, steps)
    ensures |steps| < |selection| ==> limit.Some? && totalRequestsMade >= limit.value
    ensures limit.Some? ==> totalRequestsMade <= if limit.value > 0 then limit.value else 0
    ensures totalRequestsMade == CountRequested(steps)
    ensures totalReviews == TotalUpserts(steps)
    ensures restaurants' == StampRequested(restaurants, selection, steps, now)
    ensures Unique(reviews, ReviewKey) ==> Unique(reviews', ReviewKey)
  {
    restaurants' := restaurants;
    reviews' := reviews;
    steps := [];
    totalReviews := 0;
    totalRequestsMade := 0;
    var budget := Budget(0, limit);
    var stop := false;
    while |steps| < |selection| && !stop
      invariant |steps| <= |selection|
      invariant stop ==> budget.Exhausted()
      invariant budget.limit == limit && budget.Within()
      invariant totalRequestsMade == budget.count == CountRequested(steps)
      invariant totalReviews == TotalUpserts(steps)
      invariant SkipsExactly(restaurants, selection, steps)
      invariant restaurants' == StampRequested(restaurants, selection, steps, now)
      invariant Unique(reviews, ReviewKey) ==> Unique(reviews', ReviewKey)
    {
      var idx := selection[|steps|];
      var step: Step;
      ghost var r0, b0 := restaurants', budget;
      restaurants', reviews', budget, step :=
        Visit(restaurants', reviews', budget, idx, restaurants[idx], per, oracle(budget.count), now, ids);
      if step.Requested() {
        totalRequestsMade := totalRequestsMade + 1;
      }
      totalReviews := totalReviews + UpsertsOf(step);
      Turned(restaurants, selection, steps, step, now, r0, restaurants', b0, budget);
      steps := steps + [step];
      // the limit is checked after every restaurant that was not skipped
      stop := step.Visited? && budget.Exhausted();
    }
  }

  /** One turn of the main loop keeps its invariants: the stamps, the skip rule and the
      request count over the steps taken so far. */
  lemma Turned(
    restaurants: Collection, sel: seq<nat>, steps: seq<Step>, step: Step, now: int,
    r0: Collection, r1: Collection, b0: Budget, b1: Budget)
    requires |steps| < |sel| && forall k :: 0 <= k < |sel| ==> sel[k] < |restaurants|
    requires SkipsExactly(restaurants, sel, steps) && r0 == StampRequested(restaurants, sel, steps, now)
    requires b0.count == CountRequested(steps)
    requires step.Skipped? <==> !Fetchable(restaurants[sel[|steps|]])
    requires b1.count == b0.count + if step.Requested() then 1 else 0
    requires r1 == if step.Requested() then r0[sel[|steps|] := Stamp(r0[sel[|steps|]], now)] else r0
    ensures SkipsExactly(restaurants, sel, steps + [step])
    ensures r1 == StampRequested(restaurants, sel, steps + [step], now)
    ensures b1.count == CountRequested(steps + [step])
    ensures TotalUpserts(steps + [step]) == TotalUpserts(steps) + UpsertsOf(step)
  {
    AppendStep(restaurants, sel, steps, step, now);
  }

  /** What appending one step does to the loop's running totals and stamps. */
  lemma AppendStep(restaurants: Collection, sel: seq<nat>, steps: seq<Step>, step: Step, now: int)
    requires |steps| < |sel| && forall k :: 0 <= k < |sel| ==> sel[k] < |restaurants|
    ensures CountRequested(steps + [step]) == CountRequested(steps) + if step.Requested() then 1 else 0
    ensures TotalUpserts(steps + [step]) == TotalUpserts(steps) + UpsertsOf(step)
    ensures var b := StampRequested(restaurants, sel, steps, now);
            var i := sel[|steps|];
            StampRequested(restaurants, sel, steps + [step], now)
              == if step.Requested() then b[i := Stamp(b[i], now)] else b
    ensures SkipsExactly(restaurants, sel, steps) && (step.Skipped? <==> !Fetchable(restaurants[sel[|steps|]]))
            ==> SkipsExactly(restaurants, sel, steps + [step])
  {
    assert (steps + [step])[..|steps|] == steps;
  }

  /** `main()` after its configuration is read: selects the batch and runs the loop over it;
      `now` is the run's clock, from which the cooldown instant is taken. A batch size that is
      NaN or not positive makes the selection fail before any request: the run is `aborted`
      and nothing changes. */
  method DownloadReviews(
    restaurants: Collection, reviews: Collection, oracle: nat -> Reply, limit: Option<int>,
    batch: Option<int>, per: Option<int>, cooldownHours: int, now: int, ids: IdSource)
    returns (aborted: bool, restaurants': Collection, reviews': Collection, selection: seq<nat>,
             steps: seq<Step>, totalReviews: nat, totalRequestsMade: nat)
    ensures aborted <==> batch.None? || batch.value <= 0
    ensures aborted ==> restaurants' == restaurants && reviews' == reviews && selection == [] && steps == []
                        && totalReviews == 0 && totalRequestsMade == 0
    ensures !aborted ==> SelectBatch(restaurants, reviews, batch, now - cooldownHours * 3600 * 1000) == Some(selection)
    ensures |steps| <= |selection|
    ensures forall k :: 0 <= k < |steps| ==> selection[k] < |restaurants| && (steps[k].Skipped? <==> !Fetchable(restaurants[selection[k]]))
    ensures |steps| < |selection| ==> limit.Some? && totalRequestsMade >= limit.value
    ensures limit.Some? ==> totalRequestsMade <= if limit.value > 0 then limit.value else 0
    ensures totalRequestsMade == CountRequested(steps)
    ensures totalReviews == TotalUpserts(steps)
    ensures |restaurants'| == |restaurants|
    ensures forall i :: 0 <= i < |restaurants| ==>
              restaurants'[i] == if RequestedFor(selection, steps, i) then Stamp(restaurants[i], now) else restaurants[i]
    ensures Unique(reviews, ReviewKey) ==> Unique(reviews', ReviewKey)
  {
    match SelectBatch(restaurants, reviews, batch, now - cooldownHours * 3600 * 1000)
    case None =>
      aborted, restaurants', reviews', selection, steps, totalReviews, totalRequestsMade :=
        true, restaurants, reviews, [], [], 0, 0;
      assert forall i :: 0 <= i < |restaurants| ==> !RequestedFor(selection, steps, i);
    case Some(chosen) =>
      aborted, selection := false, chosen;
      restaurants', reviews', steps, totalReviews, totalRequestsMade :=
        RunBatch(restaurants, reviews, selection, oracle, limit, per, now, ids);
  }
}

=== FILE: inegi_api.dfy ===
/** The INEGI restaurant endpoints: a collection keyed by `id` with no soft deletion. Reads
    see every document; create refuses an `id` already stored; delete removes the document.
    The two searches validate their parameters as the Google endpoints do, with
    `Requests.LocationQuery` and `Requests.TextQuery`. */
module InegiRestaurantApi {
  import opened Wrappers
  import opened Json
  import opened Store
  import opened ApiErrors
  import opened Pagination
  import opened Requests

  /** `{ id }`. */
  function ById(id: Value): Filter {
    [Eq("id", id)]
  }

  predicate HasId(d: Doc, id: Value) {
    KeyOf(d, "id") == Norm(id)
  }

  lemma ByIdMatches(d: Doc, id: Value)
    ensures Matches(d, ById(id)) <==> HasId(d, id)
  {
    MatchesOne(d, Eq("id", id));
  }

  lemma ByIdMatchesAll(c: Collection, id: Value)
    ensures forall j :: 0 <= j < |c| ==> (Matches(c[j], ById(id)) <==> HasId(c[j], id))
  {
    forall j | 0 <= j < |c| {
      ByIdMatches(c[j], id);
    }
  }

  function NotFoundError(id: string): Failure {
    Raised(NotFound("Restaurant with ID " + id + " not found"))
  }

  /** `getAllRestaurants`: the page at `(page - 1) * limit` of the whole collection in natural
      order, and the size of the collection. */
  function ListRestaurants(c: Collection, pi: IntParser, pageQ: Value, limitQ: Value): (r: Result<ListPage, Failure>)
    ensures var page, limit := PageOf(pi, pageQ), LimitOf(pi, limitQ);
            && (r.Success? <==> (page - 1) * limit >= 0)
            && (r.Success? ==>
                  && r.value.pagination == PageInfo(|c|, page, limit, Pages(|c|, limit))
                  && r.value.docs == Window(c, (page - 1) * limit, limit))
  {
    SelectEverything(c);
    List(c, [], pi, pageQ, limitQ)
  }

  /** `getRestaurantById`: the first document with the `id`. */
  function GetRestaurant(c: Collection, id: string): (r: Result<Doc, Failure>)
    ensures r.Success? ==> r.value in c && HasId(r.value, Str(id))
    ensures r.Failure? <==> forall j :: 0 <= j < |c| ==> !HasId(c[j], Str(id))
    ensures r.Failure? ==> r.error == NotFoundError(id)
    ensures r.Success? ==> exists i :: 0 <= i < |c| && c[i] == r.value && HasId(c[i], Str(id))
                                    && forall j :: 0 <= j < i ==> !HasId(c[j], Str(id))
  {
    ByIdMatchesAll(c, Str(id));
    match FindOne(c, ById(Str(id)))
    case Some(d) =>
      ByIdMatches(d, Str(id));
      Success(d)
    case None => Failure(NotFoundError(id))
  }

  /** The `id` a created restaurant gets: the body's when truthy, else `freshId`, which stands
      for `new ObjectId().toString()`. */
  function CreatedId(body: Doc, freshId: string): Value {
    if Truthy(Field(body, "id")) then body["id"] else Str(freshId)
  }

  /** Reading `body.id` of an absent body throws, and so does reformatting a `ubicacion`
      without coordinates. */
  predicate CreateThrows(body: Option<Doc>) {
    body.None? || (Truthy(Field(body.value, "ubicacion")) && Nullish(Get(body.value["ubicacion"], "coordinates")))
  }

  /** `createRestaurant`. An `id` some stored document already has is refused with the store
      unchanged; otherwise exactly one document is appended, and it is the answer. */
  function CreateRestaurant(c: Collection, body: Option<Doc>, freshId: string, newId: Value, pf: FloatParser): (r: Outcome<Doc>)
    ensures r.result.Failure? ==> r.store == c
    ensures r.result.Failure? && r.result.error.Uncaught? <==> CreateThrows(body)
    ensures !CreateThrows(body) ==>
              var id := CreatedId(body.value, freshId);
              && (r.result.Failure? <==> exists j :: 0 <= j < |c| && HasId(c[j], id))
              && (r.result.Failure? ==> r.result.error == Raised(BadRequest("Restaurant with ID " + Display(id) + " already exists")))
    ensures r.result.Success? ==>
              && body.Some?
              && r.store == c + [r.result.value]
              && Field(r.result.value, "id") == CreatedId(body.value, freshId)
              && Field(r.result.value, "_id") == (if Nullish(Field(body.value, "_id")) then newId else body.value["_id"])
              && (forall key :: key !in {"id", "_id", "ubicacion"} ==> Field(r.result.value, key) == Field(body.value, key))
    ensures r.result.Success? && Truthy(Field(body.value, "ubicacion")) ==>
              "ubicacion" in r.result.value && r.result.value["ubicacion"] == FormatLocation(body.value["ubicacion"], pf).value
    ensures r.result.Success? && !Truthy(Field(body.value, "ubicacion")) ==>
              Field(r.result.value, "ubicacion") == Field(body.value, "ubicacion")
    ensures r.result.Success? && Unique(c, ["id"]) ==> Unique(r.store, ["id"])
  {
    if body.None? then Outcome(c, Failure(Uncaught("body is undefined")))
    else
      var id := CreatedId(body.value, freshId);
      var withId := body.value["id" := id];
      assert Field(withId, "ubicacion") == Field(body.value, "ubicacion");
      match FormatBody(withId, pf)
      case None => Outcome(c, Failure(Uncaught("coordinates of ubicacion cannot be read")))
      case Some(located) =>
        ByIdMatchesAll(c, id);
        if FindOne(c, ById(id)).Some? then
          Outcome(c, Failure(Raised(BadRequest("Restaurant with ID " + Display(id) + " already exists"))))
        else
          var stored := WithObjectId(located, newId);
          StoredFields(body.value, freshId, newId, pf, located);
          AppendKeepsUnique(c, stored, id);
          Outcome(c + [stored], Success(stored))
  }

  /** The document `createRestaurant` inserts: the body with its `id`, its `_id` and its
      reformatted `ubicacion`. */
  lemma StoredFields(body: Doc, freshId: string, newId: Value, pf: FloatParser, located: Doc)
    requires FormatBody(body["id" := CreatedId(body, freshId)], pf) == Some(located)
    ensures var stored := WithObjectId(located, newId);
            && "id" in stored && stored["id"] == CreatedId(body, freshId)
            && Field(stored, "_id") == (if Nullish(Field(body, "_id")) then newId else body["_id"])
            && (forall key :: key !in {"id", "_id", "ubicacion"} ==> Field(stored, key) == Field(body, key))
            && (Truthy(Field(body, "ubicacion")) ==>
                  "ubicacion" in stored && stored["ubicacion"] == FormatLocation(body["ubicacion"], pf).value)
            && (!Truthy(Field(body, "ubicacion")) ==> Field(stored, "ubicacion") == Field(body, "ubicacion"))
  {
    var withId := body["id" := CreatedId(body, freshId)];
    assert Field(withId, "ubicacion") == Field(body, "ubicacion");
    assert Field(withId, "_id") == Field(body, "_id");
  }

  /** Appending a document whose `id` no stored document has keeps the `id`s unique. */
  lemma AppendKeepsUnique(c: Collection, d: Doc, id: Value)
    requires forall j :: 0 <= j < |c| ==> !HasId(c[j], id)
    requires "id" in d && d["id"] == id
    ensures Unique(c, ["id"]) ==> Unique(c + [d], ["id"])
  {
    var fs := ["id"];
    assert fs[0] == "id";
    if Unique(c, fs) {
      forall j | 0 <= j < |c| ensures !SameKey(c[j], d, fs) {
        assert !HasId(c[j], id);
      }
    }
  }

  /** A created restaurant can be read by its `id` afterwards. */
  lemma CreateThenGet(c: Collection, body: Option<Doc>, freshId: string, newId: Value, pf: FloatParser, id: string)
    requires CreateRestaurant(c, body, freshId, newId, pf).result.Success?
    requires CreatedId(body.value, freshId) == Str(id)
    ensures GetRestaurant(CreateRestaurant(c, body, freshId, newId, pf).store, id).Success?
  {
    var r := CreateRestaurant(c, body, freshId, newId, pf);
    assert r.store[|c|] == r.result.value;
    assert HasId(r.store[|c|], Str(id));
  }

  /** What `updateRestaurant` answers: `'No changes made'`, or the document read back after the
      update (the first document still holding the old `id`, if any). */
  datatype UpdateReply = NoChanges | Updated(doc: Option<Doc>)

  /** The `$set` document of `updateRestaurant`: the body without `_id`, with `ubicacion`
      reformatted when truthy; `None` when the body is absent or the reformatting throws. */
  function UpdateSet(body: Option<Doc>, pf: FloatParser): (r: Option<Doc>)
    ensures r.None? <==> body.None? || (Truthy(Field(body.value, "ubicacion")) && Nullish(Get(body.value["ubicacion"], "coordinates")))
    ensures r.Some? ==> "_id" !in r.value && r.value.Keys == body.value.Keys - {"_id"}
    ensures r.Some? ==> forall key :: key != "_id" && key != "ubicacion" ==> Field(r.value, key) == Field(body.value, key)
    ensures r.Some? && Truthy(Field(body.value, "ubicacion")) ==>
              r.value["ubicacion"] == FormatLocation(body.value["ubicacion"], pf).value
    ensures r.Some? && !Truthy(Field(body.value, "ubicacion")) ==>
              Field(r.value, "ubicacion") == Field(body.value, "ubicacion")
  {
    if body.None? then None
    else
      var d := body.value - {"_id"};
      assert Field(d, "ubicacion") == Field(body.value, "ubicacion");
      FormatBody(d, pf)
  }

  /** `updateRestaurant`: the document must exist; the update is applied to the first
      document with the `id`, and `'No changes made'` answers exactly when it left that
      document as it was. */
  function UpdateRestaurant(c: Collection, id: string, body: Option<Doc>, pf: FloatParser): (r: Outcome<UpdateReply>)
    ensures r.result.Failure? ==> r.store == c
    ensures r.result.Failure? && r.result.error.Uncaught? <==> UpdateSet(body, pf).None?
    ensures r.result == Failure(NotFoundError(id)) <==>
              UpdateSet(body, pf).Some? && forall j :: 0 <= j < |c| ==> !HasId(c[j], Str(id))
    ensures r.result.Success? ==>
              && FindFirst(c, ById(Str(id))).Some?
              && var i := FindFirst(c, ById(Str(id))).value;
                 var upd := UpdateSet(body, pf).value;
                 && r.store == c[i := c[i] + upd]
                 && (r.result.value == NoChanges <==> c[i] + upd == c[i])
                 && (r.result.value.Updated? && HasId(c[i] + upd, Str(id)) ==> r.result.value.doc == Some(r.store[i]))
  {
    match UpdateSet(body, pf)
    case None => Outcome(c, Failure(Uncaught("body is undefined or ubicacion has no coordinates")))
    case Some(upd) =>
      ByIdMatchesAll(c, Str(id));
      var flt := ById(Str(id));
      match FindFirst(c, flt)
      case None => Outcome(c, Failure(NotFoundError(id)))
      case Some(i) =>
        var w := UpdateOne(c, flt, upd, NoUpsert);
        if !w.1.modified then Outcome(w.0, Success(NoChanges))
        else
          assert HasId(c[i] + upd, Str(id)) ==> FindFirst(w.0, flt) == Some(i) by {
            if HasId(c[i] + upd, Str(id)) {
              ByIdMatches(c[i] + upd, Str(id));
              UpdateReadBack(c, flt, upd, i);
            }
          }
          Outcome(w.0, Success(Updated(FindOne(w.0, flt))))
  }

  /** The answer of a successful delete. */
  datatype Deleted = Deleted(message: string, deletedCount: nat)

  /** `deleteRestaurant`: the document must exist; the first document with the `id` is
      removed. */
  function DeleteRestaurant(c: Collection, id: string): (r: Outcome<Deleted>)
    ensures r.result.Failure? <==> forall j :: 0 <= j < |c| ==> !HasId(c[j], Str(id))
    ensures r.result.Failure? ==> r.store == c && r.result.error == NotFoundError(id)
    ensures r.result.Success? ==>
              && r.result.value == Deleted("Restaurant with ID " + id + " successfully deleted", 1)
              && FindFirst(c, ById(Str(id))).Some?
              && var i := FindFirst(c, ById(Str(id))).value;
                 HasId(c[i], Str(id)) && r.store == c[..i] + c[i + 1..]
  {
    ByIdMatchesAll(c, Str(id));
    match FindFirst(c, ById(Str(id)))
    case None => Outcome(c, Failure(NotFoundError(id)))
    case Some(i) =>
      var (c', n) := DeleteOne(c, ById(Str(id)));
      Outcome(c', Success(Deleted("Restaurant with ID " + id + " successfully deleted", n)))
  }

  /** With one document per `id`, a deleted restaurant can no longer be read, and nothing but
      it was removed. */
  lemma DeleteThenGet(c: Collection, id: string)
    requires Unique(c, ["id"])
    ensures GetRestaurant(DeleteRestaurant(c, id).store, id).Failure?
    ensures DeleteRestaurant(c, id).result.Success? ==> |DeleteRestaurant(c, id).store| == |c| - 1
  {
  }
}

=== FILE: inegi_csv.dfy ===
/** The INEGI DENUE import: each CSV row becomes one restaurant document with a GeoJSON
    point, the non-empty columns of a fixed table under their canonical names (trimmed), and
    the parsed coordinates when both parse. */
module InegiCsv {
  import opened Wrappers
  import opened Json
  import opened JsString
  import Store

  /** A parsed CSV row: header to cell text. A header the file lacks is absent. */
  type Row = map<string, string>

  /** Pairs of CSV header and document field, in the order the rows are scanned. */
  type ColumnTable = seq<(string, string)>

  /** The optional columns and the field each is stored under. */
  const Columns: ColumnTable := [
    ("Nombre de la Unidad Económica", "nombre"),
    ("Razón social", "razon_social"),
    ("Nombre de clase de la actividad", "clase_actividad"),
    ("Tipo de vialidad", "tipo_vialidad"),
    ("Nombre de la vialidad", "calle"),
    ("Número exterior o kilómetro", "numero_exterior"),
    ("Número interior", "numero_interior"),
    ("Nombre de asentamiento humano", "colonia"),
    ("Código Postal", "codigo_postal"),
    ("Número de teléfono", "telefono"),
    ("Correo electrónico", "correo_electronico"),
    ("Sitio en Internet", "sitio_internet"),
    ("Tipo de establecimiento", "tipo")]

  /** Every field a transformed row can carry. */
  const OutputFields: set<string> :=
    {"id", "ubicacion", "nombre", "razon_social", "clase_actividad", "tipo_vialidad", "calle",
     "numero_exterior", "numero_interior", "colonia", "codigo_postal", "telefono",
     "correo_electronico", "sitio_internet", "tipo", "latitud", "longitud"}

  /** `row[col]`: the cell text, or undefined for a header the file lacks. */
  function Cell(row: Row, col: string): Value {
    if col in row then Str(row[col]) else Undefined
  }

  /** `row[col] && row[col].trim() !== ''`: the cell exists and is not blank. */
  predicate Filled(row: Row, col: string) {
    col in row && row[col] != "" && Trim(row[col]) != ""
  }

  /** No two columns of the table share a document field. */
  predicate DistinctTargets(table: ColumnTable) {
    forall i, j :: 0 <= i < j < |table| ==> table[i].1 != table[j].1
  }

  /** Field `key` is the target of some column of `table` that is filled in `row`. */
  predicate FilledTarget(row: Row, table: ColumnTable, key: string) {
    exists k :: 0 <= k < |table| && table[k].1 == key && Filled(row, table[k].0)
  }

  /** No column of `table` targets field `key`. */
  predicate NotTarget(table: ColumnTable, key: string) {
    forall k :: 0 <= k < |table| ==> table[k].1 != key
  }

  /** The `forEach` over the table: each filled column written, trimmed, under its field. */
  function AddColumns(d: Doc, row: Row, table: ColumnTable): (r: Doc)
    ensures d.Keys <= r.Keys
    decreases |table|
  {
    if table == [] then d
    else
      var (col, name) := table[0];
      AddColumns(if Filled(row, col) then d[name := Str(Trim(row[col]))] else d, row, table[1..])
  }

  /** The result keeps every field of `d` and adds exactly the fields of the filled columns. */
  lemma {:induction false} AddColumnsKeys(d: Doc, row: Row, table: ColumnTable, key: string)
    ensures key in AddColumns(d, row, table) <==> key in d || FilledTarget(row, table, key)
    decreases |table|
  {
    if table != [] {
      var (col, name) := table[0];
      var d' := if Filled(row, col) then d[name := Str(Trim(row[col]))] else d;
      var tail := table[1..];
      AddColumnsKeys(d', row, tail, key);
      if FilledTarget(row, tail, key) {
        var k :| 0 <= k < |tail| && tail[k].1 == key && Filled(row, tail[k].0);
        assert table[k + 1] == tail[k];
      }
      if FilledTarget(row, table, key) {
        var k :| 0 <= k < |table| && table[k].1 == key && Filled(row, table[k].0);
        if k > 0 {
          assert tail[k - 1] == table[k];
        }
      }
    }
  }

  /** A field no column targets is left as `d` had it. */
  lemma {:induction false} AddColumnsOther(d: Doc, row: Row, table: ColumnTable, key: string)
    requires NotTarget(table, key)
    ensures Field(AddColumns(d, row, table), key) == Field(d, key)
    decreases |table|
  {
    if table != [] {
      var (col, name) := table[0];
      var d' := if Filled(row, col) then d[name := Str(Trim(row[col]))] else d;
      var tail := table[1..];
      assert NotTarget(tail, key) by {
        forall k | 0 <= k < |tail| ensures tail[k].1 != key {
          assert tail[k] == table[k + 1];
        }
      }
      AddColumnsOther(d', row, tail, key);
      assert name != key;
    }
  }

  /** With distinct fields, a column's field ends up holding its trimmed cell when filled and
      whatever `d` held otherwise. */
  lemma {:induction false} AddColumnsValue(d: Doc, row: Row, table: ColumnTable, k: nat)
    requires DistinctTargets(table) && k < |table|
    ensures Field(AddColumns(d, row, table), table[k].1)
            == if Filled(row, table[k].0) then Str(Trim(row[table[k].0])) else Field(d, table[k].1)
    decreases |table|
  {
    var (col, name) := table[0];
    var d' := if Filled(row, col) then d[name := Str(Trim(row[col]))] else d;
    var tail := table[1..];
    if k == 0 {
      assert NotTarget(tail, name) by {
        forall m | 0 <= m < |tail| ensures tail[m].1 != name {
          assert tail[m] == table[m + 1];
        }
      }
      AddColumnsOther(d', row, tail, name);
    } else {
      assert DistinctTargets(tail) by {
        forall i, j | 0 <= i < j < |tail| ensures tail[i].1 != tail[j].1 {
          assert tail[i] == table[i + 1] && tail[j] == table[j + 1];
        }
      }
      assert tail[k - 1] == table[k];
      AddColumnsValue(d', row, tail, k - 1);
      assert table[0].1 != table[k].1;
    }
  }

  /** The fields of a column table are distinct, documented, and none of them is `id`,
      `ubicacion`, `latitud` or `longitud`. */
  predicate WellFormed(table: ColumnTable) {
    && DistinctTargets(table)
    && (forall k :: 0 <= k < |table| ==> table[k].1 in OutputFields)
    && NotTarget(table, "id") && NotTarget(table, "ubicacion")
    && NotTarget(table, "latitud") && NotTarget(table, "longitud")
  }

  lemma ColumnsDistinct()
    ensures DistinctTargets(Columns)
  {
    var fields := ["nombre", "razon_social", "clase_actividad", "tipo_vialidad", "calle", "numero_exterior",
                   "numero_interior", "colonia", "codigo_postal", "telefono", "correo_electronico",
                   "sitio_internet", "tipo"];
    assert forall k :: 0 <= k < |Columns| ==> Columns[k].1 == fields[k];
    assert forall i, j :: 0 <= i < j < |fields| ==> fields[i] != fields[j];
  }

  lemma ColumnsWellFormed()
    ensures WellFormed(Columns)
  {
    ColumnsDistinct();
  }

  /** The two fields every row gets: `id` and the point `ubicacion`. */
  function Base(row: Row, parse: FloatParser): Doc {
    map["id" := Cell(row, "ID"),
        "ubicacion" := Point(NumberOr(parse(Cell(row, "Longitud"))), NumberOr(parse(Cell(row, "Latitud"))))]
  }

  /** The `on('data')` callback for one row, with `parse` standing for `parseFloat`: every row
      gives a document, and it always holds `id` and `ubicacion`. */
  function TransformRow(row: Row, table: ColumnTable, parse: FloatParser): (r: Doc)
    ensures "id" in r && "ubicacion" in r
  {
    var lat := parse(Cell(row, "Latitud"));
    var lng := parse(Cell(row, "Longitud"));
    var withColumns := AddColumns(Base(row, parse), row, table);
    if lat.Some? && lng.Some? then withColumns["latitud" := Num(lat.value)]["longitud" := Num(lng.value)]
    else withColumns
  }

  /** `id` is the `ID` cell unchanged, and `ubicacion` is always a point with the parsed
      longitude first, NaN where a coordinate does not parse. */
  lemma TransformRowBase(row: Row, table: ColumnTable, parse: FloatParser)
    requires WellFormed(table)
    ensures var d := TransformRow(row, table, parse);
            && Field(d, "id") == Cell(row, "ID")
            && Field(d, "ubicacion") == Point(NumberOr(parse(Cell(row, "Longitud"))), NumberOr(parse(Cell(row, "Latitud"))))
  {
    AddColumnsOther(Base(row, parse), row, table, "id");
    AddColumnsOther(Base(row, parse), row, table, "ubicacion");
  }

  /** Each mapped column is present, trimmed, under its field exactly when its cell is not blank. */
  lemma TransformRowColumns(row: Row, table: ColumnTable, parse: FloatParser, k: nat)
    requires WellFormed(table) && k < |table|
    ensures var d := TransformRow(row, table, parse);
            && (table[k].1 in d <==> Filled(row, table[k].0))
            && (Filled(row, table[k].0) ==> d[table[k].1] == Str(Trim(row[table[k].0])))
  {
    var base := Base(row, parse);
    var name := table[k].1;
    AddColumnsKeys(base, row, table, name);
    AddColumnsValue(base, row, table, k);
    var w := AddColumns(base, row, table);
    if name in w {
      assert name !in base;
      var m :| 0 <= m < |table| && table[m].1 == name && Filled(row, table[m].0);
      assert m == k;
    }
  }

  /** `latitud` and `longitud` are added, as numbers, exactly when both coordinates parse. */
  lemma TransformRowCoordinates(row: Row, table: ColumnTable, parse: FloatParser)
    requires WellFormed(table)
    ensures var d := TransformRow(row, table, parse);
            var lat, lng := parse(Cell(row, "Latitud")), parse(Cell(row, "Longitud"));
            && ("latitud" in d <==> lat.Some? && lng.Some?)
            && ("longitud" in d <==> lat.Some? && lng.Some?)
            && (lat.Some? && lng.Some? ==> d["latitud"] == Num(lat.value) && d["longitud"] == Num(lng.value))
  {
    AddColumnsKeys(Base(row, parse), row, table, "latitud");
    AddColumnsKeys(Base(row, parse), row, table, "longitud");
  }

  /** A transformed row carries no field outside the documented ones. */
  lemma TransformRowKeys(row: Row, table: ColumnTable, parse: FloatParser)
    requires WellFormed(table)
    ensures forall key :: key in TransformRow(row, table, parse) ==> key in OutputFields
  {
    var base := Base(row, parse);
    forall key | key in AddColumns(base, row, table) ensures key in OutputFields {
      AddColumnsKeys(base, row, table, key);
      if key !in base {
        var m :| 0 <= m < |table| && table[m].1 == key && Filled(row, table[m].0);
      }
    }
  }

  /** The documents of a whole file: one per row, in file order. */
  function TransformRows(rows: seq<Row>, table: ColumnTable, parse: FloatParser): (ds: seq<Doc>)
    ensures |ds| == |rows|
    ensures forall i :: 0 <= i < |rows| ==> ds[i] == TransformRow(rows[i], table, parse)
  {
    if rows == [] then [] else [TransformRow(rows[0], table, parse)] + TransformRows(rows[1..], table, parse)
  }

  /** The collection after the run: for a file with at least one row, dropped and refilled by
      `insertMany` with the file's documents in order, the driver giving the `k`-th the
      ObjectId `ids(k)`; untouched for an empty file. */
  function ImportRows(existing: seq<Doc>, rows: seq<Row>, parse: FloatParser, ids: Store.IdSource): (c: seq<Doc>)
    ensures rows == [] ==> c == existing
    ensures rows != [] ==> |c| == |rows|
    ensures rows != [] ==> forall i :: 0 <= i < |rows| ==> c[i] == Store.WithObjectId(TransformRow(rows[i], Columns, parse), ids(i))
    ensures rows != [] ==> forall i :: 0 <= i < |rows| ==> Field(c[i], "_id") == ids(i)
  {
    if |rows| > 0 then
      ColumnsWellFormed();
      InsertRows(rows, Columns, parse, ids)
    else existing
  }

  /** `insertMany` of the transformed rows into an empty collection. */
  function InsertRows(rows: seq<Row>, table: ColumnTable, parse: FloatParser, ids: Store.IdSource): (c: seq<Doc>)
    requires WellFormed(table)
    ensures |c| == |rows|
    ensures forall i :: 0 <= i < |rows| ==> c[i] == Store.WithObjectId(TransformRow(rows[i], table, parse), ids(i))
    ensures forall i :: 0 <= i < |rows| ==> Field(c[i], "_id") == ids(i)
  {
    var c := seq(|rows|, i requires 0 <= i < |rows| => Store.WithObjectId(TransformRow(rows[i], table, parse), ids(i)));
    assert forall i :: 0 <= i < |rows| ==> Field(c[i], "_id") == ids(i) by {
      forall i | 0 <= i < |rows| ensures Field(c[i], "_id") == ids(i) {
        NoObjectId(rows[i], table, parse);
      }
    }
    c
  }

  /** A transformed row carries no `_id` of its own. */
  lemma NoObjectId(row: Row, table: ColumnTable, parse: FloatParser)
    requires WellFormed(table)
    ensures "_id" !in TransformRow(row, table, parse)
  {
    TransformRowKeys(row, table, parse);
    assert "_id" !in OutputFields;
  }
}

=== FILE: inegi_schema.dfy ===
/** The `$jsonSchema` validator of the INEGI restaurant collection, as a predicate on the
    documents the Node driver stores. */
module InegiSchema {
  import opened Wrappers
  import opened Json
  import InegiCsv
  import Store

  /** The BSON types the validator distinguishes. */
  datatype BsonType = BDouble | BInt | BString | BObject | BArray | BBool | BDate | BNull

  const Int32Min: int := -0x8000_0000
  const Int32Max: int := 0x7FFF_FFFF

  /** The BSON type the driver gives a JavaScript value: an integral number inside the 32-bit
      range is stored as `int`, every other number (NaN included) as `double`, and
      `undefined` as `null`. */
  function BsonTypeOf(v: Value): BsonType {
    match v
    case Undefined => BNull
    case Null => BNull
    case Bool(_) => BBool
    case Num(x) => if x == x.Floor as real && Int32Min <= x.Floor <= Int32Max then BInt else BDouble
    case NaN => BDouble
    case Str(_) => BString
    case Arr(_) => BArray
    case Obj(_) => BObject
    case Date(_) => BDate
  }

  /** The types a top-level property may have, given the types accepted where the schema says
      `double`; `None` for a property the schema does not constrain (`ubicacion` is checked on
      its own, and fields it does not list are allowed). */
  function Allowed(name: string, numeric: set<BsonType>): Option<set<BsonType>> {
    if name in {"numero_interior", "telefono", "correo_electronico", "sitio_internet"} then Some({BString, BNull})
    else if name in {"id", "nombre", "razon_social", "clase_actividad", "tipo_vialidad", "calle",
                     "numero_exterior", "colonia", "codigo_postal", "tipo"} then Some({BString})
    else if name in {"longitud", "latitud"} then Some(numeric)
    else None
  }

  /** `ubicacion`: an object with a `type` of "Point" and exactly two coordinates. */
  predicate LocationValid(v: Value, numeric: set<BsonType>) {
    && v.Obj?
    && "type" in v.fields && "coordinates" in v.fields
    && v.fields["type"] == Str("Point")
    && v.fields["coordinates"].Arr?
    && |v.fields["coordinates"].items| == 2
    && (forall k :: 0 <= k < 2 ==> BsonTypeOf(v.fields["coordinates"].items[k]) in numeric)
  }

  /** The validator with `numeric` standing for the types accepted where a number is expected. */
  predicate ValidWith(d: Doc, numeric: set<BsonType>) {
    && "id" in d && "ubicacion" in d
    && LocationValid(d["ubicacion"], numeric)
    && (forall key :: key in d && Allowed(key, numeric).Some? ==> BsonTypeOf(d[key]) in Allowed(key, numeric).value)
  }

  /** The validator as written: `double` accepts only doubles, so an accepted document's
      coordinates are doubles and its `id` a string. */
  predicate Valid(d: Doc): (b: bool)
    ensures b ==> "id" in d && d["id"].Str? && "ubicacion" in d && d["ubicacion"].Obj?
    ensures b ==> "coordinates" in d["ubicacion"].fields && d["ubicacion"].fields["coordinates"].Arr?
    ensures b ==> forall k :: 0 <= k < |d["ubicacion"].fields["coordinates"].items| ==>
                    BsonTypeOf(d["ubicacion"].fields["coordinates"].items[k]) == BDouble
  {
    assert Allowed("id", {BDouble}) == Some({BString});
    ValidWith(d, {BDouble})
  }

  /** The validator with `double` widened to both numeric types, as `bsonType: "number"` would. */
  predicate ValidNumber(d: Doc): (b: bool)
    ensures b ==> "id" in d && d["id"].Str? && "ubicacion" in d && d["ubicacion"].Obj?
    ensures b ==> "coordinates" in d["ubicacion"].fields && d["ubicacion"].fields["coordinates"].Arr?
    ensures b ==> forall k :: 0 <= k < |d["ubicacion"].fields["coordinates"].items| ==>
                    BsonTypeOf(d["ubicacion"].fields["coordinates"].items[k]) in {BDouble, BInt}
  {
    assert Allowed("id", {BDouble, BInt}) == Some({BString});
    ValidWith(d, {BDouble, BInt})
  }

  /** The required fields: `id` is a string; `ubicacion` is an object with `type` "Point" and
      two numbers. */
  lemma ValidRequired(d: Doc)
    requires ValidNumber(d)
    ensures "id" in d && d["id"].Str?
    ensures d["ubicacion"].Obj? && d["ubicacion"].fields["type"] == Str("Point")
    ensures |d["ubicacion"].fields["coordinates"].items| == 2
  {
    assert Allowed("id", {BDouble, BInt}) == Some({BString});
  }

  /** Whatever the validator as written accepts, the widened one accepts too. */
  lemma ValidIsValidNumber(d: Doc)
    requires Valid(d)
    ensures ValidNumber(d)
  {
  }

  /** A CSV row is turned into a document the widened validator accepts exactly when the row
      has an `ID` cell. */
  lemma TransformedRowValid(row: InegiCsv.Row, parse: FloatParser)
    ensures ValidNumber(InegiCsv.TransformRow(row, InegiCsv.Columns, parse)) <==> "ID" in row
  {
    InegiCsv.ColumnsWellFormed();
    TransformedValid(row, InegiCsv.Columns, parse);
  }

  /** The `_id` the driver adds is a field the validator does not constrain. */
  lemma ObjectIdUnconstrained(d: Doc, newId: Value, numeric: set<BsonType>)
    ensures ValidWith(Store.WithObjectId(d, newId), numeric) <==> ValidWith(d, numeric)
  {
    var r := Store.WithObjectId(d, newId);
    assert Allowed("_id", numeric).None?;
    assert Field(r, "ubicacion") == Field(d, "ubicacion");
    forall key | key in r && key != "_id" ensures r[key] == Field(d, key) {
      assert Field(r, key) == Field(d, key);
    }
  }

  /** After an import, the `k`-th stored document passes the widened validator exactly when
      the `k`-th row of the file has an `ID` cell. */
  lemma ImportedValid(existing: seq<Doc>, rows: seq<InegiCsv.Row>, parse: FloatParser, ids: Store.IdSource, k: nat)
    requires k < |rows|
    ensures ValidNumber(InegiCsv.ImportRows(existing, rows, parse, ids)[k]) <==> "ID" in rows[k]
  {
    ObjectIdUnconstrained(InegiCsv.TransformRow(rows[k], InegiCsv.Columns, parse), ids(k), {BDouble, BInt});
    TransformedRowValid(rows[k], parse);
  }

  /** The same for any well-formed column table. */
  lemma TransformedValid(row: InegiCsv.Row, table: InegiCsv.ColumnTable, parse: FloatParser)
    requires InegiCsv.WellFormed(table)
    ensures ValidNumber(InegiCsv.TransformRow(row, table, parse)) <==> "ID" in row
  {
    var d := InegiCsv.TransformRow(row, table, parse);
    InegiCsv.TransformRowBase(row, table, parse);
    var numeric := {BDouble, BInt};
    if "ID" in row {
      InegiCsv.TransformRowCoordinates(row, table, parse);
      InegiCsv.TransformRowKeys(row, table, parse);
      forall key | key in d && Allowed(key, numeric).Some?
        ensures BsonTypeOf(d[key]) in Allowed(key, numeric).value
      {
        FieldTyped(row, table, parse, key);
      }
    } else {
      assert "id" !in d || BsonTypeOf(d["id"]) == BNull;
    }
  }

  /** Every field of a transformed row with an `ID` cell has a type its property allows. */
  lemma FieldTyped(row: InegiCsv.Row, table: InegiCsv.ColumnTable, parse: FloatParser, key: string)
    requires InegiCsv.WellFormed(table) && "ID" in row
    requires key in InegiCsv.TransformRow(row, table, parse) && Allowed(key, {BDouble, BInt}).Some?
    ensures BsonTypeOf(InegiCsv.TransformRow(row, table, parse)[key]) in Allowed(key, {BDouble, BInt}).value
  {
    var d := InegiCsv.TransformRow(row, table, parse);
    if key == "id" {
      InegiCsv.TransformRowBase(row, table, parse);
      assert d["id"] == Str(row["ID"]);
    } else if key == "latitud" || key == "longitud" {
      InegiCsv.TransformRowCoordinates(row, table, parse);
      assert d[key].Num?;
    } else {
      assert key != "ubicacion";
      ColumnValueIsString(row, table, parse, key);
      StringAllowed(key);
    }
  }

  /** Every constrained property other than the coordinates accepts a string. */
  lemma StringAllowed(key: string)
    requires key != "latitud" && key != "longitud" && Allowed(key, {BDouble, BInt}).Some?
    ensures BString in Allowed(key, {BDouble, BInt}).value
  {
  }

  /** The fields that may be null. */
  const Nullable: set<string> := {"numero_interior", "telefono", "correo_electronico", "sitio_internet"}

  /** An accepted document holds null only under the four nullable properties or under a
      property the schema does not list. */
  lemma NullOnlyWhereNullable(d: Doc, key: string)
    requires ValidNumber(d) && key in d && d[key] == Null
    ensures key in Nullable || Allowed(key, {BDouble, BInt}).None?
  {
  }

  /** Clearing one of the nullable properties keeps a document accepted. */
  lemma NullableKeepsValid(d: Doc, key: string)
    requires ValidNumber(d) && key in Nullable
    ensures ValidNumber(d[key := Null])
  {
  }

  /** A field of a transformed row that is not `id`, `ubicacion` or a coordinate comes from a
      filled column and holds a string. */
  lemma ColumnValueIsString(row: InegiCsv.Row, table: InegiCsv.ColumnTable, parse: FloatParser, key: string)
    requires InegiCsv.WellFormed(table)
    requires key in InegiCsv.TransformRow(row, table, parse)
    requires key != "id" && key != "ubicacion" && key != "latitud" && key != "longitud"
    ensures InegiCsv.TransformRow(row, table, parse)[key].Str?
  {
    var w := InegiCsv.AddColumns(InegiCsv.Base(row, parse), row, table);
    assert key in w;
    InegiCsv.AddColumnsKeys(InegiCsv.Base(row, parse), row, table, key);
    var m :| 0 <= m < |table| && table[m].1 == key && InegiCsv.Filled(row, table[m].0);
    InegiCsv.TransformRowColumns(row, table, parse, m);
  }

  /** The validator as written rejects the document of any row whose coordinates both parse
      and whose latitude is a whole number of degrees: the driver stores that number as `int`,
      and `double` does not accept it. */
  lemma WholeLatitudeRejected(row: InegiCsv.Row, table: InegiCsv.ColumnTable, parse: FloatParser, degrees: int)
    requires InegiCsv.WellFormed(table)
    requires parse(InegiCsv.Cell(row, "Latitud")) == Some(degrees as real) && -90 <= degrees <= 90
    requires parse(InegiCsv.Cell(row, "Longitud")).Some?
    ensures !Valid(InegiCsv.TransformRow(row, table, parse))
  {
    InegiCsv.TransformRowCoordinates(row, table, parse);
    var d := InegiCsv.TransformRow(row, table, parse);
    assert d["latitud"] == Num(degrees as real);
    assert BsonTypeOf(Num(degrees as real)) == BInt;
    assert Allowed("latitud", {BDouble}) == Some({BDouble});
  }

  /** `parseFloat` on the two cells of the example row below. */
  function WholeDegrees(v: Value): Option<real> {
    if v == Str("16") then Some(16.0) else if v == Str("-93") then Some(-93.0) else None
  }

  /** A concrete row: `ID` 1 at latitude 16, longitude -93. */
  lemma WholeDegreesRejected()
    ensures !Valid(InegiCsv.TransformRow(map["ID" := "1", "Latitud" := "16", "Longitud" := "-93"], InegiCsv.Columns, WholeDegrees))
  {
    var row := map["ID" := "1", "Latitud" := "16", "Longitud" := "-93"];
    InegiCsv.ColumnsWellFormed();
    assert InegiCsv.Cell(row, "Latitud") == Str("16");
    assert InegiCsv.Cell(row, "Longitud") == Str("-93");
    WholeLatitudeRejected(row, InegiCsv.Columns, WholeDegrees, 16);
  }
}

=== FILE: js_string.dfy ===
/** The few JavaScript string operations the scripts and controllers rely on:
    `String.prototype.trim`, the `\s` regular-expression class, decimal rendering of
    integers (template literals) and `startsWith`. */
module JsString {

  /** ECMAScript WhiteSpace and LineTerminator code points: the set `trim()` strips and
      the regular-expression class `\s` matches. */
  predicate IsWhitespace(c: char) {
    var n := c as int;
    n == 0x09 || n == 0x0A || n == 0x0B || n == 0x0C || n == 0x0D || n == 0x20
    || n == 0xA0 || n == 0x1680 || (0x2000 <= n <= 0x200A) || n == 0x2028 || n == 0x2029
    || n == 0x202F || n == 0x205F || n == 0x3000 || n == 0xFEFF
  }

  predicate AllWhitespace(s: string) {
    forall k :: 0 <= k < |s| ==> IsWhitespace(s[k])
  }

  /** Drops leading whitespace: the result is a suffix of `s` that does not start with whitespace. */
  function TrimStart(s: string): (r: string)
    ensures |r| <= |s| && r == s[|s| - |r|..]
    ensures AllWhitespace(s[..|s| - |r|])
    ensures r != [] ==> !IsWhitespace(r[0])
  {
    if |s| > 0 && IsWhitespace(s[0]) then TrimStart(s[1..]) else s
  }

  /** Drops trailing whitespace: the result is a prefix of `s` that does not end with whitespace. */
  function TrimEnd(s: string): (r: string)
    ensures |r| <= |s| && r == s[..|r|]
    ensures AllWhitespace(s[|r|..])
    ensures r != [] ==> !IsWhitespace(r[|r| - 1])
  {
    if |s| > 0 && IsWhitespace(s[|s| - 1]) then TrimEnd(s[..|s| - 1]) else s
  }

  /** `s.trim()`: a contiguous slice of `s` with only whitespace removed around it and none left at its ends. */
  function Trim(s: string): (r: string)
    ensures exists i, j :: 0 <= i <= j <= |s| && r == s[i..j] && AllWhitespace(s[..i]) && AllWhitespace(s[j..])
    ensures r != [] ==> !IsWhitespace(r[0]) && !IsWhitespace(r[|r| - 1])
  {
    var t := TrimStart(s);
    var r := TrimEnd(t);
    var i := |s| - |t|;
    assert r == s[i..i + |r|];
    assert s[i + |r|..] == t[|r|..];
    r
  }

  /** A string trims to the empty string exactly when every character of it is whitespace. */
  lemma TrimEmptyIff(s: string)
    ensures Trim(s) == "" <==> AllWhitespace(s)
  {
  }

  /** `trim()` is idempotent. */
  lemma TrimIdempotent(s: string)
    ensures Trim(Trim(s)) == Trim(s)
  {
  }

  /** `s.replace(/\s/g, c)`: every whitespace character replaced by `c`, everything else kept. */
  function ReplaceWhitespace(s: string, c: char): (r: string)
    ensures |r| == |s|
    ensures forall k :: 0 <= k < |s| ==> r[k] == if IsWhitespace(s[k]) then c else s[k]
  {
    if s == [] then []
    else [if IsWhitespace(s[0]) then c else s[0]] + ReplaceWhitespace(s[1..], c)
  }

  function DigitChar(d: nat): char
    requires d < 10
  {
    "0123456789"[d]
  }

  /** The decimal rendering JavaScript gives an integer (`${n}`). */
  function DecimalString(n: int): (r: string)
    ensures |r| >= 1
    ensures n >= 0 ==> forall k :: 0 <= k < |r| ==> '0' <= r[k] <= '9'
    ensures n < 0 <==> r[0] == '-'
    decreases if n < 0 then 1 - n else n
  {
    if n < 0 then "-" + DecimalString(-n)
    else if n < 10 then [DigitChar(n)]
    else DecimalString(n / 10) + [DigitChar(n % 10)]
  }

  /** The most significant decimal digit of a natural number (an independent reference for `DecimalString(n)[0]`). */
  function LeadingDigit(n: nat): (d: nat)
    ensures d < 10
  {
    if n < 10 then n else LeadingDigit(n / 10)
  }

  function Pow10(k: nat): (p: nat)
    ensures p >= 1
  {
    if k == 0 then 1 else 10 * Pow10(k - 1)
  }

  /** The first character of a non-negative number's decimal rendering is its leading digit. */
  lemma {:induction false} DecimalStartsWithLeadingDigit(n: nat)
    ensures DecimalString(n)[0] == DigitChar(LeadingDigit(n))
  {
    if n >= 10 {
      DecimalStartsWithLeadingDigit(n / 10);
    }
  }

  /** Every number in [d * 10^k, (d + 1) * 10^k) has leading digit d. */
  lemma {:induction false} LeadingDigitOfRange(n: nat, d: nat, k: nat)
    requires 1 <= d < 10
    requires d * Pow10(k) <= n < (d + 1) * Pow10(k)
    ensures LeadingDigit(n) == d
  {
    if k > 0 {
      assert Pow10(k) == 10 * Pow10(k - 1);
      assert d * Pow10(k - 1) <= n / 10 < (d + 1) * Pow10(k - 1) by {
        var p := Pow10(k - 1);
        assert d * (10 * p) <= n < (d + 1) * (10 * p);
        assert (d * p) * 10 <= n;
        assert n < ((d + 1) * p) * 10;
      }
      LeadingDigitOfRange(n / 10, d, k - 1);
    }
  }

  predicate StartsWith(s: string, prefix: string) {
    |prefix| <= |s| && s[..|prefix|] == prefix
  }

  predicate EndsWith(s: string, suffix: string) {
    |suffix| <= |s| && s[|s| - |suffix|..] == suffix
  }
}

=== FILE: json.dfy ===
/** JavaScript values as the scripts and controllers see them after JSON parsing or BSON
    decoding, with the language's truthiness and short-circuit operators made explicit. */
module Json {
  import opened Wrappers
  import JsString

  /** A JavaScript value. Numbers are mathematical reals (no floating-point arithmetic is
      modelled); NaN is its own constructor since, with zero, it is the falsy number.
      `Date(t)` is a `Date` object holding the abstract instant `t`. */
  datatype Value =
    | Undefined
    | Null
    | Bool(b: bool)
    | Num(n: real)
    | NaN
    | Str(s: string)
    | Arr(items: seq<Value>)
    | Obj(fields: map<string, Value>)
    | Date(t: int)

  /** A stored document, or a plain object's own enumerable properties. */
  type Doc = map<string, Value>

  /** `parseFloat` and `parseInt` are left uninterpreted: the model is parametric in them.
      `None` is the NaN result. */
  type FloatParser = Value -> Option<real>
  type IntParser = Value -> Option<int>

  /** What an HTTP call to the upstream provider yields: a thrown error (network, timeout,
      non-2xx status) or a response body. */
  datatype Reply = Failed | Replied(data: Value)

  /** JavaScript's `ToBoolean`. */
  predicate Truthy(v: Value) {
    match v
    case Undefined => false
    case Null => false
    case Bool(b) => b
    case Num(n) => n != 0.0
    case NaN => false
    case Str(s) => s != ""
    case Arr(_) => true
    case Obj(_) => true
    case Date(_) => true
  }

  /** `v == null` (loose equality): null or undefined. */
  predicate Nullish(v: Value) {
    v.Undefined? || v.Null?
  }

  /** `a || b`. */
  function Or(a: Value, b: Value): Value {
    if Truthy(a) then a else b
  }

  /** `a && b`. */
  function And(a: Value, b: Value): Value {
    if Truthy(a) then b else a
  }

  /** Property read `v.key`. A JSON object yields its field or `undefined`; every other value
      has none of the property names the model reads. (On null and undefined the read throws;
      the model handles that at each call site where the source can reach it.) */
  function Get(v: Value, key: string): Value {
    if v.Obj? && key in v.fields then v.fields[key] else Undefined
  }

  /** A property read on a stored document. */
  function Field(d: Doc, key: string): Value {
    if key in d then d[key] else Undefined
  }

  /** A field the right-hand map does not set reads as in the left-hand one. */
  lemma FieldOfUnion(d: Doc, m: Doc, key: string)
    requires key !in m
    ensures Field(d + m, key) == Field(d, key)
  {
  }

  /** A field the right-hand map sets reads as there. */
  lemma FieldOfUnionRight(d: Doc, m: Doc, key: string)
    requires key in m
    ensures Field(d + m, key) == m[key]
  {
  }

  /** `v[i]` for a small index: array element, one-character string, or the object's field "i". */
  function At(v: Value, i: nat): Value {
    match v
    case Arr(items) => if i < |items| then items[i] else Undefined
    case Str(s) => if i < |s| then Str([s[i]]) else Undefined
    case Obj(_) => Get(v, JsString.DecimalString(i))
    case _ => Undefined
  }

  /** `v.length` for the values that have one (arrays and strings). */
  function Length(v: Value): Option<nat> {
    match v
    case Arr(items) => Some(|items|)
    case Str(s) => Some(|s|)
    case _ => None
  }

  /** The elements `for (const x of v)` and `Array.isArray` agree on. */
  function ArrayItems(v: Value): seq<Value> {
    if v.Arr? then v.items else []
  }

  /** `a === b`. Objects, arrays and dates compare by identity; two values decoded from
      different places of a document are never the same object. NaN is not equal to itself. */
  predicate StrictEquals(a: Value, b: Value) {
    match (a, b)
    case (Undefined, Undefined) => true
    case (Null, Null) => true
    case (Bool(x), Bool(y)) => x == y
    case (Num(x), Num(y)) => x == y
    case (Str(x), Str(y)) => x == y
    case _ => false
  }

  predicate IsPrimitive(v: Value) {
    !v.Arr? && !v.Obj? && !v.Date?
  }

  /** `String(v)` for the values a key or identifier can hold; numbers are rendered exactly
      when they are integers. */
  function Display(v: Value): string {
    match v
    case Undefined => "undefined"
    case Null => "null"
    case Bool(b) => if b then "true" else "false"
    case Num(n) => if n == n.Floor as real then JsString.DecimalString(n.Floor) else "<number>"
    case NaN => "NaN"
    case Str(s) => s
    case Arr(_) => "<array>"
    case Obj(_) => "[object Object]"
    case Date(_) => "<date>"
  }

  /** The reference meaning of a chain `vs[0] || vs[1] || ... || fallback`: the first truthy
      candidate, or `fallback` when none is. */
  function FirstTruthy(vs: seq<Value>, fallback: Value): (r: Value)
    ensures (forall i :: 0 <= i < |vs| ==> !Truthy(vs[i])) ==> r == fallback
    ensures forall i :: 0 <= i < |vs| && Truthy(vs[i]) && (forall j :: 0 <= j < i ==> !Truthy(vs[j])) ==> r == vs[i]
  {
    if vs == [] then fallback
    else if Truthy(vs[0]) then vs[0]
    else FirstTruthy(vs[1..], fallback)
  }

  /** The number `parseFloat` gave, NaN when it gave none. */
  function NumberOr(x: Option<real>): Value {
    if x.Some? then Num(x.value) else NaN
  }

  /** A GeoJSON point; GeoJSON puts the longitude first. */
  function Point(lng: Value, lat: Value): Value {
    Obj(map["type" := Str("Point"), "coordinates" := Arr([lng, lat])])
  }

  /** A nested read `v.a.b` made total: an intermediate non-object yields undefined. */
  function Path(v: Value, a: string, b: string): Value {
    Get(Get(v, a), b)
  }

  /** A guarded nested read `v.a && v.a.b` is falsy exactly when the total nested read is, and
      equal to it when truthy. */
  lemma GuardedPath(v: Value, a: string, b: string)
    ensures Truthy(And(Get(v, a), Get(Get(v, a), b))) <==> Truthy(Path(v, a, b))
    ensures Truthy(Path(v, a, b)) ==> And(Get(v, a), Get(Get(v, a), b)) == Path(v, a, b)
  {
  }
}

=== FILE: pagination.dfy ===
/** The page/limit/skip/pages arithmetic the three list endpoints share, and the paged read
    `find(filter).skip(skip).limit(limit)` with its `countDocuments(filter)` total. */
module Pagination {
  import opened Wrappers
  import opened Json
  import opened Store
  import opened ApiErrors

  datatype PageInfo = PageInfo(total: nat, page: int, limit: int, pages: int)
  datatype ListPage = ListPage(docs: seq<Doc>, pagination: PageInfo)

  /** `parseInt(q) || fallback`: NaN and zero fall back. */
  function IntOr(pi: IntParser, q: Value, fallback: int): int {
    match pi(q)
    case Some(n) => if n != 0 then n else fallback
    case None => fallback
  }

  /** `Math.ceil(total / limit)`, stated as the defining bounds of the ceiling in both signs. */
  function Pages(total: nat, limit: int): (r: int)
    requires limit != 0
    ensures limit > 0 ==> (r - 1) * limit < total <= r * limit
    ensures limit < 0 ==> r * limit <= total < (r - 1) * limit
  {
    if limit > 0 then
      CeilPositive(total, limit);
      (total + limit - 1) / limit
    else
      CeilNegative(total, -limit);
      -(total / -limit)
  }

  lemma CeilPositive(total: nat, limit: int)
    requires limit > 0
    ensures var q := (total + limit - 1) / limit; (q - 1) * limit < total <= q * limit
  {
  }

  lemma CeilNegative(total: nat, m: int)
    requires m > 0
    ensures var r := -(total / m); r * -m <= total < (r - 1) * -m
  {
  }

  /** `skip(s).limit(n)` on a result list with `s >= 0`. A limit of 0 sets no limit; a negative
      limit returns at most `-n` documents, as the driver's single-batch reading of it does. */
  function Window(all: seq<Doc>, skip: nat, limit: int): (r: seq<Doc>)
    ensures limit != 0 ==> |r| <= Abs(limit)
    ensures skip <= |all| ==> skip + |r| <= |all| && r == all[skip..skip + |r|]
    ensures skip <= |all| && limit != 0 ==> |r| == Min(Abs(limit), |all| - skip)
    ensures skip <= |all| && limit == 0 ==> r == all[skip..]
    ensures skip >= |all| ==> r == []
  {
    var lo := if skip < |all| then skip else |all|;
    var hi := if limit == 0 || skip + Abs(limit) >= |all| then |all| else skip + Abs(limit);
    all[lo..hi]
  }

  function Abs(n: int): nat {
    if n < 0 then -n else n
  }

  function Min(a: int, b: int): int {
    if a < b then a else b
  }

  /** `parseInt(page) || 1`. */
  function PageOf(pi: IntParser, pageQ: Value): int {
    IntOr(pi, pageQ, 1)
  }

  /** `parseInt(limit) || 20`; never 0. */
  function LimitOf(pi: IntParser, limitQ: Value): (limit: int)
    ensures limit != 0
  {
    IntOr(pi, limitQ, 20)
  }

  /** The list endpoints: `page = parseInt(page) || 1`, `limit = parseInt(limit) || 20`,
      `skip = (page - 1) * limit`; the store rejects a negative skip. The page is the window at
      `skip` of the matching documents in natural order. */
  function List(c: Collection, flt: Filter, pi: IntParser, pageQ: Value, limitQ: Value): (r: Result<ListPage, Failure>)
    ensures var page, limit := PageOf(pi, pageQ), LimitOf(pi, limitQ);
            && (r.Success? <==> (page - 1) * limit >= 0)
            && (r.Failure? ==> r.error.Uncaught?)
            && (r.Success? ==>
                  && r.value.pagination == PageInfo(Count(c, flt), page, limit, Pages(Count(c, flt), limit))
                  && r.value.docs == Window(Select(c, flt), (page - 1) * limit, limit)
                  && |r.value.docs| <= Abs(limit)
                  && (forall d :: d in r.value.docs ==> d in c && Matches(d, flt)))
  {
    var page := PageOf(pi, pageQ);
    var limit := LimitOf(pi, limitQ);
    var skip := (page - 1) * limit;
    if skip < 0 then Failure(Uncaught("skip value must be non-negative"))
    else
      var all := Select(c, flt);
      var docs := Window(all, skip, limit);
      assert forall d :: d in docs ==> d in all;
      Success(ListPage(docs, PageInfo(|all|, page, limit, Pages(|all|, limit))))
  }

  /** With a positive limit the pages tile the matching documents: the `j`-th match is at
      position `j % limit` of page `j / limit + 1`, and every page before the last is full. */
  lemma PageHolds(c: Collection, flt: Filter, pi: IntParser, pageQ: Value, limitQ: Value, j: nat)
    requires LimitOf(pi, limitQ) > 0 && j < Count(c, flt)
    requires PageOf(pi, pageQ) == j / LimitOf(pi, limitQ) + 1
    ensures var r := List(c, flt, pi, pageQ, limitQ);
            var limit := LimitOf(pi, limitQ);
            && r.Success?
            && j % limit < |r.value.docs|
            && r.value.docs[j % limit] == Select(c, flt)[j]
            && (PageOf(pi, pageQ) < r.value.pagination.pages ==> |r.value.docs| == limit)
  {
    var limit := LimitOf(pi, limitQ);
    var page := PageOf(pi, pageQ);
    var all := Select(c, flt);
    var q := j / limit;
    DivMod(j, limit);
    MulMono(0, q, limit);
    assert (page - 1) * limit == q * limit;
    WindowHolds(all, limit, j);
    if page < Pages(|all|, limit) {
      FullBeforeLast(|all|, limit, page);
    }
  }

  /** The `j`-th document is at position `j % limit` of the window that starts at the multiple
      of `limit` below it. */
  lemma WindowHolds(all: seq<Doc>, limit: int, j: nat)
    requires limit > 0 && j < |all|
    ensures var w := Window(all, (j / limit) * limit, limit);
            j % limit < |w| && w[j % limit] == all[j]
  {
    DivMod(j, limit);
  }

  /** A page before the last leaves at least a full limit of documents after its skip. */
  lemma FullBeforeLast(total: nat, limit: int, page: int)
    requires limit > 0 && page < Pages(total, limit)
    ensures (page - 1) * limit + limit <= total
  {
    MulMono(page, Pages(total, limit) - 1, limit);
    assert (page - 1) * limit + limit == page * limit;
  }

  /** Euclidean division by a positive divisor. */
  lemma DivMod(j: nat, m: int)
    requires m > 0
    ensures 0 <= j / m && 0 <= j % m < m && j == (j / m) * m + j % m
  {
  }

  lemma MulMono(a: int, b: int, k: int)
    requires a <= b && k > 0
    ensures a * k <= b * k
  {
    assert b * k - a * k == (b - a) * k;
  }

  /** The list endpoints of the soft-deleting collections: a page of the documents whose
      `deleted` is not `true`, and the count of those. */
  function ListNotDeleted(c: Collection, pi: IntParser, pageQ: Value, limitQ: Value): (r: Result<ListPage, Failure>)
    ensures var page, limit := PageOf(pi, pageQ), LimitOf(pi, limitQ);
            && (r.Success? <==> (page - 1) * limit >= 0)
            && (r.Success? ==>
                  && r.value.pagination == PageInfo(Count(c, NotDeleted), page, limit, Pages(Count(c, NotDeleted), limit))
                  && r.value.docs == Window(Select(c, NotDeleted), (page - 1) * limit, limit)
                  && forall d :: d in r.value.docs ==> d in c && Field(d, "deleted") != Bool(true))
  {
    var r := List(c, NotDeleted, pi, pageQ, limitQ);
    assert r.Success? ==> forall d :: d in r.value.docs ==> Field(d, "deleted") != Bool(true) by {
      if r.Success? {
        forall d | d in r.value.docs ensures Field(d, "deleted") != Bool(true) {
          MatchesOne(d, NotTrue("deleted"));
        }
      }
    }
    r
  }
}

=== FILE: places_download.dfy ===
/** The script that downloads place-search result pages for a fixed list of municipalities,
    following each search's page tokens until a page is empty, the tokens run out, or the
    item budget is spent. The search service is an oracle from requests to replies. */
module PlacesDownload {
  import opened Wrappers
  import opened Json
  import opened JsString

  const Municipios: seq<string> :=
    ["Monterrey", "San Pedro Garza Garcia", "Apodaca", "Escobedo", "Guadalupe", "Santa Catarina"]
  const Query: string := "restaurante OR comida OR antojitos OR taquería OR fonda"
  const MaxTotal: int := 200

  /** The parameters that vary between requests: the search text and the page token, which is
      sent only when there is one. */
  datatype Request = Request(q: string, token: Option<Value>)

  type PlacesOracle = Request -> Reply

  /** A page written to disk: the municipality and page number its file is named after, and
      the reply body. */
  datatype SavedFile = SavedFile(municipio: string, page: nat, data: Value) {
    /** The name of the file written. */
    function Name(): string {
      FileName(municipio, page)
    }
  }

  /** What one search produced: the items counted, the files written, the requests made. */
  datatype Fetched = Fetched(total: nat, files: seq<SavedFile>, requests: seq<Request>)

  function SearchText(m: string): string {
    Query + " " + m
  }

  /** `google_<municipality, whitespace replaced by '_'>_page<n>.json`. The name starts with
      `google_`, ends with `.json` and holds no whitespace: every whitespace character of the
      municipality has become an underscore. */
  function FileName(m: string, page: nat): (name: string)
    ensures |name| >= 12 && name[..7] == "google_" && name[|name| - 5..] == ".json"
    ensures forall k :: 0 <= k < |name| ==> !IsWhitespace(name[k])
  {
    var mid, digits := ReplaceWhitespace(m, '_'), DecimalString(page);
    assert !IsWhitespace('_');
    assert NoWhitespace(mid) && NoWhitespace(digits);
    NoWhitespaceAppend("google_", mid);
    NoWhitespaceAppend("google_" + mid, "_page");
    NoWhitespaceAppend("google_" + mid + "_page", digits);
    NoWhitespaceAppend("google_" + mid + "_page" + digits, ".json");
    "google_" + mid + "_page" + digits + ".json"
  }

  predicate NoWhitespace(s: string) {
    forall k :: 0 <= k < |s| ==> !IsWhitespace(s[k])
  }

  lemma NoWhitespaceAppend(a: string, b: string)
    requires NoWhitespace(a) && NoWhitespace(b)
    ensures NoWhitespace(a + b)
  {
    forall k | 0 <= k < |a + b| ensures !IsWhitespace((a + b)[k]) {
      if k >= |a| {
        assert (a + b)[k] == b[k - |a|];
      }
    }
  }

  /** `data.local_results.length` when `local_results` is truthy and has a positive length;
      0 for a failed request or a page without results. */
  function PageSize(r: Reply): nat {
    if r.Failed? then 0
    else
      var lr := Get(r.data, "local_results");
      if Truthy(lr) && Length(lr).Some? then Length(lr).value else 0
  }

  /** `data.serpapi_pagination?.next_page_token`. */
  function NextToken(data: Value): Value {
    Get(Get(data, "serpapi_pagination"), "next_page_token")
  }

  /** The search loop from a state with `total` items counted, the next page number and the
      token to send: one request while under budget, and another only after a non-empty page
      that names a next page. */
  function FetchFrom(m: string, maxTotal: int, oracle: PlacesOracle, total: nat, page: nat, token: Option<Value>): (r: Fetched)
    ensures r.requests == [] <==> total >= maxTotal
    ensures r.total >= total
    ensures |r.files| <= |r.requests| <= |r.files| + 1
    decreases maxTotal - total
  {
    if total >= maxTotal then Fetched(total, [], [])
    else
      var req := Request(SearchText(m), token);
      var reply := oracle(req);
      var n := PageSize(reply);
      if n == 0 then Fetched(total, [], [req])
      else
        var file := SavedFile(m, page, reply.data);
        var next := NextToken(reply.data);
        if !Truthy(next) then Fetched(total + n, [file], [req])
        else
          var rest := FetchFrom(m, maxTotal, oracle, total + n, page + 1, Some(next));
          Fetched(rest.total, [file] + rest.files, [req] + rest.requests)
  }

  /** `fetchPaginatedMunicipio(m, maxTotal)`: the items counted are the sizes of the pages
      requested, and a request is made exactly when there is budget. */
  function Fetch(m: string, maxTotal: int, oracle: PlacesOracle): (r: Fetched)
    ensures r.total == SumSizes(oracle, r.requests)
    ensures r.requests == [] <==> maxTotal <= 0
    ensures |r.files| <= |r.requests|
  {
    TotalCounted(m, maxTotal, oracle, 0, 1, None);
    FetchFrom(m, maxTotal, oracle, 0, 1, None)
  }

  /** The sum of the page sizes the replies to `reqs` report. */
  function SumSizes(oracle: PlacesOracle, reqs: seq<Request>): nat {
    if reqs == [] then 0 else PageSize(oracle(reqs[0])) + SumSizes(oracle, reqs[1..])
  }

  /** A reply the loop goes on from: a non-empty page naming a next page. */
  predicate Continues(r: Reply) {
    PageSize(r) > 0 && Truthy(NextToken(r.data))
  }

  /** Without budget no request is made. */
  lemma NoBudgetNoRequest(m: string, maxTotal: int, oracle: PlacesOracle)
    requires maxTotal <= 0
    ensures Fetch(m, maxTotal, oracle) == Fetched(0, [], [])
  {
  }

  /** The request chain: the first request carries the starting token, each later one the
      token of the page before it, and every request but the last got a page the loop goes on
      from. */
  lemma {:induction false} TokensChain(m: string, maxTotal: int, oracle: PlacesOracle, total: nat, page: nat, token: Option<Value>)
    ensures var r := FetchFrom(m, maxTotal, oracle, total, page, token);
            && (total < maxTotal <==> r.requests != [])
            && (r.requests != [] ==> r.requests[0] == Request(SearchText(m), token))
            && (forall k :: 0 <= k < |r.requests| - 1 ==>
                  Continues(oracle(r.requests[k]))
                  && r.requests[k + 1] == Request(SearchText(m), Some(NextToken(oracle(r.requests[k]).data))))
    decreases maxTotal - total
  {
    if total < maxTotal {
      var req := Request(SearchText(m), token);
      var reply := oracle(req);
      var n := PageSize(reply);
      var next := if n > 0 then NextToken(reply.data) else Undefined;
      if n > 0 && Truthy(next) {
        TokensChain(m, maxTotal, oracle, total + n, page + 1, Some(next));
        var rest := FetchFrom(m, maxTotal, oracle, total + n, page + 1, Some(next));
        var r := FetchFrom(m, maxTotal, oracle, total, page, token);
        assert r.requests == [req] + rest.requests;
        forall k | 0 <= k < |r.requests| - 1
          ensures Continues(oracle(r.requests[k]))
                  && r.requests[k + 1] == Request(SearchText(m), Some(NextToken(oracle(r.requests[k]).data)))
        {
          if k > 0 {
            assert r.requests[k] == rest.requests[k - 1] && r.requests[k + 1] == rest.requests[k];
          }
        }
      }
    }
  }

  /** Files: one per non-empty page, numbered from the starting page number up, each holding
      the reply to the request at the same position; at most the last request saves none. */
  lemma {:induction false} FilesNumbered(m: string, maxTotal: int, oracle: PlacesOracle, total: nat, page: nat, token: Option<Value>)
    ensures var r := FetchFrom(m, maxTotal, oracle, total, page, token);
            && |r.files| <= |r.requests| <= |r.files| + 1
            && (forall k :: 0 <= k < |r.files| ==>
                  r.files[k].municipio == m && r.files[k].page == page + k
                  && oracle(r.requests[k]) == Replied(r.files[k].data)
                  && PageSize(oracle(r.requests[k])) > 0)
    decreases maxTotal - total
  {
    if total < maxTotal {
      var req := Request(SearchText(m), token);
      var reply := oracle(req);
      var n := PageSize(reply);
      var next := if n > 0 then NextToken(reply.data) else Undefined;
      if n > 0 && Truthy(next) {
        FilesNumbered(m, maxTotal, oracle, total + n, page + 1, Some(next));
        var rest := FetchFrom(m, maxTotal, oracle, total + n, page + 1, Some(next));
        var r := FetchFrom(m, maxTotal, oracle, total, page, token);
        assert r.files == [SavedFile(m, page, reply.data)] + rest.files;
        assert r.requests == [req] + rest.requests;
        forall k | 0 <= k < |r.files|
          ensures r.files[k].municipio == m && r.files[k].page == page + k
                  && oracle(r.requests[k]) == Replied(r.files[k].data)
                  && PageSize(oracle(r.requests[k])) > 0
        {
          if k > 0 {
            assert r.files[k] == rest.files[k - 1] && r.requests[k] == rest.requests[k - 1];
          }
        }
      }
    }
  }

  /** A search writes `google_<municipality>_page1.json`, `..._page2.json` and so on, one per
      non-empty page in order, each holding the reply to the request at its position. */
  lemma FetchFilesNamed(m: string, maxTotal: int, oracle: PlacesOracle)
    ensures var r := Fetch(m, maxTotal, oracle);
            && |r.files| <= |r.requests|
            && forall k :: 0 <= k < |r.files| ==>
              r.files[k].Name() == FileName(m, k + 1) && oracle(r.requests[k]) == Replied(r.files[k].data)
  {
    FilesNumbered(m, maxTotal, oracle, 0, 1, None);
  }

  /** The count grows by exactly the sizes of the pages fetched; the loop stops after an empty
      page, a page without a next token, or once the budget is reached; and it overshoots the
      budget by less than the last page. */
  lemma {:induction false} TotalCounted(m: string, maxTotal: int, oracle: PlacesOracle, total: nat, page: nat, token: Option<Value>)
    ensures var r := FetchFrom(m, maxTotal, oracle, total, page, token);
            && r.total == total + SumSizes(oracle, r.requests)
            && (r.requests != [] ==>
                  var last := oracle(r.requests[|r.requests| - 1]);
                  && (!Continues(last) || r.total >= maxTotal)
                  && r.total < maxTotal + PageSize(last))
    decreases maxTotal - total
  {
    if total < maxTotal {
      var req := Request(SearchText(m), token);
      var reply := oracle(req);
      var n := PageSize(reply);
      var next := if n > 0 then NextToken(reply.data) else Undefined;
      if n > 0 && Truthy(next) {
        TotalCounted(m, maxTotal, oracle, total + n, page + 1, Some(next));
        var rest := FetchFrom(m, maxTotal, oracle, total + n, page + 1, Some(next));
        var r := FetchFrom(m, maxTotal, oracle, total, page, token);
        assert r.requests == [req] + rest.requests;
        assert r.requests[1..] == rest.requests;
        if rest.requests != [] {
          assert r.requests[|r.requests| - 1] == rest.requests[|rest.requests| - 1];
        }
      } else {
        var r := FetchFrom(m, maxTotal, oracle, total, page, token);
        assert r.requests == [req];
        assert r.requests[1..] == [];
      }
    }
  }

  /** What has been saved and requested so far, followed by what the rest of the loop does. */
  function Then(files: seq<SavedFile>, requests: seq<Request>, rest: Fetched): Fetched {
    Fetched(rest.total, files + rest.files, requests + rest.requests)
  }

  lemma ThenThen(f1: seq<SavedFile>, r1: seq<Request>, f2: seq<SavedFile>, r2: seq<Request>, rest: Fetched)
    ensures Then(f1, r1, Then(f2, r2, rest)) == Then(f1 + f2, r1 + r2, rest)
  {
    assert f1 + (f2 + rest.files) == (f1 + f2) + rest.files;
    assert r1 + (r2 + rest.requests) == (r1 + r2) + rest.requests;
  }

  /** One turn of the search loop: the request, then what the loop does from the next state. */
  lemma FetchStep(m: string, maxTotal: int, oracle: PlacesOracle, total: nat, page: nat, token: Option<Value>)
    requires total < maxTotal
    ensures var req := Request(SearchText(m), token);
            var reply := oracle(req);
            var n := PageSize(reply);
            var next := if reply.Replied? then NextToken(reply.data) else Undefined;
            && (n == 0 ==> FetchFrom(m, maxTotal, oracle, total, page, token) == Then([], [req], Fetched(total, [], [])))
            && (n > 0 ==> FetchFrom(m, maxTotal, oracle, total, page, token)
                          == Then([SavedFile(m, page, reply.data)], [req],
                                  if Truthy(next) then FetchFrom(m, maxTotal, oracle, total + n, page + 1, Some(next))
                                  else Fetched(total + n, [], [])))
  {
    var req := Request(SearchText(m), token);
    assert [] + [req] == [req];
    if PageSize(oracle(req)) > 0 {
      var file := SavedFile(m, page, oracle(req).data);
      assert [file] + [] == [file] && [req] + [] == [req];
    }
  }

  /** The loop's invariant carried over one turn: what is saved and requested so far,
      followed by the rest of the search, is still the whole search. */
  lemma Advance(m: string, maxTotal: int, oracle: PlacesOracle, total: nat, page: nat, token: Option<Value>,
                files: seq<SavedFile>, requests: seq<Request>, whole: Fetched)
    requires total < maxTotal
    requires whole == Then(files, requests, FetchFrom(m, maxTotal, oracle, total, page, token))
    ensures var req := Request(SearchText(m), token);
            var reply := oracle(req);
            var n := PageSize(reply);
            && (n == 0 ==> whole == Then(files, requests + [req], Fetched(total, [], [])))
            && (n > 0 ==> whole == Then(files + [SavedFile(m, page, reply.data)], requests + [req],
                                        if Truthy(NextToken(reply.data)) then FetchFrom(m, maxTotal, oracle, total + n, page + 1, Some(NextToken(reply.data)))
                                        else Fetched(total + n, [], [])))
  {
    var req := Request(SearchText(m), token);
    var reply := oracle(req);
    var n := PageSize(reply);
    FetchStep(m, maxTotal, oracle, total, page, token);
    if n == 0 {
      ThenThen(files, requests, [], [req], Fetched(total, [], []));
      assert files + [] == files;
    } else {
      var next := NextToken(reply.data);
      var rest := if Truthy(next) then FetchFrom(m, maxTotal, oracle, total + n, page + 1, Some(next))
                  else Fetched(total + n, [], []);
      ThenThen(files, requests, [SavedFile(m, page, reply.data)], [req], rest);
    }
  }

  /** The same after a non-empty page that names a next page, stated on the loop's new state. */
  lemma AdvanceTo(m: string, maxTotal: int, oracle: PlacesOracle, t0: nat, p0: nat, k0: Option<Value>,
                  f0: seq<SavedFile>, r0: seq<Request>, whole: Fetched,
                  total: nat, page: nat, token: Option<Value>, files: seq<SavedFile>, requests: seq<Request>)
    requires t0 < maxTotal
    requires whole == Then(f0, r0, FetchFrom(m, maxTotal, oracle, t0, p0, k0))
    requires var reply := oracle(Request(SearchText(m), k0));
             && PageSize(reply) > 0 && Truthy(NextToken(reply.data))
             && total == t0 + PageSize(reply) && page == p0 + 1 && token == Some(NextToken(reply.data))
             && files == f0 + [SavedFile(m, p0, reply.data)] && requests == r0 + [Request(SearchText(m), k0)]
    ensures whole == Then(files, requests, FetchFrom(m, maxTotal, oracle, total, page, token))
  {
    Advance(m, maxTotal, oracle, t0, p0, k0, f0, r0, whole);
  }

  /** `fetchPaginatedMunicipio` as the loop it is. */
  method FetchPaginatedMunicipio(m: string, maxTotal: int, oracle: PlacesOracle) returns (r: Fetched)
    ensures r == Fetch(m, maxTotal, oracle)
  {
    var total: nat := 0;
    var page: nat := 1;
    var token: Option<Value> := None;
    var files: seq<SavedFile> := [];
    var requests: seq<Request> := [];
    ghost var whole := FetchFrom(m, maxTotal, oracle, 0, 1, None);
    assert Then([], [], whole) == whole;
    while total < maxTotal
      invariant whole == Then(files, requests, FetchFrom(m, maxTotal, oracle, total, page, token))
      decreases maxTotal - total
    {
      ghost var t0, p0, k0, f0, r0 := total, page, token, files, requests;
      var req := Request(SearchText(m), token);
      var reply := oracle(req);
      var n := PageSize(reply);
      Advance(m, maxTotal, oracle, total, page, token, files, requests, whole);
      if n == 0 {
        requests := requests + [req];
        assert whole == Then(files, requests, Fetched(total, [], []));
        break;
      }
      var next := NextToken(reply.data);
      files := files + [SavedFile(m, page, reply.data)];
      requests := requests + [req];
      total := total + n;
      if !Truthy(next) {
        assert whole == Then(files, requests, Fetched(total, [], []));
        break;
      }
      page := page + 1;
      token := Some(next);
      AdvanceTo(m, maxTotal, oracle, t0, p0, k0, f0, r0, whole, total, page, token, files, requests);
    }
    assert whole == Then(files, requests, Fetched(total, [], []));
    assert files + [] == files && requests + [] == requests;
    r := Fetched(total, files, requests);
  }

  /** One search with a budget, as `main` calls it. */
  type Search = (string, int) -> Fetched

  /** One municipality searched: the budget it was given and what the search produced. */
  datatype Visit = Visit(municipio: string, budget: int, got: Fetched)

  /** `main()` from the municipalities still to visit, with `total` items counted so far: each
      search gets the budget left, and the run stops once the cap is reached. */
  function DownloadFrom(ms: seq<string>, search: Search, total: nat): (vs: seq<Visit>)
    ensures |vs| <= |ms|
    decreases |ms|
  {
    if ms == [] then []
    else
      var got := search(ms[0], MaxTotal - total);
      var v := Visit(ms[0], MaxTotal - total, got);
      if total + got.total >= MaxTotal then [v]
      else [v] + DownloadFrom(ms[1..], search, total + got.total)
  }

  /** The run visits the municipalities in order from the first; the first gets the whole
      budget left; and every search starts with budget to spend. */
  lemma {:induction false} DownloadVisitsInOrder(ms: seq<string>, search: Search, total: nat)
    requires total < MaxTotal
    ensures var vs := DownloadFrom(ms, search, total);
            && (ms != [] ==> |vs| >= 1 && vs[0].budget == MaxTotal - total)
            && (forall k :: 0 <= k < |vs| ==>
                  vs[k].municipio == ms[k] && vs[k].got == search(ms[k], vs[k].budget) && vs[k].budget > 0)
    decreases |ms|
  {
    if ms != [] {
      var got := search(ms[0], MaxTotal - total);
      var vs := DownloadFrom(ms, search, total);
      if total + got.total < MaxTotal {
        var rest := DownloadFrom(ms[1..], search, total + got.total);
        DownloadVisitsInOrder(ms[1..], search, total + got.total);
        assert vs == [Visit(ms[0], MaxTotal - total, got)] + rest;
        forall k | 0 < k < |vs|
          ensures vs[k].municipio == ms[k] && vs[k].got == search(ms[k], vs[k].budget) && vs[k].budget > 0
        {
          assert vs[k] == rest[k - 1] && ms[k] == ms[1..][k - 1];
        }
      }
    }
  }

  /** Each later municipality is given what the one before it left of the budget. */
  lemma {:induction false} DownloadBudgetsChain(ms: seq<string>, search: Search, total: nat)
    ensures forall k :: 0 < k < |DownloadFrom(ms, search, total)| ==>
              DownloadFrom(ms, search, total)[k].budget
              == DownloadFrom(ms, search, total)[k - 1].budget - DownloadFrom(ms, search, total)[k - 1].got.total
    decreases |ms|
  {
    if ms != [] {
      var got := search(ms[0], MaxTotal - total);
      var vs := DownloadFrom(ms, search, total);
      if total + got.total < MaxTotal {
        var rest := DownloadFrom(ms[1..], search, total + got.total);
        DownloadBudgetsChain(ms[1..], search, total + got.total);
        assert vs == [Visit(ms[0], MaxTotal - total, got)] + rest;
        forall k | 0 < k < |vs| ensures vs[k].budget == vs[k - 1].budget - vs[k - 1].got.total {
          if k > 1 {
            assert vs[k] == rest[k - 1] && vs[k - 1] == rest[k - 2];
          } else {
            assert ms[1..] != [];
            assert rest[0].budget == MaxTotal - (total + got.total);
            assert vs[1] == rest[0];
          }
        }
      }
    }
  }

  /** Municipalities are left out only once the cap is reached: a run that stops early stops
      after a search that spent its whole budget. */
  lemma {:induction false} DownloadStopsAtCap(ms: seq<string>, search: Search, total: nat)
    ensures var vs := DownloadFrom(ms, search, total);
            0 < |vs| < |ms| ==> vs[|vs| - 1].got.total >= vs[|vs| - 1].budget
    decreases |ms|
  {
    if ms != [] {
      var got := search(ms[0], MaxTotal - total);
      var vs := DownloadFrom(ms, search, total);
      if total + got.total < MaxTotal {
        var rest := DownloadFrom(ms[1..], search, total + got.total);
        DownloadStopsAtCap(ms[1..], search, total + got.total);
        assert vs == [Visit(ms[0], MaxTotal - total, got)] + rest;
        if 0 < |vs| < |ms| {
          assert vs[|vs| - 1] == rest[|rest| - 1];
        }
      }
    }
  }

  /** The whole download: the six municipalities in order from Monterrey, each searched by
      `fetchPaginatedMunicipio` against the oracle with the budget left, which is never spent
      up front. */
  function Download(oracle: PlacesOracle): (vs: seq<Visit>)
    ensures 1 <= |vs| <= |Municipios|
    ensures vs[0].budget == MaxTotal
    ensures forall k :: 0 <= k < |vs| ==>
              vs[k].municipio == Municipios[k] && vs[k].budget > 0 && vs[k].got == Fetch(Municipios[k], vs[k].budget, oracle)
  {
    var search: Search := (m, budget) => Fetch(m, budget, oracle);
    DownloadVisitsInOrder(Municipios, search, 0);
    DownloadFrom(Municipios, search, 0)
  }
}

=== FILE: requests.dfy ===
/** What the three CRUD controllers share: the outcome of a request against a collection, the
    GeoJSON reformatting of a request body's `ubicacion`, and the validation of the location
    and text search parameters. */
module Requests {
  import opened Wrappers
  import opened Json
  import opened JsString
  import opened Store
  import opened ApiErrors
  import Pagination

  /** The collection after a request, and what the request answered: the `data` of a success
      response, or the failure handed to `next`. */
  datatype Outcome<T> = Outcome(store: Collection, result: Result<T, Failure>)

  /** `req.body || {}`: an absent body reads as the empty object. */
  function BodyOr(body: Option<Doc>): Doc {
    if body.Some? then body.value else map[]
  }

  /** `{ type: "Point", coordinates: [parseFloat(loc.coordinates[0]), parseFloat(loc.coordinates[1])] }`;
      `None` when `loc.coordinates` is null or undefined, where indexing it throws. */
  function FormatLocation(loc: Value, pf: FloatParser): (r: Option<Value>)
    ensures r.None? <==> Nullish(Get(loc, "coordinates"))
    ensures r.Some? ==> && Get(r.value, "type") == Str("Point")
                        && Get(r.value, "coordinates").Arr?
                        && |Get(r.value, "coordinates").items| == 2
                        && (forall k :: 0 <= k < 2 ==>
                              Get(r.value, "coordinates").items[k] == NumberOr(pf(At(Get(loc, "coordinates"), k))))
  {
    var coords := Get(loc, "coordinates");
    if Nullish(coords) then None
    else Some(Point(NumberOr(pf(At(coords, 0))), NumberOr(pf(At(coords, 1)))))
  }

  /** `if (d.ubicacion) d.ubicacion = <formatted>`: a truthy `ubicacion` is replaced by its
      point, which throws (`None`) when it has no coordinates; every other field is kept. */
  function FormatBody(d: Doc, pf: FloatParser): (r: Option<Doc>)
    ensures r.None? <==> Truthy(Field(d, "ubicacion")) && Nullish(Get(d["ubicacion"], "coordinates"))
    ensures r.Some? ==> r.value.Keys == d.Keys
    ensures r.Some? ==> forall key :: key != "ubicacion" ==> Field(r.value, key) == Field(d, key)
    ensures r.Some? && Truthy(Field(d, "ubicacion")) ==> r.value["ubicacion"] == FormatLocation(d["ubicacion"], pf).value
    ensures r.Some? && !Truthy(Field(d, "ubicacion")) ==> r.value == d
  {
    if !Truthy(Field(d, "ubicacion")) then Some(d)
    else
      match FormatLocation(d["ubicacion"], pf)
      case None => None
      case Some(p) => Some(d["ubicacion" := p])
  }

  /** The fields a soft delete stamps. */
  function DeletionStamps(now: int): Doc {
    map["deleted" := Bool(true), "deleted_at" := Date(now), "modified_at" := Date(now)]
  }

  /** `s` is `c` with document `i` soft-deleted at `now`: it is kept in place with `deleted`
      true and `deleted_at` and `modified_at` now, and nothing else changes. */
  ghost predicate SoftDeletedAt(c: Collection, s: Collection, i: nat, now: int) {
    && i < |c| && |s| == |c|
    && s == c[i := s[i]]
    && Field(s[i], "deleted") == Bool(true)
    && Field(s[i], "deleted_at") == Date(now) && Field(s[i], "modified_at") == Date(now)
    && forall key :: key !in DeletionStamps(now) ==> Field(s[i], key) == Field(c[i], key)
  }

  /** Stamping the first match of a filter soft-deletes it. */
  lemma SoftDeleteApplied(c: Collection, flt: Filter, i: nat, now: int)
    requires FindFirst(c, flt) == Some(i)
    ensures SoftDeletedAt(c, UpdateOne(c, flt, DeletionStamps(now), NoUpsert).0, i, now)
  {
  }

  /** The parameters of a `$near` query: the point `[longitude, latitude]` and the radius. */
  datatype NearQuery = NearQuery(coordinates: seq<real>, maxDistance: int)

  /** The validation of `searchByLocation`: both coordinates must be given and parse;
      `distance` is `parseInt(distance) || 1000`. */
  function LocationQuery(lngQ: Value, latQ: Value, distQ: Value, pf: FloatParser, pi: IntParser): (r: Result<NearQuery, Failure>)
    ensures !Truthy(lngQ) || !Truthy(latQ) ==> r == Failure(Raised(BadRequest("Longitude and latitude are required")))
    ensures Truthy(lngQ) && Truthy(latQ) && (pf(lngQ).None? || pf(latQ).None?) ==>
              r == Failure(Raised(BadRequest("Invalid coordinates")))
    ensures r.Success? <==> Truthy(lngQ) && Truthy(latQ) && pf(lngQ).Some? && pf(latQ).Some?
    ensures r.Success? ==> r.value.coordinates == [pf(lngQ).value, pf(latQ).value]
    ensures r.Success? && pi(distQ).Some? && pi(distQ).value != 0 ==> r.value.maxDistance == pi(distQ).value
    ensures r.Success? && (pi(distQ).None? || pi(distQ).value == 0) ==> r.value.maxDistance == 1000
  {
    if !Truthy(lngQ) || !Truthy(latQ) then Failure(Raised(BadRequest("Longitude and latitude are required")))
    else
      var lng, lat := pf(lngQ), pf(latQ);
      var maxDistance := Pagination.IntOr(pi, distQ, 1000);
      if lng.None? || lat.None? then Failure(Raised(BadRequest("Invalid coordinates")))
      else Success(NearQuery([lng.value, lat.value], maxDistance))
  }

  /** The validation of `searchByText`: `q` must be a string with a non-whitespace character,
      and is searched for as given, untrimmed. A truthy non-string (a repeated parameter gives
      an array) has no `trim` and throws. */
  function TextQuery(q: Value): (r: Result<string, Failure>)
    ensures r.Success? <==> q.Str? && !AllWhitespace(q.s)
    ensures r.Success? ==> r.value == q.s
    ensures !Truthy(q) || (q.Str? && AllWhitespace(q.s)) ==> r == Failure(Raised(BadRequest("Search query is required")))
    ensures Truthy(q) && !q.Str? ==> r.Failure? && r.error.Uncaught?
  {
    if !Truthy(q) then Failure(Raised(BadRequest("Search query is required")))
    else if !q.Str? then Failure(Uncaught("q.trim is not a function"))
    else
      TrimEmptyIff(q.s);
      if Trim(q.s) == "" then Failure(Raised(BadRequest("Search query is required")))
      else Success(q.s)
  }
}

=== FILE: restaurant_api.dfy ===
/** The Google restaurant endpoints: a collection keyed by `data_id` with soft deletion. Reads
    skip documents whose `deleted` is `true`; create is an upsert that clears the deletion;
    delete only stamps the document. The two searches validate their parameters with
    `Requests.LocationQuery` and `Requests.TextQuery`. */
module GoogleRestaurantApi {
  import opened Wrappers
  import opened Json
  import opened Store
  import opened ApiErrors
  import opened Pagination
  import opened Requests

  /** `{ data_id: id }`. */
  function ByKey(id: Value): Filter {
    [Eq("data_id", id)]
  }

  /** `{ data_id: id, deleted: { $ne: true } }`. */
  function Live(id: string): Filter {
    [Eq("data_id", Str(id)), NotTrue("deleted")]
  }

  /** The document carries the path parameter as its `data_id`. */
  predicate HasKey(d: Doc, id: string) {
    KeyOf(d, "data_id") == Str(id)
  }

  /** ... and it is not soft-deleted. */
  predicate IsLive(d: Doc, id: string) {
    HasKey(d, id) && Field(d, "deleted") != Bool(true)
  }

  lemma ByKeyMatches(d: Doc, id: string)
    ensures Matches(d, ByKey(Str(id))) <==> HasKey(d, id)
  {
    MatchesOne(d, Eq("data_id", Str(id)));
  }

  lemma LiveMatches(d: Doc, id: string)
    ensures Matches(d, Live(id)) <==> IsLive(d, id)
  {
    MatchesTwo(d, Eq("data_id", Str(id)), NotTrue("deleted"));
  }

  function NotFoundError(id: string): Failure {
    Raised(NotFound("Restaurant with data_id " + id + " not found"))
  }

  /** `getRestaurantById`: the first document with the `data_id` that is not soft-deleted. */
  function GetRestaurant(c: Collection, id: string): (r: Result<Doc, Failure>)
    ensures r.Success? ==> r.value in c && IsLive(r.value, id)
    ensures r.Failure? <==> forall j :: 0 <= j < |c| ==> !IsLive(c[j], id)
    ensures r.Failure? ==> r.error == NotFoundError(id)
    ensures r.Success? ==> exists i :: 0 <= i < |c| && c[i] == r.value && IsLive(c[i], id)
                                    && forall j :: 0 <= j < i ==> !IsLive(c[j], id)
  {
    assert forall j :: 0 <= j < |c| ==> (Matches(c[j], Live(id)) <==> IsLive(c[j], id)) by {
      forall j | 0 <= j < |c| {
        LiveMatches(c[j], id);
      }
    }
    match FindOne(c, Live(id))
    case Some(d) =>
      LiveMatches(d, id);
      Success(d)
    case None => Failure(NotFoundError(id))
  }

  /** The fields `createRestaurant` writes itself. */
  const CreateManaged: set<string> := {"data_id", "ubicacion", "deleted", "deleted_at", "modified_at"}

  /** The `$set` document of `createRestaurant`: the body with a generated `data_id` when it
      has no truthy one, `ubicacion` reformatted when it has coordinates, and the deletion
      cleared. `freshId` stands for `new ObjectId().toString()`. */
  function Prepared(body: Option<Doc>, freshId: string, now: int, pf: FloatParser): (p: Doc)
    ensures Field(p, "deleted") == Bool(false) && Field(p, "deleted_at") == Null && Field(p, "modified_at") == Date(now)
    ensures "data_id" in p
    ensures Truthy(Field(BodyOr(body), "data_id")) ==> p["data_id"] == BodyOr(body)["data_id"]
    ensures !Truthy(Field(BodyOr(body), "data_id")) ==> p["data_id"] == Str(freshId)
    ensures var loc := Field(BodyOr(body), "ubicacion");
            Field(p, "ubicacion") == if Truthy(loc) && Truthy(Get(loc, "coordinates")) then FormatLocation(loc, pf).value else loc
    ensures forall key :: key !in CreateManaged ==> Field(p, key) == Field(BodyOr(body), key)
  {
    var data := BodyOr(body);
    var withId := if Truthy(Field(data, "data_id")) then data else data["data_id" := Str(freshId)];
    var loc := Field(withId, "ubicacion");
    var located := if Truthy(loc) && Truthy(Get(loc, "coordinates")) then withId["ubicacion" := FormatLocation(loc, pf).value] else withId;
    located["deleted" := Bool(false)]["deleted_at" := Null]["modified_at" := Date(now)]
  }

  /** `createRestaurant`: upsert by `data_id`, then read the document back. The stored document
      is the first one with that `data_id` with every prepared field overwritten and its other
      fields kept, or the prepared document inserted at the end with the server's `_id`
      (`newId`) when it has none; no other document changes. */
  function CreateRestaurant(c: Collection, body: Option<Doc>, freshId: string, now: int, pf: FloatParser, newId: Value): (r: Outcome<Doc>)
    ensures r.result.Success?
    ensures var p := Prepared(body, freshId, now, pf);
            var i := UpsertPosition(c, ByKey(p["data_id"]));
            && i < |r.store| && r.result.value == r.store[i]
            && (forall key :: key in p ==> Field(r.result.value, key) == p[key])
            && (i < |c| ==> |r.store| == |c| && forall key :: key !in p ==> Field(r.result.value, key) == Field(c[i], key))
            && (i == |c| ==> && |r.store| == |c| + 1 && r.result.value.Keys == p.Keys + {"_id"}
                             && r.result.value["_id"] == if "_id" in p then p["_id"] else newId)
            && (forall j :: 0 <= j < |c| && j != i ==> r.store[j] == c[j])
    ensures Unique(c, ["data_id"]) ==> Unique(r.store, ["data_id"])
  {
    var p := Prepared(body, freshId, now, pf);
    var fs, vs := ["data_id"], [p["data_id"]];
    assert KeyFilter(fs, vs) == ByKey(p["data_id"]);
    var c' := UpdateOne(c, ByKey(p["data_id"]), p, UpsertWith(newId)).0;
    UpsertReadBack(c, fs, vs, p, newId);
    assert Unique(c, fs) ==> Unique(c', fs) by {
      if Unique(c, fs) {
        UpsertKeepsKeyUnique(c, fs, vs, p, newId);
      }
    }
    var i := UpsertPosition(c, ByKey(p["data_id"]));
    Outcome(c', Success(c'[i]))
  }

  /** After a create whose body names `data_id` `id`, the restaurant can be read: a create
      revives a soft-deleted document. */
  lemma CreateThenGet(c: Collection, body: Option<Doc>, freshId: string, now: int, pf: FloatParser, newId: Value, id: string)
    requires Field(BodyOr(body), "data_id") == Str(id) && id != ""
    ensures GetRestaurant(CreateRestaurant(c, body, freshId, now, pf, newId).store, id).Success?
  {
  }

  /** The fields `updateRestaurant` never takes from the body. */
  const UpdateManaged: set<string> := {"_id", "ubicacion", "modified_at"}

  /** The `$set` document of `updateRestaurant`: the body without `_id`, `ubicacion`
      reformatted when truthy, and `modified_at`; `None` when the reformatting throws. */
  function UpdateSet(body: Option<Doc>, now: int, pf: FloatParser): (r: Option<Doc>)
    ensures var loc := Field(BodyOr(body), "ubicacion");
            r.None? <==> Truthy(loc) && Nullish(Get(loc, "coordinates"))
    ensures r.Some? ==> "_id" !in r.value && Field(r.value, "modified_at") == Date(now)
    ensures r.Some? ==> forall key :: key !in UpdateManaged ==> Field(r.value, key) == Field(BodyOr(body), key)
    ensures r.Some? ==> ("ubicacion" in r.value <==> "ubicacion" in BodyOr(body))
  {
    var d := BodyOr(body) - {"_id"};
    assert Field(d, "ubicacion") == Field(BodyOr(body), "ubicacion");
    match FormatBody(d, pf)
    case None => None
    case Some(u) => Some(u["modified_at" := Date(now)])
  }

  /** `updateRestaurant`. Reformatting a `ubicacion` without coordinates throws before the
      store is read; otherwise the update needs a document with the `data_id` that is not
      soft-deleted, and is applied to the first document with the `data_id`; the answer is the
      first document that still holds that `data_id` afterwards, if any. */
  function UpdateRestaurant(c: Collection, id: string, body: Option<Doc>, now: int, pf: FloatParser): (r: Outcome<Option<Doc>>)
    ensures r.result.Failure? ==> r.store == c
    ensures r.result.Failure? && r.result.error.Uncaught? <==> UpdateSet(body, now, pf).None?
    ensures r.result == Failure(NotFoundError(id)) <==>
              UpdateSet(body, now, pf).Some? && forall j :: 0 <= j < |c| ==> !IsLive(c[j], id)
    ensures r.result.Success? ==>
              && FindFirst(c, ByKey(Str(id))).Some?
              && var i := FindFirst(c, ByKey(Str(id))).value;
                 var upd := UpdateSet(body, now, pf).value;
                 && r.store == c[i := c[i] + upd]
                 && Field(r.store[i], "_id") == Field(c[i], "_id")
                 && Field(r.store[i], "modified_at") == Date(now)
                 && (KeyOf(c[i] + upd, "data_id") == Str(id) ==> r.result.value == Some(r.store[i]))
  {
    match UpdateSet(body, now, pf)
    case None => Outcome(c, Failure(Uncaught("coordinates of ubicacion cannot be read")))
    case Some(upd) =>
      match GetRestaurant(c, id)
      case Failure(_) => Outcome(c, Failure(NotFoundError(id)))
      case Success(live) =>
        var flt := ByKey(Str(id));
        ByKeyMatches(live, id);
        var i := FindFirst(c, flt).value;
        var c' := UpdateOne(c, flt, upd, NoUpsert).0;
        assert KeyOf(c[i] + upd, "data_id") == Str(id) ==> FindFirst(c', flt) == Some(i) by {
          if KeyOf(c[i] + upd, "data_id") == Str(id) {
            ByKeyMatches(c[i] + upd, id);
            UpdateReadBack(c, flt, upd, i);
          }
        }
        Outcome(c', Success(FindOne(c', flt)))
  }

  /** `deleteRestaurant`: any document with the `data_id`, soft-deleted or not, is accepted; the
      first one gets `deleted` true and `deleted_at` and `modified_at` now, and is kept. */
  function DeleteRestaurant(c: Collection, id: string, now: int): (r: Outcome<string>)
    ensures r.result.Failure? <==> forall j :: 0 <= j < |c| ==> !HasKey(c[j], id)
    ensures r.result.Failure? ==> r.store == c && r.result.error == NotFoundError(id)
    ensures r.result.Success? ==>
              && r.result.value == id
              && FindFirst(c, ByKey(Str(id))).Some?
              && var i := FindFirst(c, ByKey(Str(id))).value;
                 && HasKey(c[i], id)
                 && SoftDeletedAt(c, r.store, i, now)
  {
    var flt := ByKey(Str(id));
    assert forall j :: 0 <= j < |c| ==> (Matches(c[j], flt) <==> HasKey(c[j], id)) by {
      forall j | 0 <= j < |c| {
        ByKeyMatches(c[j], id);
      }
    }
    match FindFirst(c, flt)
    case None => Outcome(c, Failure(NotFoundError(id)))
    case Some(i) =>
      var c' := UpdateOne(c, flt, DeletionStamps(now), NoUpsert).0;
      SoftDeleteApplied(c, flt, i, now);
      Outcome(c', Success(id))
  }

  /** With one document per `data_id`, a deleted restaurant can no longer be read. */
  lemma DeleteThenGet(c: Collection, id: string, now: int)
    requires Unique(c, ["data_id"])
    ensures GetRestaurant(DeleteRestaurant(c, id, now).store, id).Failure?
  {
    var r := DeleteRestaurant(c, id, now);
    if r.result.Success? {
      var i := FindFirst(c, ByKey(Str(id))).value;
      forall j | 0 <= j < |r.store| ensures !IsLive(r.store[j], id) {
        if j != i {
          assert !SameKey(c[i], c[j], ["data_id"]) by {
            if i < j {
              assert !SameKey(c[i], c[j], ["data_id"]);
            } else {
              assert !SameKey(c[j], c[i], ["data_id"]);
            }
          }
        }
      }
    }
  }

  /** Deleting twice succeeds twice: the second delete stamps the soft-deleted document again
      instead of answering not found. */
  lemma DeleteTwice(c: Collection, id: string, now: int, later: int)
    requires DeleteRestaurant(c, id, now).result.Success?
    ensures DeleteRestaurant(DeleteRestaurant(c, id, now).store, id, later).result.Success?
  {
    var i := FindFirst(c, ByKey(Str(id))).value;
    var s := DeleteRestaurant(c, id, now).store;
    assert HasKey(s[i], id);
  }
}

=== FILE: review_api.dfy ===
/** The review endpoints: a collection whose natural key is the pair (`review_id`, `data_id`),
    read and written by `review_id` alone, with soft deletion. Unlike the restaurant endpoints,
    a second delete of the same review answers not found. */
module ReviewApi {
  import opened Wrappers
  import opened Json
  import opened Store
  import opened ApiErrors
  import opened Pagination
  import opened Requests

  /** The fields of the upsert key. */
  const PairKey: seq<string> := ["review_id", "data_id"]

  /** `{ review_id: id }`. */
  function ByReviewId(id: string): Filter {
    [Eq("review_id", Str(id))]
  }

  /** `{ review_id: id, deleted: { $ne: true } }`. */
  function LiveReview(id: string): Filter {
    [Eq("review_id", Str(id)), NotTrue("deleted")]
  }

  /** `{ data_id: id, deleted: { $ne: true } }`. */
  function LiveOfRestaurant(dataId: string): Filter {
    [Eq("data_id", Str(dataId)), NotTrue("deleted")]
  }

  predicate HasReviewId(d: Doc, id: string) {
    KeyOf(d, "review_id") == Str(id)
  }

  predicate IsLive(d: Doc, id: string) {
    HasReviewId(d, id) && Field(d, "deleted") != Bool(true)
  }

  lemma ByReviewIdMatches(d: Doc, id: string)
    ensures Matches(d, ByReviewId(id)) <==> HasReviewId(d, id)
  {
    MatchesOne(d, Eq("review_id", Str(id)));
  }

  lemma LiveMatches(d: Doc, id: string)
    ensures Matches(d, LiveReview(id)) <==> IsLive(d, id)
  {
    MatchesTwo(d, Eq("review_id", Str(id)), NotTrue("deleted"));
  }

  const ReviewNotFound: Failure := Raised(NotFound("Review not found"))

  /** `getById`: the first review with the `review_id` that is not soft-deleted. */
  function GetById(c: Collection, id: string): (r: Result<Doc, Failure>)
    ensures r.Success? ==> r.value in c && IsLive(r.value, id)
    ensures r.Failure? <==> forall j :: 0 <= j < |c| ==> !IsLive(c[j], id)
    ensures r.Failure? ==> r.error == ReviewNotFound
    ensures r.Success? ==> exists i :: 0 <= i < |c| && c[i] == r.value && IsLive(c[i], id)
                                    && forall j :: 0 <= j < i ==> !IsLive(c[j], id)
  {
    assert forall j :: 0 <= j < |c| ==> (Matches(c[j], LiveReview(id)) <==> IsLive(c[j], id)) by {
      forall j | 0 <= j < |c| {
        LiveMatches(c[j], id);
      }
    }
    match FindOne(c, LiveReview(id))
    case Some(d) =>
      LiveMatches(d, id);
      Success(d)
    case None => Failure(ReviewNotFound)
  }

  /** `getByDataId`: every review of the restaurant that is not soft-deleted, possibly none. */
  function GetByDataId(c: Collection, dataId: string): (r: seq<Doc>)
    ensures forall d :: d in r ==> d in c && KeyOf(d, "data_id") == Str(dataId) && Field(d, "deleted") != Bool(true)
    ensures forall j :: 0 <= j < |c| && KeyOf(c[j], "data_id") == Str(dataId) && Field(c[j], "deleted") != Bool(true) ==> c[j] in r
    ensures r == Select(c, LiveOfRestaurant(dataId))
  {
    var flt := LiveOfRestaurant(dataId);
    assert forall d :: Matches(d, flt) <==> KeyOf(d, "data_id") == Str(dataId) && Field(d, "deleted") != Bool(true) by {
      forall d {
        MatchesTwo(d, Eq("data_id", Str(dataId)), NotTrue("deleted"));
      }
    }
    Select(c, flt)
  }

  /** The `$set` document of `createReview`: the payload with the deletion cleared. */
  function Payload(b: Doc, now: int): (p: Doc)
    ensures Field(p, "deleted") == Bool(false) && Field(p, "deleted_at") == Null && Field(p, "modified_at") == Date(now)
    ensures forall key :: key !in {"deleted", "deleted_at", "modified_at"} ==> Field(p, key) == Field(b, key)
    ensures p.Keys == b.Keys + {"deleted", "deleted_at", "modified_at"}
  {
    b["deleted" := Bool(false)]["deleted_at" := Null]["modified_at" := Date(now)]
  }

  /** `createReview`: both ids must be truthy; then an upsert by the pair. The stored review is
      the first with the pair, every payload field overwritten, or the payload appended with
      the server's `_id` (`newId`) when it has none. The answer is the payload itself, with
      `_id` set to the store's `upsertedId` when a review was inserted, so that it is then the
      stored review. */
  function CreateReview(c: Collection, body: Option<Doc>, now: int, newId: Value): (r: Outcome<Doc>)
    ensures r.result.Failure? <==>
              body.None? || !Truthy(Field(body.value, "review_id")) || !Truthy(Field(body.value, "data_id"))
    ensures r.result.Failure? ==> r.store == c && r.result.error == Raised(BadRequest("review_id and data_id are required"))
    ensures r.result.Success? ==>
              var p := Payload(body.value, now);
              var flt := KeyFilter(PairKey, [p["review_id"], p["data_id"]]);
              var i := UpsertPosition(c, flt);
              && i < |r.store| && |c| <= |r.store|
              && (forall key :: key in p ==> Field(r.store[i], key) == p[key])
              && (forall j :: 0 <= j < |c| && j != i ==> r.store[j] == c[j])
              && (i < |c| ==> |r.store| == |c| && r.result.value == p)
              && (i == |c| ==> && |r.store| == |c| + 1 && r.result.value == r.store[i]
                               && "_id" in r.result.value && r.result.value["_id"] == if "_id" in p then p["_id"] else newId)
    ensures r.result.Success? && Unique(c, PairKey) ==> Unique(r.store, PairKey)
  {
    if body.None? || !Truthy(Field(body.value, "review_id")) || !Truthy(Field(body.value, "data_id")) then
      Outcome(c, Failure(Raised(BadRequest("review_id and data_id are required"))))
    else
      var p := Payload(body.value, now);
      var flt := KeyFilter(PairKey, [p["review_id"], p["data_id"]]);
      PairUpserted(c, p, newId);
      var w := UpdateOne(c, flt, p, UpsertWith(newId));
      Outcome(w.0, Success(if w.1.upserted then p["_id" := w.0[|c|]["_id"]] else p))
  }

  /** The upsert of a payload by its pair: where it lands, what it writes, what is answered,
      and that the pair stays unique. */
  lemma PairUpserted(c: Collection, p: Doc, newId: Value)
    requires "review_id" in p && "data_id" in p
    ensures var flt := KeyFilter(PairKey, [p["review_id"], p["data_id"]]);
            var w := UpdateOne(c, flt, p, UpsertWith(newId));
            var i := UpsertPosition(c, flt);
            && i < |w.0| && |c| <= |w.0|
            && (forall key :: key in p ==> Field(w.0[i], key) == p[key])
            && (forall j :: 0 <= j < |c| && j != i ==> w.0[j] == c[j])
            && (w.1.upserted <==> i == |c|)
            && (i < |c| ==> |w.0| == |c|)
            && (i == |c| ==> && |w.0| == |c| + 1 && "_id" in w.0[i]
                             && p["_id" := w.0[|c|]["_id"]] == w.0[i]
                             && w.0[i]["_id"] == if "_id" in p then p["_id"] else newId)
            && (Unique(c, PairKey) ==> Unique(w.0, PairKey))
  {
    var vs := [p["review_id"], p["data_id"]];
    var flt := KeyFilter(PairKey, vs);
    assert KeyCarried(p, PairKey, vs);
    var w := UpdateOne(c, flt, p, UpsertWith(newId));
    UpsertReadBack(c, PairKey, vs, p, newId);
    if Unique(c, PairKey) {
      UpsertKeepsKeyUnique(c, PairKey, vs, p, newId);
    }
  }

  /** A created review is among the restaurant's reviews afterwards, whatever was stored
      before: the upsert clears a soft deletion. */
  lemma CreateThenListed(c: Collection, body: Option<Doc>, now: int, newId: Value, dataId: string)
    requires CreateReview(c, body, now, newId).result.Success?
    requires body.value["data_id"] == Str(dataId)
    ensures exists d :: d in GetByDataId(CreateReview(c, body, now, newId).store, dataId) &&
                        Field(d, "review_id") == body.value["review_id"]
  {
  }

  /** A live review with the `review_id` means the filter by `review_id` finds one. */
  lemma LiveFound(c: Collection, id: string, live: Doc)
    requires live in c && IsLive(live, id)
    ensures FindFirst(c, ByReviewId(id)).Some?
  {
    ByReviewIdMatches(live, id);
    var j :| 0 <= j < |c| && c[j] == live;
  }

  /** The update of the first review with the `review_id`, and its read-back: it is found again
      at the same position when the update keeps the `review_id`. */
  lemma UpdatedReview(c: Collection, id: string, b: Doc, now: int, i: nat)
    requires FindFirst(c, ByReviewId(id)) == Some(i)
    ensures var upd := b["modified_at" := Date(now)];
            && i < |c| && UpdateOne(c, ByReviewId(id), upd, NoUpsert).0 == c[i := c[i] + upd]
            && Field(c[i] + upd, "modified_at") == Date(now)
            && (forall key :: key != "modified_at" && key in b ==> (c[i] + upd)[key] == b[key])
            && (forall key :: key != "modified_at" && key !in b ==> Field(c[i] + upd, key) == Field(c[i], key))
            && (KeyOf(upd, "review_id") == Str(id) || "review_id" !in upd ==>
                  FindOne(c[i := c[i] + upd], ByReviewId(id)) == Some(c[i] + upd))
  {
    var flt := ByReviewId(id);
    var upd := b["modified_at" := Date(now)];
    if KeyOf(upd, "review_id") == Str(id) || "review_id" !in upd {
      ByReviewIdMatches(c[i], id);
      assert KeyOf(c[i] + upd, "review_id") == Str(id);
      ByReviewIdMatches(c[i] + upd, id);
      UpdateReadBack(c, flt, upd, i);
    }
  }

  /** `updateReview`: the update needs a review with the `review_id` that is not soft-deleted;
      the body (with `modified_at`, and `_id` not removed) is applied to the first review with
      the `review_id`, which is then read back. */
  function UpdateReview(c: Collection, id: string, body: Option<Doc>, now: int): (r: Outcome<Option<Doc>>)
    ensures r.result.Failure? <==> forall j :: 0 <= j < |c| ==> !IsLive(c[j], id)
    ensures r.result.Failure? ==> r.store == c && r.result.error == ReviewNotFound
    ensures r.result.Success? ==>
              && FindFirst(c, ByReviewId(id)).Some?
              && var i := FindFirst(c, ByReviewId(id)).value;
                 var upd := BodyOr(body)["modified_at" := Date(now)];
                 && r.store == c[i := c[i] + upd]
                 && Field(r.store[i], "modified_at") == Date(now)
                 && (forall key :: key != "modified_at" && key in BodyOr(body) ==> r.store[i][key] == BodyOr(body)[key])
                 && (forall key :: key != "modified_at" && key !in BodyOr(body) ==> Field(r.store[i], key) == Field(c[i], key))
                 && (KeyOf(upd, "review_id") == Str(id) || "review_id" !in upd ==> r.result.value == Some(r.store[i]))
  {
    match GetById(c, id)
    case Failure(_) => Outcome(c, Failure(ReviewNotFound))
    case Success(live) =>
      var flt := ByReviewId(id);
      LiveFound(c, id, live);
      var i := FindFirst(c, flt).value;
      var upd := BodyOr(body)["modified_at" := Date(now)];
      UpdatedReview(c, id, BodyOr(body), now, i);
      var c' := UpdateOne(c, flt, upd, NoUpsert).0;
      Outcome(c', Success(FindOne(c', flt)))
  }

  /** `deleteReview`: needs a review with the `review_id` that is not soft-deleted; the first
      review with the `review_id` gets `deleted` true and `deleted_at` and `modified_at` now,
      and is kept. */
  function DeleteReview(c: Collection, id: string, now: int): (r: Outcome<string>)
    ensures r.result.Failure? <==> forall j :: 0 <= j < |c| ==> !IsLive(c[j], id)
    ensures r.result.Failure? ==> r.store == c && r.result.error == ReviewNotFound
    ensures r.result.Success? ==>
              && r.result.value == id
              && FindFirst(c, ByReviewId(id)).Some?
              && var i := FindFirst(c, ByReviewId(id)).value;
                 && HasReviewId(c[i], id)
                 && SoftDeletedAt(c, r.store, i, now)
  {
    match GetById(c, id)
    case Failure(_) => Outcome(c, Failure(ReviewNotFound))
    case Success(live) =>
      var flt := ByReviewId(id);
      ByReviewIdMatches(live, id);
      var i := FindFirst(c, flt).value;
      ByReviewIdMatches(c[i], id);
      var c' := UpdateOne(c, flt, DeletionStamps(now), NoUpsert).0;
      SoftDeleteApplied(c, flt, i, now);
      Outcome(c', Success(id))
  }

  /** With one review per `review_id`, a deleted review can no longer be read. */
  lemma DeleteThenGet(c: Collection, id: string, now: int)
    requires Unique(c, ["review_id"])
    ensures GetById(DeleteReview(c, id, now).store, id).Failure?
  {
    var r := DeleteReview(c, id, now);
    if r.result.Success? {
      var i := FindFirst(c, ByReviewId(id)).value;
      var s := r.store;
      assert s == c[i := s[i]];
      forall j | 0 <= j < |s| ensures !IsLive(s[j], id) {
        if j != i {
          assert s[j] == c[j];
          if i < j {
            assert !SameKey(c[i], c[j], ["review_id"]);
          } else {
            assert !SameKey(c[j], c[i], ["review_id"]);
          }
        }
      }
    }
  }

  /** With one review per `review_id`, deleting a review twice answers not found the second
      time and leaves the store as the first delete left it. */
  lemma DeleteTwice(c: Collection, id: string, now: int, later: int)
    requires Unique(c, ["review_id"])
    ensures var second := DeleteReview(DeleteReview(c, id, now).store, id, later);
            second.result == Failure(ReviewNotFound) && second.store == DeleteReview(c, id, now).store
  {
    DeleteThenGet(c, id, now);
  }

  /** Two reviews of different restaurants sharing a `review_id`: the pair key allows them, and
      after one delete the second is still read by `review_id`. */
  const SharedReviewId: Collection := [
    map["review_id" := Str("r"), "data_id" := Str("a")],
    map["review_id" := Str("r"), "data_id" := Str("b")]]

  lemma SharedReviewIdAllowed()
    ensures Unique(SharedReviewId, PairKey)
  {
    var c := SharedReviewId;
    assert KeyOf(c[0], PairKey[1]) != KeyOf(c[1], PairKey[1]);
  }

  lemma SharedReviewIdSurvivesDelete()
    ensures DeleteReview(SharedReviewId, "r", 0).result.Success?
    ensures GetById(DeleteReview(SharedReviewId, "r", 0).store, "r").Success?
  {
    SharedDeleteHitsFirst();
    SharedLive();
    var s := DeleteReview(SharedReviewId, "r", 0).store;
    assert IsLive(s[1], "r");
  }

  lemma SharedLive()
    ensures IsLive(SharedReviewId[0], "r") && IsLive(SharedReviewId[1], "r")
  {
  }

  /** The delete by `review_id` stamps the first of the two and keeps the second as it was. */
  lemma SharedDeleteHitsFirst()
    ensures var r := DeleteReview(SharedReviewId, "r", 0);
            r.result.Success? && |r.store| == 2 && r.store[1] == SharedReviewId[1]
  {
    var c := SharedReviewId;
    SharedLive();
    ByReviewIdMatches(c[0], "r");
    FindFirstIs(c, ByReviewId("r"), 0);
    var s := DeleteReview(c, "r", 0).store;
    assert s == c[0 := s[0]];
  }
}

=== FILE: review_docs.dfy ===
/** The normalized review document both review scripts write, and the photo-array reading
    they share. */
module ReviewDocs {
  import opened Wrappers
  import opened Json
  import opened Store

  /** A normalized review, field for field as the scripts build it. `images` is a plain list;
      `normalizedAt` is the instant of `new Date()`. */
  datatype Review = Review(
    reviewId: Value,
    dataId: Value,
    googlePlaceId: Value,
    author: Value,
    rating: Value,
    text: Value,
    date: Value,
    images: seq<Value>,
    source: Value,
    raw: Value,
    normalizedAt: int)

  /** The field names the normalized shape writes. */
  const ReviewFields: set<string> :=
    {"review_id", "data_id", "google_place_id", "author", "rating", "text", "date", "images",
     "source", "raw_google_review", "normalized_at"}

  /** The document `{ $set: review }` writes. */
  function ToDoc(r: Review): (d: Doc)
    ensures d.Keys == ReviewFields
    ensures d["review_id"] == r.reviewId && d["data_id"] == r.dataId
  {
    map[
      "review_id" := r.reviewId,
      "data_id" := r.dataId,
      "google_place_id" := r.googlePlaceId,
      "author" := r.author,
      "rating" := r.rating,
      "text" := r.text,
      "date" := r.date,
      "images" := Arr(r.images),
      "source" := r.source,
      "raw_google_review" := r.raw,
      "normalized_at" := Date(r.normalizedAt)]
  }

  /** Reviews are keyed by the pair (review_id, data_id). */
  const ReviewKey: seq<string> := ["review_id", "data_id"]

  function ReviewFilter(r: Review): Filter {
    KeyFilter(ReviewKey, [r.reviewId, r.dataId])
  }

  /** The flat author of a raw review: `author` itself when it is a string, else its `name`. */
  function FlatAuthor(review: Value): Value {
    var a := Get(review, "author");
    if a.Str? then a else Get(a, "name")
  }

  /** The first truthy property among `keys`, tried in order. */
  function FirstTruthyField(v: Value, keys: seq<string>): (r: Option<Value>)
    ensures r.Some? ==> Truthy(r.value)
    ensures r.Some? ==> exists k :: 0 <= k < |keys| && r.value == Get(v, keys[k])
    ensures r.None? <==> forall k :: 0 <= k < |keys| ==> !Truthy(Get(v, keys[k]))
  {
    if keys == [] then None
    else if Truthy(Get(v, keys[0])) then Some(Get(v, keys[0]))
    else FirstTruthyField(v, keys[1..])
  }

  /** The image one photo-array item contributes: a string item is kept as it is, any other
      truthy item contributes its first truthy property among `keys`; falsy items and objects
      with none of them contribute nothing. */
  function ImageOf(item: Value, keys: seq<string>): Option<Value> {
    if !Truthy(item) then None
    else if item.Str? then Some(item)
    else FirstTruthyField(item, keys)
  }

  /** The images a photo array yields, in order; every one of them is truthy. */
  function CollectImages(items: seq<Value>, keys: seq<string>): (r: seq<Value>)
    ensures |r| <= |items|
    ensures forall k :: 0 <= k < |r| ==> Truthy(r[k])
  {
    if items == [] then []
    else
      var head := match ImageOf(items[0], keys) case Some(x) => [x] case None => [];
      head + CollectImages(items[1..], keys)
  }

  /** The images of an array are exactly the contributions of its items. */
  lemma {:induction false} CollectImagesMembers(items: seq<Value>, keys: seq<string>)
    ensures forall x :: x in CollectImages(items, keys) <==> exists i :: 0 <= i < |items| && ImageOf(items[i], keys) == Some(x)
  {
    if items != [] {
      CollectImagesMembers(items[1..], keys);
      assert forall i :: 1 <= i < |items| ==> items[i] == items[1..][i - 1];
    }
  }

  /** An array yields no image exactly when none of its items contributes one. */
  lemma CollectEmptyIff(items: seq<Value>, keys: seq<string>)
    ensures CollectImages(items, keys) == [] <==> forall i :: 0 <= i < |items| ==> ImageOf(items[i], keys).None?
  {
  }

  /** Reading two arrays one after the other yields their images one after the other. */
  lemma {:induction false} CollectAppend(a: seq<Value>, b: seq<Value>, keys: seq<string>)
    ensures CollectImages(a + b, keys) == CollectImages(a, keys) + CollectImages(b, keys)
  {
    if a != [] {
      var head := match ImageOf(a[0], keys) case Some(x) => [x] case None => [];
      assert (a + b)[0] == a[0];
      assert (a + b)[1..] == a[1..] + b;
      assert CollectImages(a + b, keys) == head + CollectImages(a[1..] + b, keys);
      assert CollectImages(a, keys) == head + CollectImages(a[1..], keys);
      CollectAppend(a[1..], b, keys);
    } else {
      assert a + b == b;
    }
  }
}

=== FILE: reviews_refactor.dfy ===
/** The script that rewrites every stored review into the normalized shape, re-deriving it from
    the raw provider review the document keeps. */
module ReviewsRefactor {
  import opened Wrappers
  import opened Json
  import opened Store
  import opened ReviewDocs
  import GoogleReviewsDownload

  /** The properties a photo object's link is read from here, in order. */
  const ImageKeys: seq<string> := ["url", "source", "image"]

  /** The places images are looked for, in order. */
  function Candidates(raw: Value): seq<Value> {
    [Get(raw, "photos"), Get(raw, "images"), Get(raw, "photos_urls"), Get(raw, "image"), Get(raw, "images_array")]
  }

  /** The images of the first candidate array that yields any; non-array candidates are
      passed over. */
  function FirstNonEmpty(cs: seq<Value>, keys: seq<string>): (r: Option<seq<Value>>)
    ensures r.Some? ==> exists i :: 0 <= i < |cs| && r.value == CollectImages(ArrayItems(cs[i]), keys)
                          && r.value != []
                          && forall j :: 0 <= j < i ==> CollectImages(ArrayItems(cs[j]), keys) == []
    ensures r.None? <==> forall i :: 0 <= i < |cs| ==> CollectImages(ArrayItems(cs[i]), keys) == []
  {
    if cs == [] then None
    else
      // A falsy candidate is never an array, so it contributes no images either.
      var imgs := CollectImages(ArrayItems(cs[0]), keys);
      if imgs != [] then Some(imgs)
      else
        var rest := FirstNonEmpty(cs[1..], keys);
        assert forall i :: 1 <= i < |cs| ==> cs[i] == cs[1..][i - 1];
        rest
  }

  /** `extractImages(raw)`: the images of the first candidate array that yields any; failing
      that, `raw.photo` when it is a non-empty string. */
  function ExtractImages(raw: Value): (r: seq<Value>)
    ensures !Truthy(raw) ==> r == []
    ensures forall k :: 0 <= k < |r| ==> Truthy(r[k])
    ensures Truthy(raw) ==>
              (r == [] <==> (forall i :: 0 <= i < 5 ==> CollectImages(ArrayItems(Candidates(raw)[i]), ImageKeys) == [])
                            && !(Get(raw, "photo").Str? && Truthy(Get(raw, "photo"))))
    ensures Truthy(raw) && FirstNonEmpty(Candidates(raw), ImageKeys).Some? ==>
              r == FirstNonEmpty(Candidates(raw), ImageKeys).value
    ensures Truthy(raw) && FirstNonEmpty(Candidates(raw), ImageKeys).None? ==>
              r == if Get(raw, "photo").Str? && Truthy(Get(raw, "photo")) then [Get(raw, "photo")] else []
  {
    if !Truthy(raw) then []
    else
      match FirstNonEmpty(Candidates(raw), ImageKeys)
      case Some(imgs) => imgs
      case None =>
        var photo := Get(raw, "photo");
        if Truthy(photo) && photo.Str? then [photo] else []
  }

  /** `authorName`, which, unlike the download script, is not defaulted to null: an author
      object without a name gives `undefined`. */
  function AuthorOf(raw: Value): (v: Value)
    ensures Truthy(Path(raw, "user", "name")) ==> v == Path(raw, "user", "name")
    ensures !Truthy(Path(raw, "user", "name")) && Truthy(Get(raw, "author")) ==> v == FlatAuthor(raw)
    ensures !Truthy(Path(raw, "user", "name")) && !Truthy(Get(raw, "author")) ==> v == Null
  {
    var user := Get(raw, "user");
    if Truthy(And(user, Get(user, "name"))) then Get(user, "name")
    else if Truthy(Get(raw, "author")) then FlatAuthor(raw)
    else Null
  }

  /** `raw.text || raw.snippet || (raw.extracted_snippet && raw.extracted_snippet.snippet) || null`. */
  function TextOf(raw: Value): (v: Value)
    ensures v == FirstTruthy([Get(raw, "text"), Get(raw, "snippet"), Path(raw, "extracted_snippet", "snippet")], Null)
  {
    var es := Get(raw, "extracted_snippet");
    var chain := [Get(raw, "text"), Get(raw, "snippet"), Path(raw, "extracted_snippet", "snippet")];
    assert chain[1..] == [chain[1], chain[2]] && chain[1..][1..] == [chain[2]];
    Or(Or(Or(Get(raw, "text"), Get(raw, "snippet")), And(es, Get(es, "snippet"))), Null)
  }

  /** `isoDate || raw.date || null`, where `isoDate` also tries `iso_date_string`. */
  function DateOf(raw: Value): (v: Value)
    ensures v == FirstTruthy([Get(raw, "iso_date"), Get(raw, "iso_date_of_last_edit"), Get(raw, "iso_date_string"), Get(raw, "date")], Null)
  {
    var isoDate := Or(Or(Or(Get(raw, "iso_date"), Get(raw, "iso_date_of_last_edit")), Get(raw, "iso_date_string")), Null);
    var chain := [Get(raw, "iso_date"), Get(raw, "iso_date_of_last_edit"), Get(raw, "iso_date_string"), Get(raw, "date")];
    assert chain[1..] == [chain[1], chain[2], chain[3]] && chain[1..][1..] == [chain[2], chain[3]]
      && chain[1..][1..][1..] == [chain[3]];
    Or(Or(isoDate, Get(raw, "date")), Null)
  }

  /** `raw.review_id || raw.id || null`. */
  function ReviewIdOf(raw: Value): (v: Value)
    ensures v == FirstTruthy([Get(raw, "review_id"), Get(raw, "id")], Null)
  {
    Or(Or(Get(raw, "review_id"), Get(raw, "id")), Null)
  }

  /** `normalizeFromRaw(raw, data_id, google_place_id)` at instant `now`: nothing for a falsy
      raw review, otherwise the normalized shape re-derived from it and stamped `now`. */
  function NormalizeFromRaw(raw: Value, dataId: Value, googlePlaceId: Value, now: int): (r: Option<Review>)
    ensures r.None? <==> !Truthy(raw)
    ensures r.Some? ==> r.value.raw == raw && r.value.normalizedAt == now
  {
    if !Truthy(raw) then None
    else
      Some(Review(
        ReviewIdOf(raw),
        Or(dataId, Null),
        Or(googlePlaceId, Null),
        AuthorOf(raw),
        if !Nullish(Get(raw, "rating")) then Get(raw, "rating") else Null,
        TextOf(raw),
        DateOf(raw),
        ExtractImages(raw),
        Or(Get(raw, "source"), Str("Google")),
        raw,
        now))
  }

  /** The download script's author is this one's, except that a falsy name it replaces by
      null. */
  lemma AuthorsAgree(raw: Value)
    ensures var a := GoogleReviewsDownload.AuthorOf(raw);
            var b := AuthorOf(raw);
            a == b || (a == Null && !Truthy(b))
  {
  }

  /** With no `iso_date_string`, both scripts pick the same date. */
  lemma DatesAgree(raw: Value)
    requires !Truthy(Get(raw, "iso_date_string"))
    ensures GoogleReviewsDownload.DateOf(raw) == DateOf(raw)
  {
  }

  /** On a raw review, the two normalizers agree on every field but the images; the author
      as `AuthorsAgree` says, and the date whenever `iso_date_string` is not consulted. */
  lemma NormalizersAgree(raw: Value, dataId: Value, googlePlaceId: Value, now: int)
    requires Truthy(raw)
    ensures var a := GoogleReviewsDownload.NormalizeReview(raw, dataId, googlePlaceId, now);
            var b := NormalizeFromRaw(raw, dataId, googlePlaceId, now).value;
            a.reviewId == b.reviewId && a.dataId == b.dataId && a.googlePlaceId == b.googlePlaceId
            && (a.author == b.author || (a.author == Null && !Truthy(b.author)))
            && a.rating == b.rating && a.text == b.text
            && a.source == b.source && a.raw == b.raw && a.normalizedAt == b.normalizedAt
            && (!Truthy(Get(raw, "iso_date_string")) ==> a.date == b.date)
  {
  }

  // ---------------------------------------------------------------------------------------
  // The sweep

  /** `doc.raw_google_review || doc.raw || null`. */
  function RawOf(d: Doc): (r: Value)
    ensures r == Null || Truthy(r)
    ensures Truthy(Field(d, "raw_google_review")) ==> r == d["raw_google_review"]
    ensures !Truthy(Field(d, "raw_google_review")) && Truthy(Field(d, "raw")) ==> r == d["raw"]
    ensures r == FirstTruthy([Field(d, "raw_google_review"), Field(d, "raw")], Null)
  {
    var chain := [Field(d, "raw_google_review"), Field(d, "raw")];
    assert chain[1..] == [chain[1]];
    Or(Or(Field(d, "raw_google_review"), Field(d, "raw")), Null)
  }

  /** `doc.data_id || doc.dataId || (doc.restaurant && doc.restaurant.data_id) || null`. */
  function DataIdOf(d: Doc): (r: Value)
    ensures r == Null || Truthy(r)
    ensures Truthy(Field(d, "data_id")) ==> r == d["data_id"]
    ensures r == FirstTruthy([Field(d, "data_id"), Field(d, "dataId"), Get(Field(d, "restaurant"), "data_id")], Null)
  {
    var restaurant := Field(d, "restaurant");
    var chain := [Field(d, "data_id"), Field(d, "dataId"), Get(restaurant, "data_id")];
    assert chain[1..] == [chain[1], chain[2]] && chain[1..][1..] == [chain[2]];
    Or(Or(Or(Field(d, "data_id"), Field(d, "dataId")), And(restaurant, Get(restaurant, "data_id"))), Null)
  }

  /** `doc.google_place_id || doc.place_id || null`. */
  function PlaceIdOf(d: Doc): (r: Value)
    ensures r == Null || Truthy(r)
    ensures Truthy(Field(d, "google_place_id")) ==> r == d["google_place_id"]
    ensures !Truthy(Field(d, "google_place_id")) && Truthy(Field(d, "place_id")) ==> r == d["place_id"]
    ensures r == FirstTruthy([Field(d, "google_place_id"), Field(d, "place_id")], Null)
  {
    var chain := [Field(d, "google_place_id"), Field(d, "place_id")];
    assert chain[1..] == [chain[1]];
    Or(Or(Field(d, "google_place_id"), Field(d, "place_id")), Null)
  }

  /** What `normalizeFromRaw` makes of a stored document. */
  function NormalizedOf(d: Doc, now: int): (r: Option<Review>)
    ensures r.Some? <==> Truthy(RawOf(d))
    ensures r.Some? ==> r.value.raw == RawOf(d) && r.value.dataId == DataIdOf(d) && r.value.googlePlaceId == PlaceIdOf(d)
  {
    NormalizeFromRaw(RawOf(d), DataIdOf(d), PlaceIdOf(d), now)
  }

  /** The document after its `$set` of the normalized shape, or unchanged when it keeps no raw
      review. */
  function Refactored(d: Doc, now: int): (r: Doc)
    ensures !Truthy(RawOf(d)) ==> r == d
  {
    match NormalizedOf(d, now)
    case None => d
    case Some(n) => d + ToDoc(n)
  }

  /** A refactored document yields the same raw review, data id and place id as before, so it
      normalizes to the same review. */
  lemma RefactoredKeepsInputs(d: Doc, n: Review)
    requires Truthy(RawOf(d)) && n.raw == RawOf(d)
    requires n.dataId == Or(DataIdOf(d), Null) && n.googlePlaceId == Or(PlaceIdOf(d), Null)
    ensures RawOf(d + ToDoc(n)) == RawOf(d)
    ensures DataIdOf(d + ToDoc(n)) == DataIdOf(d)
    ensures PlaceIdOf(d + ToDoc(n)) == PlaceIdOf(d)
  {
    var m := ToDoc(n);
    assert m["raw_google_review"] == n.raw && m["google_place_id"] == n.googlePlaceId;
    OtherSourcesNotWritten();
    WrittenSourcesKept(d, m);
  }

  /** The same for any written map that carries the three sources and no fallback field. */
  lemma WrittenSourcesKept(d: Doc, m: Doc)
    requires Truthy(RawOf(d)) && "raw_google_review" in m && m["raw_google_review"] == RawOf(d)
    requires "data_id" in m && m["data_id"] == Or(DataIdOf(d), Null)
    requires "google_place_id" in m && m["google_place_id"] == Or(PlaceIdOf(d), Null)
    requires "dataId" !in m && "restaurant" !in m && "place_id" !in m
    ensures RawOf(d + m) == RawOf(d) && DataIdOf(d + m) == DataIdOf(d) && PlaceIdOf(d + m) == PlaceIdOf(d)
  {
    FieldOfUnionRight(d, m, "raw_google_review");
    FieldOfUnionRight(d, m, "data_id");
    FieldOfUnionRight(d, m, "google_place_id");
    FieldOfUnion(d, m, "dataId");
    FieldOfUnion(d, m, "restaurant");
    FieldOfUnion(d, m, "place_id");
    RawKept(d, d + m);
    DataIdKept(d, d + m);
    PlaceIdKept(d, d + m);
  }

  /** The normalized shape writes none of the fallback source fields. */
  lemma OtherSourcesNotWritten()
    ensures "dataId" !in ReviewFields && "restaurant" !in ReviewFields && "place_id" !in ReviewFields
  {
  }

  /** A document whose `raw_google_review` is the truthy raw review of another yields it too. */
  lemma RawKept(d: Doc, e: Doc)
    requires Truthy(RawOf(d)) && Field(e, "raw_google_review") == RawOf(d)
    ensures RawOf(e) == RawOf(d)
  {
  }

  /** Writing a document's data id back over `data_id` leaves its data id as it was. */
  lemma DataIdKept(d: Doc, e: Doc)
    requires Field(e, "data_id") == Or(DataIdOf(d), Null)
    requires Field(e, "dataId") == Field(d, "dataId") && Field(e, "restaurant") == Field(d, "restaurant")
    ensures DataIdOf(e) == DataIdOf(d)
  {
  }

  /** Writing a document's place id back over `google_place_id` leaves its place id as it was. */
  lemma PlaceIdKept(d: Doc, e: Doc)
    requires Field(e, "google_place_id") == Or(PlaceIdOf(d), Null)
    requires Field(e, "place_id") == Field(d, "place_id")
    ensures PlaceIdOf(e) == PlaceIdOf(d)
  {
  }

  /** Refactoring an already refactored document, at the same instant, changes nothing. */
  lemma RefactoredIdempotent(d: Doc, now: int)
    ensures Refactored(Refactored(d, now), now) == Refactored(d, now)
  {
    if Truthy(RawOf(d)) {
      var n := NormalizedOf(d, now).value;
      RefactoredKeepsInputs(d, n);
      var d' := d + ToDoc(n);
      assert NormalizedOf(d', now) == NormalizedOf(d, now);
      UnionAgain(d, ToDoc(n));
    }
  }

  /** `main()`: walks the collection in natural order and rewrites, by its own identity, each
      document that keeps a raw review; `processed` counts the rewritten ones. */
  method RefactorAll(c: Collection, now: int) returns (c': Collection, processed: nat)
    ensures |c'| == |c|
    ensures forall j :: 0 <= j < |c| ==> c'[j] == Refactored(c[j], now)
    ensures processed == CountWhere(c, d => Truthy(RawOf(d)), |c|)
  {
    // normalizeFromRaw yields a document exactly when the raw review is truthy
    c', processed := RewriteEach(c, d => Refactored(d, now), d => Truthy(RawOf(d)));
  }

  /** Writing the same fields a second time changes nothing. */
  lemma UnionAgain(d: Doc, m: Doc)
    ensures (d + m) + m == d + m
  {
  }

  /** Running the sweep twice at the same instant gives what one run gives. */
  lemma RefactorAllIdempotent(c: Collection, c1: Collection, c2: Collection, now: int)
    requires |c1| == |c| && forall j :: 0 <= j < |c| ==> c1[j] == Refactored(c[j], now)
    requires |c2| == |c1| && forall j :: 0 <= j < |c1| ==> c2[j] == Refactored(c1[j], now)
    ensures c2 == c1
  {
    forall j | 0 <= j < |c|
      ensures c2[j] == c1[j]
    {
      RefactoredIdempotent(c[j], now);
    }
  }
}

=== FILE: store.dfy ===
/** The document store as the scripts and controllers use it: a collection is a sequence of
    documents in natural (insertion) order, a filter is a conjunction of field conditions, and
    `findOne`/`updateOne`/`deleteOne` act on the first matching document. */
module Store {
  import opened Wrappers
  import opened Json

  type Collection = seq<Doc>

  /** The driver writes a JavaScript `undefined` as BSON null. */
  function Norm(v: Value): Value {
    if v.Undefined? then Null else v
  }

  /** The value a query compares for field `f`: a missing field reads as null. */
  function KeyOf(d: Doc, f: string): Value {
    if f in d then Norm(d[f]) else Null
  }

  /** One condition of a query document. */
  datatype Cond =
    | Eq(field: string, value: Value)            // { field: value }  (null also matches a missing field)
    | NotTrue(field: string)                     // { field: { $ne: true } }
    | NotNull(field: string)                     // { field: { $exists: true, $ne: null } }
    | MissingOrAtMost(field: string, t: int)     // { $or: [ { field: { $exists: false } }, { field: { $lte: <date t> } } ] }

  type Filter = seq<Cond>

  predicate Holds(d: Doc, c: Cond) {
    match c
    case Eq(f, v) => KeyOf(d, f) == Norm(v)
    case NotTrue(f) => Field(d, f) != Bool(true)
    case NotNull(f) => KeyOf(d, f) != Null
    case MissingOrAtMost(f, t) => f !in d || (d[f].Date? && d[f].t <= t)
  }

  predicate Matches(d: Doc, flt: Filter) {
    forall k :: 0 <= k < |flt| ==> Holds(d, flt[k])
  }

  /** A one-condition filter holds exactly when its condition does. */
  lemma MatchesOne(d: Doc, a: Cond)
    ensures Matches(d, [a]) <==> Holds(d, a)
  {
    assert [a][0] == a;
  }

  /** A two-condition filter holds exactly when both conditions do. */
  lemma MatchesTwo(d: Doc, a: Cond, b: Cond)
    ensures Matches(d, [a, b]) <==> Holds(d, a) && Holds(d, b)
  {
    if Holds(d, a) && Holds(d, b) {
      assert forall k :: 0 <= k < 2 ==> [a, b][k] == a || [a, b][k] == b;
    }
    if Matches(d, [a, b]) {
      assert [a, b][0] == a && [a, b][1] == b;
    }
  }

  /** `{ deleted: { $ne: true } }`, the filter every soft-delete aware read adds. */
  const NotDeleted: Filter := [NotTrue("deleted")]

  /** The first document at or after `start` that matches. */
  function FindFrom(c: Collection, flt: Filter, start: nat): (r: Option<nat>)
    requires start <= |c|
    ensures r.Some? ==> start <= r.value < |c| && Matches(c[r.value], flt)
    ensures r.Some? ==> forall j :: start <= j < r.value ==> !Matches(c[j], flt)
    ensures r.None? ==> forall j :: start <= j < |c| ==> !Matches(c[j], flt)
    decreases |c| - start
  {
    if start == |c| then None
    else if Matches(c[start], flt) then Some(start)
    else FindFrom(c, flt, start + 1)
  }

  /** The position `findOne` reads and `updateOne`/`deleteOne` write. */
  function FindFirst(c: Collection, flt: Filter): (r: Option<nat>)
    ensures r.Some? ==> r.value < |c| && Matches(c[r.value], flt)
    ensures r.Some? ==> forall j :: 0 <= j < r.value ==> !Matches(c[j], flt)
    ensures r.None? ==> forall j :: 0 <= j < |c| ==> !Matches(c[j], flt)
  {
    FindFrom(c, flt, 0)
  }

  /** A position that matches with no match before it is the one `FindFirst` returns. */
  lemma FindFirstIs(c: Collection, flt: Filter, i: nat)
    requires i < |c| && Matches(c[i], flt)
    requires forall j :: 0 <= j < i ==> !Matches(c[j], flt)
    ensures FindFirst(c, flt) == Some(i)
  {
  }

  /** `findOne(filter)`: the first matching document, or null. */
  function FindOne(c: Collection, flt: Filter): (r: Option<Doc>)
    ensures r.Some? ==> r.value in c && Matches(r.value, flt)
    ensures r.Some? ==> exists i :: 0 <= i < |c| && r.value == c[i] && Matches(c[i], flt)
                                    && forall j :: 0 <= j < i ==> !Matches(c[j], flt)
    ensures r.None? <==> forall j :: 0 <= j < |c| ==> !Matches(c[j], flt)
  {
    match FindFirst(c, flt)
    case Some(i) => Some(c[i])
    case None => None
  }

  /** `find(filter).toArray()`: the matching documents in natural order. */
  function Select(c: Collection, flt: Filter): (r: seq<Doc>)
    ensures |r| <= |c|
    ensures forall d :: d in r ==> d in c && Matches(d, flt)
    ensures forall d :: d in c && Matches(d, flt) ==> d in r
  {
    if c == [] then []
    else (if Matches(c[0], flt) then [c[0]] else []) + Select(c[1..], flt)
  }

  /** `find` walks the collection in natural order: selecting from two stretches of documents
      gives their two selections one after the other, so order and repetitions are kept. */
  lemma {:induction false} SelectAppend(a: Collection, b: Collection, flt: Filter)
    ensures Select(a + b, flt) == Select(a, flt) + Select(b, flt)
  {
    if a == [] {
      assert a + b == b;
    } else {
      assert (a + b)[1..] == a[1..] + b;
      SelectAppend(a[1..], b, flt);
    }
  }

  /** A single document is selected exactly when it matches. */
  lemma SelectOne(d: Doc, flt: Filter)
    ensures Select([d], flt) == if Matches(d, flt) then [d] else []
  {
  }

  /** `countDocuments(filter)`. */
  function Count(c: Collection, flt: Filter): nat {
    |Select(c, flt)|
  }

  /** The fields an upsert seeds a new document with: the filter's equalities. */
  function EqFields(flt: Filter): Doc {
    if flt == [] then map[]
    else (if flt[0].Eq? then map[flt[0].field := flt[0].value] else map[]) + EqFields(flt[1..])
  }

  /** What `updateOne` reports: a document matched, it changed, or one was inserted. */
  datatype WriteResult = WriteResult(matched: bool, modified: bool, upserted: bool) {
    /** `result.upsertedCount > 0 || result.modifiedCount > 0`. */
    predicate Wrote() {
      upserted || modified
    }
  }

  /** The `upsert` option of `updateOne`: `UpsertWith(newId)` is `{ upsert: true }`, with
      `newId` standing for the ObjectId the server generates for a document it inserts. */
  datatype UpsertMode = NoUpsert | UpsertWith(newId: Value)

  /** The ObjectIds handed out over a script's run: `ids(n)` is the `_id` of a document
      inserted while the collection holds `n` documents. */
  type IdSource = nat -> Value

  /** The document an upsert inserts: the filter's equalities overlaid by the `$set` fields,
      with the server's `_id` when neither of them supplies one. */
  function Inserted(flt: Filter, upd: Doc, newId: Value): (d: Doc)
    ensures d.Keys == EqFields(flt).Keys + upd.Keys + {"_id"}
    ensures forall k :: k in upd ==> d[k] == upd[k]
    ensures forall k :: k in EqFields(flt) && k !in upd ==> d[k] == EqFields(flt)[k]
    ensures "_id" !in EqFields(flt) && "_id" !in upd ==> d["_id"] == newId
  {
    var seeded := EqFields(flt) + upd;
    if "_id" in seeded then seeded else seeded["_id" := newId]
  }

  /** `updateOne(filter, { $set: upd }, { upsert })`. */
  function UpdateOne(c: Collection, flt: Filter, upd: Doc, mode: UpsertMode): (r: (Collection, WriteResult))
    ensures |r.0| == |c| + (if r.1.upserted then 1 else 0)
    ensures r.1.matched <==> exists j :: 0 <= j < |c| && Matches(c[j], flt)
    ensures r.1.upserted <==> mode.UpsertWith? && !r.1.matched
    ensures r.1.upserted ==> r.0 == c + [Inserted(flt, upd, mode.newId)]
    ensures r.1.matched ==> exists i :: 0 <= i < |c| && Matches(c[i], flt)
                                        && (forall j :: 0 <= j < i ==> !Matches(c[j], flt))
                                        && r.0 == c[i := c[i] + upd]
    ensures !r.1.matched && !r.1.upserted ==> r.0 == c
    ensures r.1.modified ==> r.1.matched && r.0 != c
  {
    match FindFirst(c, flt)
    case Some(i) => (c[i := c[i] + upd], WriteResult(true, c[i] + upd != c[i], false))
    case None =>
      if mode.UpsertWith? then (c + [Inserted(flt, upd, mode.newId)], WriteResult(false, false, true))
      else (c, WriteResult(false, false, false))
  }

  /** What `insertOne` and `insertMany` store: the driver gives a document whose `_id` is null
      or missing the ObjectId `newId`, and leaves every other field alone. */
  function WithObjectId(d: Doc, newId: Value): (r: Doc)
    ensures Field(r, "_id") == if Nullish(Field(d, "_id")) then newId else d["_id"]
    ensures r.Keys == d.Keys + {"_id"}
    ensures forall key :: key != "_id" ==> Field(r, key) == Field(d, key)
  {
    if Nullish(Field(d, "_id")) then d["_id" := newId] else d
  }

  /** `deleteOne(filter)`: removes the first matching document; the count removed. */
  function DeleteOne(c: Collection, flt: Filter): (r: (Collection, nat))
    ensures r.1 <= 1 && |r.0| == |c| - r.1
    ensures r.1 == 0 <==> forall j :: 0 <= j < |c| ==> !Matches(c[j], flt)
    ensures r.1 == 0 ==> r.0 == c
    ensures r.1 == 1 ==> exists i :: 0 <= i < |c| && Matches(c[i], flt)
                                     && (forall j :: 0 <= j < i ==> !Matches(c[j], flt))
                                     && r.0 == c[..i] + c[i + 1..]
  {
    match FindFirst(c, flt)
    case Some(i) => (c[..i] + c[i + 1..], 1)
    case None => (c, 0)
  }

  /** The empty filter selects the whole collection, in order. */
  lemma {:induction false} SelectEverything(c: Collection)
    ensures Select(c, []) == c
  {
    if c != [] {
      SelectEverything(c[1..]);
      assert Matches(c[0], []);
      assert [c[0]] + c[1..] == c;
    }
  }

  /** The number of documents among the first `n` that `keep` accepts. */
  function CountWhere(c: Collection, keep: Doc -> bool, n: nat): (k: nat)
    requires n <= |c|
    ensures k <= n
  {
    if n == 0 then 0
    else CountWhere(c, keep, n - 1) + if keep(c[n - 1]) then 1 else 0
  }

  /** A cursor over `find({})` that rewrites each accepted document by its own `_id`:
      `rewrite` is applied to the documents `keep` accepts, in natural order, and the others
      are left alone; the second result counts the rewritten documents. */
  method RewriteEach(c: Collection, rewrite: Doc -> Doc, keep: Doc -> bool) returns (c': Collection, count: nat)
    ensures |c'| == |c|
    ensures forall j :: 0 <= j < |c| ==> c'[j] == if keep(c[j]) then rewrite(c[j]) else c[j]
    ensures count == CountWhere(c, keep, |c|)
  {
    c' := c;
    count := 0;
    var i := 0;
    while i < |c|
      invariant 0 <= i <= |c| && |c'| == |c|
      invariant forall j :: 0 <= j < i ==> c'[j] == if keep(c[j]) then rewrite(c[j]) else c[j]
      invariant forall j :: i <= j < |c| ==> c'[j] == c[j]
      invariant count == CountWhere(c, keep, i)
    {
      var doc := c'[i];
      if keep(doc) {
        c' := c'[i := rewrite(doc)];
        count := count + 1;
      }
      i := i + 1;
    }
  }

  // ---------------------------------------------------------------------------------------
  // Natural keys

  /** The filter `{ fs[0]: vs[0], fs[1]: vs[1], ... }`. */
  function KeyFilter(fs: seq<string>, vs: seq<Value>): (flt: Filter)
    requires |fs| == |vs|
    ensures |flt| == |fs|
    ensures forall k :: 0 <= k < |fs| ==> flt[k] == Eq(fs[k], vs[k])
  {
    seq(|fs|, k requires 0 <= k < |fs| => Eq(fs[k], vs[k]))
  }

  /** Two documents carry the same natural key over fields `fs`. */
  predicate SameKey(d1: Doc, d2: Doc, fs: seq<string>) {
    forall k :: 0 <= k < |fs| ==> KeyOf(d1, fs[k]) == KeyOf(d2, fs[k])
  }

  /** At most one document per natural key (what a unique index on `fs` enforces). */
  predicate Unique(c: Collection, fs: seq<string>) {
    forall i, j :: 0 <= i < j < |c| ==> !SameKey(c[i], c[j], fs)
  }

  /** The update document carries every key field, with the value the filter asks for. */
  predicate KeyCarried(upd: Doc, fs: seq<string>, vs: seq<Value>)
    requires |fs| == |vs|
  {
    forall k :: 0 <= k < |fs| ==> fs[k] in upd && Norm(upd[fs[k]]) == Norm(vs[k])
  }

  /** An upsert by a natural key whose update carries that key keeps the key unique and leaves
      a document with that key in the collection. */
  lemma UpsertKeepsKeyUnique(c: Collection, fs: seq<string>, vs: seq<Value>, upd: Doc, newId: Value)
    requires |fs| == |vs| && KeyCarried(upd, fs, vs)
    requires Unique(c, fs)
    ensures Unique(UpdateOne(c, KeyFilter(fs, vs), upd, UpsertWith(newId)).0, fs)
    ensures FindOne(UpdateOne(c, KeyFilter(fs, vs), upd, UpsertWith(newId)).0, KeyFilter(fs, vs)).Some?
  {
    var flt := KeyFilter(fs, vs);
    var c' := UpdateOne(c, flt, upd, UpsertWith(newId)).0;
    match FindFirst(c, flt)
    case Some(i) =>
      assert SameKey(c'[i], c[i], fs);
      assert Matches(c'[i], flt);
    case None =>
      var d := Inserted(flt, upd, newId);
      assert c' == c + [d];
      assert Matches(d, flt);
      forall j | 0 <= j < |c|
        ensures !SameKey(c[j], d, fs)
      {
        assert !Matches(c[j], flt);
      }
      assert c'[|c|] == d;
  }

  /** After an upsert by a natural key whose update carries that key, a document with that
      key is stored. */
  lemma UpsertFindable(c: Collection, fs: seq<string>, vs: seq<Value>, upd: Doc, newId: Value)
    requires |fs| == |vs| && KeyCarried(upd, fs, vs)
    ensures FindOne(UpdateOne(c, KeyFilter(fs, vs), upd, UpsertWith(newId)).0, KeyFilter(fs, vs)).Some?
  {
    var flt := KeyFilter(fs, vs);
    var c' := UpdateOne(c, flt, upd, UpsertWith(newId)).0;
    match FindFirst(c, flt)
    case Some(i) =>
      assert SameKey(c'[i], c[i], fs);
      assert Matches(c'[i], flt);
    case None =>
      assert c'[|c|] == Inserted(flt, upd, newId);
      assert Matches(c'[|c|], flt);
  }

  /** An upsert by a natural key whose update carries that key changes no stored document's
      key: the one it matches keeps the key it was matched by, and it touches no other. */
  lemma UpsertKeepsKeys(c: Collection, fs: seq<string>, vs: seq<Value>, upd: Doc, newId: Value)
    requires |fs| == |vs| && KeyCarried(upd, fs, vs)
    ensures var c' := UpdateOne(c, KeyFilter(fs, vs), upd, UpsertWith(newId)).0;
            |c| <= |c'| && forall j :: 0 <= j < |c| ==> SameKey(c'[j], c[j], fs)
  {
  }

  /** Repeating an upsert by a natural key that its update carries changes nothing more:
      the second write matches, modifies nothing and inserts nothing. */
  lemma {:induction false} UpsertIdempotent(c: Collection, fs: seq<string>, vs: seq<Value>, upd: Doc, newId: Value, newId': Value)
    requires |fs| == |vs| && KeyCarried(upd, fs, vs)
    ensures var flt := KeyFilter(fs, vs);
            var first := UpdateOne(c, flt, upd, UpsertWith(newId));
            var second := UpdateOne(first.0, flt, upd, UpsertWith(newId'));
            second.0 == first.0 && second.1 == WriteResult(true, false, false)
  {
    var flt := KeyFilter(fs, vs);
    var c' := UpdateOne(c, flt, upd, UpsertWith(newId)).0;
    var i: nat;
    match FindFirst(c, flt)
    case Some(i0) =>
      i := i0;
      assert Matches(c'[i], flt) by {
        assert SameKey(c'[i], c[i], fs);
      }
    case None =>
      i := |c|;
      assert c'[i] == Inserted(flt, upd, newId);
      assert Matches(c'[i], flt);
    assert forall j :: 0 <= j < i ==> c'[j] == c[j];
    FindFirstIs(c', flt, i);
    assert c'[i] + upd == c'[i];
  }

  /** The position an upsert writes: the first match, or the end of the collection when it
      inserts. */
  function UpsertPosition(c: Collection, flt: Filter): (i: nat)
    ensures i <= |c|
  {
    match FindFirst(c, flt)
    case Some(i) => i
    case None => |c|
  }

  /** A filter whose equalities name only fields the update sets seeds no field of its own. */
  lemma {:induction false} EqFieldsWithin(flt: Filter, upd: Doc)
    requires forall k :: 0 <= k < |flt| && flt[k].Eq? ==> flt[k].field in upd
    ensures EqFields(flt).Keys <= upd.Keys
  {
    if flt != [] {
      assert forall k :: 0 <= k < |flt[1..]| ==> flt[1..][k] == flt[k + 1];
      EqFieldsWithin(flt[1..], upd);
    }
  }

  /** Reading a natural key back after an upsert by it yields the written document: the first
      match merged with the update, or the update itself inserted with the server's `_id`
      when it has none; no other document changes. */
  lemma UpsertReadBack(c: Collection, fs: seq<string>, vs: seq<Value>, upd: Doc, newId: Value)
    requires |fs| == |vs| && KeyCarried(upd, fs, vs)
    ensures var flt := KeyFilter(fs, vs);
            var c' := UpdateOne(c, flt, upd, UpsertWith(newId)).0;
            var i := UpsertPosition(c, flt);
            && i < |c'|
            && FindFirst(c', flt) == Some(i)
            && (i < |c| ==> c'[i] == c[i] + upd && |c'| == |c|)
            && (i == |c| ==> c' == c + [Inserted(flt, upd, newId)])
            && (i == |c| ==> c'[i] == if "_id" in upd then upd else upd["_id" := newId])
            && (forall j :: 0 <= j < |c| && j != i ==> c'[j] == c[j])
  {
    var flt := KeyFilter(fs, vs);
    EqFieldsWithin(flt, upd);
    var c' := UpdateOne(c, flt, upd, UpsertWith(newId)).0;
    var i := UpsertPosition(c, flt);
    match FindFirst(c, flt)
    case Some(i0) =>
      assert Matches(c'[i], flt) by {
        assert SameKey(c'[i], c[i], fs);
      }
    case None =>
      assert c'[i] == Inserted(flt, upd, newId);
      assert Matches(c'[i], flt);
    assert forall j :: 0 <= j < i ==> c'[j] == c[j];
    FindFirstIs(c', flt, i);
  }

  /** An update without upsert whose result still matches the filter is read back by it. */
  lemma UpdateReadBack(c: Collection, flt: Filter, upd: Doc, i: nat)
    requires FindFirst(c, flt) == Some(i) && Matches(c[i] + upd, flt)
    ensures FindFirst(UpdateOne(c, flt, upd, NoUpsert).0, flt) == Some(i)
  {
    var c' := UpdateOne(c, flt, upd, NoUpsert).0;
    assert forall j :: 0 <= j < i ==> c'[j] == c[j];
    FindFirstIs(c', flt, i);
  }
}

=== FILE: wrappers.dfy ===
/** The optional and result wrappers shared by every module of the model. */
module Wrappers {

  /** An optional value: `None` stands for JavaScript's "nothing here" results. */
  datatype Option<+T> = None | Some(value: T)

  /** The outcome of an operation that can fail with an error of type `E`. */
  datatype Result<+R, +E> = Success(value: R) | Failure(error: E)
}
